=== FILE: README.md ===
# Document analysis: prompt templates, chat and extraction, in Dafny

This project models the client-side logic of a browser app for analysing
documents. A PDF is sent to a cloud document-understanding service and polled
until its analysis is ready. The raw result is normalised into a fixed
document shape and previewed. The user can then ask questions about it
through a chat assistant, whose system prompt comes from a template chosen by
the user. Templates are either built-in presets or the user's own, kept in
browser storage.

Each module follows one source file:

| module | file | what it holds |
|---|---|---|
| `Wrappers` | — | `Option` and `Result` |
| `JsString` | — | the JavaScript string operations the code relies on: `indexOf`, `includes`, `trim`, `split`/`join`, `substring`, `replace` with a string pattern (first match only), global `replace` with `$` patterns, decimal rendering of numbers |
| `PromptTemplates` | `src/lib/PromptTemplates.ts` | the template record, `{variable}` substitution, the eight presets, lookup by id, the variable list |
| `PromptStorage` | `src/lib/PromptStorage.ts` | the two storage slots, and saving, loading, deleting, exporting, importing and duplicating templates |
| `PromptHook` | `src/lib/usePromptTemplate.ts` | the template chosen at start-up, and the system prompt generated for a document |
| `PromptSettings` | `src/components/PromptSettings.tsx` | selecting a template, drafting and saving one, inserting a variable at the cursor |
| `ChatTables` | `src/components/ChatInterface.tsx` | `formatTables`/`createTable`: runs of pipe rows become HTML tables |
| `ChatSend` | `src/components/ChatInterface.tsx` | `sendMessage` and `getDetailedErrorMessage`: configuration, URL, error classification, the message history |
| `Extraction` | `src/components/DocumentIntelligence.tsx` | `extractDataFromPDF`: submission, the 30-poll loop, progress and steps, the normalised result |
| `JsonPreview` | `src/components/JSONPreview.tsx` | the download's file name, `formatText`, the bounded lists of pairs and cells |
| `EnvFile` | `test_openai_connection.cjs` | the `.env` reader and the deployments URL of the connection check |

Browser storage is modelled as a value `Store` with two slots. Each slot is
absent, unparseable or holds a value. Every operation that writes storage
returns the new `Store`. The current time (`new Date().toISOString()`) and
`Date.now()` are parameters (`now`, `clock`). The network is a parameter
too:
- for the chat, the one reply obtained (`Reply`);
- for the extraction, the submission's answer (`Submission`) and the answer
  to every poll (`responses: nat -> Poll`).

The environment variables (`import.meta.env`) are the parameter `Env`.

## Model

| member | source | states |
|---|---|---|
| JsString.IndexOf | src/components/JSONPreview.tsx:23 | the position found is a match and no earlier position matches; none exactly when the pattern occurs nowhere |
| JsString.ReplaceFirst | src/components/JSONPreview.tsx:23 | a string pattern replaces only its first occurrence, the text around it kept; without an occurrence nothing changes |
| JsString.Split | test_openai_connection.cjs:10 | splitting gives one more piece than there are separators, and no piece holds the separator |
| JsString.JoinSplit | test_openai_connection.cjs:13 | joining the pieces of a split with the separator gives back the original string |
| JsString.SplitJoin | test_openai_connection.cjs:10-13 | splitting a join of separator-free pieces gives back the pieces |
| JsString.Substring | src/components/JSONPreview.tsx:37 | within bounds `substring` is the slice, and it is never longer than the string |
| JsString.Trim | test_openai_connection.cjs:12-13 | `trim` gives a piece of the string no longer than it, neither starting nor ending with white space |
| JsString.TrimIsInfix | src/components/ChatInterface.tsx:59 | what `trim` keeps is a contiguous piece of the line with only white space before and after it |
| JsString.ReplaceAllPattern | src/lib/PromptTemplates.ts:33-34 | a global `replace` whose replacement holds no `$` replaces every occurrence by the replacement literally |
| JsString.ParseNatToString | src/lib/PromptStorage.ts:190 | a number's decimal rendering reads back as the same number |
| PromptTemplates.FindIndex | src/lib/PromptStorage.ts:20 | the index found holds the id and no earlier entry does; none exactly when no entry has the id |
| PromptTemplates.Find | src/lib/PromptTemplates.ts:274-276 | the template found has the id and is the first with it; none exactly when no template has the id |
| PromptTemplates.FindUnique | src/lib/PromptTemplates.ts:274-276 | when ids are distinct, looking up a template's id finds that very template |
| PromptTemplates.GetTemplateById | src/lib/PromptTemplates.ts:274-276 | the preset returned has the id asked for, and is the only preset with it; none exactly when no preset has the id |
| PromptTemplates.PresetIdsDistinct | src/lib/PromptTemplates.ts:51-271 | no two presets share an id |
| PromptTemplates.PresetsBuiltIn | src/lib/PromptTemplates.ts:51-271 | there are eight presets, none custom, each with an output style named like its id |
| PromptTemplates.PresetPrompts | src/lib/PromptTemplates.ts:40-271 | every preset's prompt is the shared base prompt followed by its style guide, and the guide holds no placeholder |
| PromptTemplates.DefaultTemplateExists | src/lib/PromptTemplates.ts:284 | the default id names the first preset |
| PromptTemplates.AvailableKeys | src/lib/PromptTemplates.ts:287-293 | the variables offered are fileName, pageCount, textContent, tableCount and keyValueCount, in that order |
| PromptTemplates.BasePromptMentionsEveryVariable | src/lib/PromptTemplates.ts:40-48 | the base prompt mentions the placeholder of every variable offered |
| PromptTemplates.SubstituteAsWritten | src/lib/PromptTemplates.ts:27-37 | `substituteVariables` as written: for each entry in order, every `{key}` is replaced through a global `replace`, `$` patterns in the value expanded (keys matched literally, see Left out) |
| PromptTemplates.Substitute | src/lib/PromptTemplates.ts:27-37 | the corrected substitution: for each entry in order, every `{key}` is replaced by the value taken literally |
| PromptTemplates.KeysAreLetters | src/lib/PromptTemplates.ts:287-293 | every key offered, and bound by the prompt generator, is a non-empty run of letters |
| PromptTemplates.SubstituteAsWrittenAgrees | src/lib/PromptTemplates.ts:27-37 | when no value holds `$`, the code's `replace` with a global pattern inserts every value literally |
| PromptTemplates.SubstituteAsWrittenExpandsDollar | src/lib/PromptTemplates.ts:33-34 | the value `$&` for `{fileName}` leaves `{fileName}` in place as written, and is inserted literally once corrected |
| PromptTemplates.SubstituteIsSequential | src/lib/PromptTemplates.ts:30-36 | for any two different brace-free keys, a value holding the second key's placeholder is filled in turn when its entry comes first, and stays a placeholder when it comes last |
| PromptTemplates.SubstituteWithoutBraces | src/lib/PromptTemplates.ts:27-37 | a template without `{` comes back unchanged |
| PromptTemplates.SubstituteKeepsUnboundPlaceholder | src/lib/PromptTemplates.ts:27-37 | a placeholder whose key has no value survives the substitution |
| PromptTemplates.SubstituteRender | src/lib/PromptTemplates.ts:27-37 | substituting into text made of literal parts and placeholders equals filling each placeholder with its key's value |
| PromptTemplates.FillLayout | src/lib/PromptTemplates.ts:27-48 | text with placeholders between literal parts, once filled, is the literal parts with the values between them |
| PromptTemplates.FillBasePrompt | src/lib/PromptTemplates.ts:40-48 | filling a base prompt followed by a brace-free guide fills the base prompt's placeholders and leaves the guide alone |
| PromptStorage.LoadCustomTemplates | src/lib/PromptStorage.ts:43-54 | only custom templates are loaded, every stored custom one is, and a missing or unparseable slot loads nothing |
| PromptStorage.LoadKeepsOrder | src/lib/PromptStorage.ts:43-54 | loading keeps the stored order: loading a concatenation loads each part in turn |
| PromptStorage.Stamp | src/lib/PromptStorage.ts:22-27 | a saved template is marked custom and updated now, keeps a creation time it had or gets now, and is otherwise unchanged |
| PromptStorage.Upsert | src/lib/PromptStorage.ts:29-33 | a template with a new id is appended; otherwise it replaces the first template with its id |
| PromptStorage.UpsertKeeps | src/lib/PromptStorage.ts:29-33 | after an upsert the template is present, every other id keeps its position, ids distinct before stay distinct, and nothing else appears |
| PromptStorage.SaveCustomTemplate | src/lib/PromptStorage.ts:17-40 | a save leaves the preferences alone and stores the saved template, stamped, beside only the custom templates there before |
| PromptStorage.SaveIsUpsert | src/lib/PromptStorage.ts:17-40 | the loaded templates after a save are the earlier ones with the stamped template upserted: it loads back, the others keep their places, and the active id is untouched |
| PromptStorage.LoadUserPreferences | src/lib/PromptStorage.ts:98-109 | stored preferences are returned; missing or unparseable ones give the default template id |
| PromptStorage.GetActiveTemplateId | src/lib/PromptStorage.ts:75-83 | the active id is never empty: the stored id when set, otherwise the default |
| PromptStorage.SetActiveTemplateId | src/lib/PromptStorage.ts:86-95 | the preferences become the given id, and the templates are untouched |
| PromptStorage.DeleteCustomTemplate | src/lib/PromptStorage.ts:57-72 | the active id goes back to the default exactly when it named the deleted template |
| PromptStorage.DeleteRemovesOnly | src/lib/PromptStorage.ts:57-72 | deleting keeps exactly the custom templates with other ids, in order, resets the active id only if it was the deleted one, and keeps distinct ids distinct |
| PromptStorage.ClearAllCustomTemplates | src/lib/PromptStorage.ts:175-185 | afterwards no custom template loads and the active id is the default |
| PromptStorage.ExportTemplates | src/lib/PromptStorage.ts:112-120 | the export is exactly the custom templates the store loads, so only custom ones |
| PromptStorage.Importable | src/lib/PromptStorage.ts:132-134 | an imported entry is kept exactly when its id, name, system prompt and output style are all non-empty |
| PromptStorage.ImportTemplates | src/lib/PromptStorage.ts:123-172 | unparseable text, a non-array and an array without a valid template each give their error; an array holding a valid template succeeds and reports exactly the number of valid entries; success keeps the preferences and counts between one and all entries |
| PromptStorage.ImportStoresMerge | src/lib/PromptStorage.ts:132-164 | a successful import stores the valid entries, stamped, upserted onto the existing ones, and reports how many valid entries there were |
| PromptStorage.MergeKeeps | src/lib/PromptStorage.ts:149-161 | the merge keeps every existing template whose id is not imported, in place, contains every imported id, and keeps ids distinct |
| PromptStorage.UpsertAllFresh | src/lib/PromptStorage.ts:149-161 | imported templates with distinct new ids are appended in order |
| PromptStorage.ImportCountsEntries | src/lib/PromptStorage.ts:149-164 | importing the same valid template twice reports 2 but stores one |
| PromptStorage.ExportImportRoundTrip | src/lib/PromptStorage.ts:112-172 | importing an export into an empty store succeeds, reports every template, and loads the original store's custom templates, stamped, in order |
| PromptStorage.DuplicateTemplate | src/lib/PromptStorage.ts:188-200 | the copy's id is the original's with `_copy_` and the clock appended, its name gets " (Copy)", it is custom and stamped now, every other field is the original's, and it is saved |
| PromptStorage.DuplicateIsStored | src/lib/PromptStorage.ts:188-200 | the copy's id differs from the original's, and the copy loads back from the store |
| PromptHook.InitialTemplate | src/lib/usePromptTemplate.ts:7-11 | the template chosen at start-up is a preset or a stored custom template |
| PromptHook.InitialTemplateChoice | src/lib/usePromptTemplate.ts:7-11 | a preset with the active id wins; otherwise the custom template with that id; otherwise the first preset |
| PromptHook.InitialTemplateOfFreshStore | src/lib/usePromptTemplate.ts:7-11 | with nothing stored, the first preset is chosen |
| PromptHook.Bindings | src/lib/usePromptTemplate.ts:17-25 | the prompt's variables are bound in the order of the variables offered |
| PromptHook.BindingsLookup | src/lib/usePromptTemplate.ts:17-25 | every variable offered has a value in the bindings, the one the document gives |
| PromptHook.DefaultsOfEmptyDocument | src/lib/usePromptTemplate.ts:21-25 | an empty document binds "Unknown", "0", "", "0" and "0" |
| PromptHook.GenerateSystemPrompt | src/lib/usePromptTemplate.ts:13-27 | a prompt without placeholders comes back unchanged; for a document whose name and text hold no `$`, the result is what the code as written gives |
| PromptHook.GeneratePresetPrompt | src/lib/usePromptTemplate.ts:13-27 | for a file name and text without `{`, a preset's generated prompt is the base prompt's literal parts interleaved with the document's values, then the style guide; the code as written gives the same when they also hold no `$` |
| PromptSettings.SelectTemplate | src/components/PromptSettings.tsx:78-86 | selecting a template makes it current and, when it has an id, the active id; the templates are untouched |
| PromptSettings.SelectedPresetIsRestored | src/components/PromptSettings.tsx:78-86 | a selected preset is the template chosen the next time the app starts |
| PromptSettings.SyncSelected | src/components/PromptSettings.tsx:70-76 | the selection follows the current template's id when a preset or custom template has it, and is kept otherwise |
| PromptSettings.GeneratedIdsDistinct | src/components/PromptSettings.tsx:88-100 | drafts created at different clock readings get different ids |
| PromptSettings.NewDraft | src/components/PromptSettings.tsx:88-100 | a new draft has a generated `custom_` id, empty texts and the default style, token limit and temperature |
| PromptSettings.EditDraft | src/components/PromptSettings.tsx:142-145 | editing starts a draft holding every one of the template's fields |
| PromptSettings.TemperaturesAgree | src/components/PromptSettings.tsx:121 | the temperature as written and the corrected one differ exactly for a temperature of 0 |
| PromptSettings.ZeroTemperatureReplaced | src/components/PromptSettings.tsx:121 | a temperature of 0 is saved as 0.7 as written, and as 0 once corrected |
| PromptSettings.BuildTemplateAsWritten | src/components/PromptSettings.tsx:103-122 | a draft builds exactly when it has a name and a prompt, else the validation error; the temperature falls back on any falsy value |
| PromptSettings.BuildTemplate | src/components/PromptSettings.tsx:103-122 | a draft builds exactly when it has a name and a prompt, else the validation error; each field is the draft's value or its default |
| PromptSettings.BuildsDifferInTemperature | src/components/PromptSettings.tsx:113-122 | the build as written and the corrected one differ in the temperature alone |
| PromptSettings.SaveDraft | src/components/PromptSettings.tsx:102-140 | an invalid draft is rejected with the validation error; a valid one is saved as its template, the preferences kept |
| PromptSettings.SaveNewDraft | src/components/PromptSettings.tsx:88-122 | a new draft given a name and a prompt builds under its generated id with every other field at its default |
| PromptSettings.EditThenSave | src/components/PromptSettings.tsx:113-145 | editing a template with no falsy field and saving it unchanged gives the template back, marked custom |
| PromptSettings.ResaveRestamps | src/components/PromptSettings.tsx:113-127 | saving an edited template again gives it the time of the save as its creation time |
| PromptSettings.InsertVariable | src/components/PromptSettings.tsx:234-250 | the cursor goes after the inserted placeholder |
| PromptSettings.InsertVariablePlacesPlaceholder | src/components/PromptSettings.tsx:234-250 | the text before the selection is kept, the placeholder ends at the new cursor, the text after follows it, and removing the placeholder leaves the text with the selection cut out |
| ChatTables.TableRowIffTwoPipes | src/components/ChatInterface.tsx:62 | a line is taken as a table row exactly when it holds at least two pipes |
| ChatTables.IsTableRow | src/components/ChatInterface.tsx:62 | a line is a table row when it contains `|` and splitting it at `|` gives more than two pieces; `ChatTables.TableRowIffTwoPipes` shows this means two pipes |
| ChatTables.Cells | src/components/ChatInterface.tsx:92 | a row's cells are its trimmed `|`-separated pieces with the empty ones dropped: none is empty, and none starts or ends with white space |
| ChatTables.RowRun | src/components/ChatInterface.tsx:60-82 | a run of rows is as long as possible: all its lines are rows and the next line is not |
| ChatTables.GroupKeepsLines | src/components/ChatInterface.tsx:56-83 | grouping loses and reorders no non-empty line: the blocks' lines are the input's non-empty lines in order |
| ChatTables.GroupWellFormed | src/components/ChatInterface.tsx:60-82 | every table block is a non-empty run of rows, and every text block is a non-empty non-row line |
| ChatTables.TablesAreRuns | src/components/ChatInterface.tsx:60-82 | one table is emitted for each maximal run of row lines |
| ChatTables.GroupWithoutRows | src/components/ChatInterface.tsx:60-82 | without rows, every non-empty line stays text, in order |
| ChatTables.OnePipeLinesStay | src/components/ChatInterface.tsx:62 | lines with fewer than two pipes never become a table |
| ChatTables.CreateTable | src/components/ChatInterface.tsx:86-106 | a table is produced exactly when there are rows |
| ChatTables.CellHtmlTagged | src/components/ChatInterface.tsx:93-100 | a cell of the first row opens with `<th`, closes with `</th>` and is bold; a cell of any later row opens with `<td` and closes with `</td>`; the cell text is kept |
| ChatTables.CellsOfJoin | src/components/ChatInterface.tsx:92 | the cells of a row made by joining trimmed, non-empty, pipe-free cells with pipes are those cells |
| ChatTables.FormatLines | src/components/ChatInterface.tsx:56-82 | the line-by-line loop renders each block of the grouping in turn |
| ChatTables.FormatTables | src/components/ChatInterface.tsx:51-84 | the output is the grouping's blocks, tables rendered by `createTable`, joined with newlines |
| ChatTables.FormattedKeepsLines | src/components/ChatInterface.tsx:51-84 | the reply's non-empty lines all reach the blocks, in order |
| ChatSend.StatusMessage | src/components/ChatInterface.tsx:109-126 | statuses 400, 401, 403, 404, 429 and 500 each get their own message; any other status is reported with its number |
| ChatSend.GetDetailedErrorMessage | src/components/ChatInterface.tsx:108-133 | a response decides by its status; without one, a message mentioning `fetch` is the network error, another non-empty message is kept, and an empty one gives the unknown error; no result is empty |
| ChatSend.KnownStatusNoFetch | src/components/ChatInterface.tsx:109-126 | no status message mentions `fetch` |
| ChatSend.ClassifyTwice | src/components/ChatInterface.tsx:323-343 | classifying an already classified message again keeps it, so a bad status reaches the user as its own message |
| ChatSend.OtherStatusesDistinct | src/components/ChatInterface.tsx:126 | different statuses without a message of their own get different messages |
| ChatSend.ReadConfig | src/components/ChatInterface.tsx:282-299 | the configuration is read exactly when the endpoint and key are set; a missing endpoint is reported first; the deployment falls back on its default |
| ChatSend.DeploymentNeverMissing | src/components/ChatInterface.tsx:284-297 | the missing-deployment error can never be raised |
| ChatSend.StripTrailingSlash | src/components/ChatInterface.tsx:301 | putting back the one trailing slash removed gives the endpoint again |
| ChatSend.ChatUrl | src/components/ChatInterface.tsx:301 | the chat-completions URL: the endpoint without one trailing `/`, then `/openai/deployments/`, the deployment, `/chat/completions?api-version=` and the version |
| ChatSend.ChatUrlIgnoresTrailingSlash | src/components/ChatInterface.tsx:301 | an endpoint with and without its trailing slash gives the same URL |
| ChatSend.OneSlashRemoved | src/components/ChatInterface.tsx:301 | only one trailing slash is removed |
| ChatSend.ContentPreviewAsWritten | src/components/ChatInterface.tsx:175 | the preview as written is the first 3000 characters followed by the ellipsis, and `undefined...` without text, so it is never empty |
| ChatSend.ContentPreviewDiscrepancy | src/components/ChatInterface.tsx:175 | with text, the two previews agree; without, the code's gives "undefined..." and the corrected gives "" |
| ChatSend.ContentPreview | src/components/ChatInterface.tsx:175 | the preview is the first 3000 characters and an ellipsis, or empty without text |
| ChatSend.ExtractedPreviewsAgree | src/components/ChatInterface.tsx:172-178 | for the data the extraction produces, the text is always present, so the preview as written and the corrected one agree |
| ChatSend.Summarize | src/components/ChatInterface.tsx:172-178 | the summary keeps the name and page count, previews the text as the code does whenever there is text, and counts tables and pairs, 0 when missing |
| ChatSend.Attempt | src/components/ChatInterface.tsx:282-338 | a configuration error is raised before any request; an unreachable service and an unparseable body raise their own message; a bad status raises its message; a parsed body gives its first choice's content, or the apology when that is missing or empty, so a success is never empty |
| ChatSend.ReplyShown | src/components/ChatInterface.tsx:326-338 | with a configured chat and an OK reply carrying content, the content is the assistant's last message and no error is shown |
| ChatSend.SendMessage | src/components/ChatInterface.tsx:155-362 | a blank question or a send in progress changes nothing; otherwise the question and exactly one answer are appended, the input cleared, loading off |
| ChatSend.SendAppendOnly | src/components/ChatInterface.tsx:155-362 | the history only grows: earlier messages are never changed |
| ChatSend.SendReportsFailure | src/components/ChatInterface.tsx:340-358 | the error banner is set exactly when the attempt failed, and the last message then carries its text |
| ChatSend.BadStatusShown | src/components/ChatInterface.tsx:319-324 | a bad status reaches the banner as its own message |
| ChatSend.MissingEndpointFirst | src/components/ChatInterface.tsx:286-290 | a missing endpoint is reported whatever the network would have answered |
| ChatSend.FetchFailureShown | src/components/ChatInterface.tsx:128-130 | a failed request whose message mentions `fetch` is shown as a network error |
| ChatSend.EmptyReplyShown | src/components/ChatInterface.tsx:326-338 | an empty or missing reply shows the apology, without an error banner |
| Extraction.PollFrom | src/components/DocumentIntelligence.tsx:70-102 | polling stops at the first poll that is not pending, within 30 polls; it times out exactly when all 30 are pending; success carries the poll's result, failure that poll's message |
| Extraction.PollProgressBounds | src/components/DocumentIntelligence.tsx:78 | the progress shown while polling rises above 50 and never above 90 |
| Extraction.ReportedNonDecreasing | src/components/DocumentIntelligence.tsx:35-78 | the progress reported up to the last poll never goes down and stays between 10 and 90 |
| Extraction.AnalyzingSteps | src/components/DocumentIntelligence.tsx:79 | the n-th poll reports the step "Analyzing document... (n/30)" |
| Extraction.Normalize | src/components/DocumentIntelligence.tsx:110-125 | the metadata carries the file's name and size, the extraction time and the number of pages; the raw result is kept; the text is the service's text or empty; each of pages, tables, key-value pairs and paragraphs is the service's list when present and empty when missing; a missing result gives empty content |
| Extraction.NormalizeKeepsContent | src/components/DocumentIntelligence.tsx:110-125 | normalising a complete result gives back its content, and a missing result reads like a result with every part missing |
| Extraction.AfterPolling | src/components/DocumentIntelligence.tsx:100-152 | after polling, success yields the normalised result, a failure its message and 30 pending polls the time-out; processing ends, the progress goes to 100 only on success and then back to 0, and the step is cleared |
| Extraction.ExtractDataFromPdf | src/components/DocumentIntelligence.tsx:26-153 | nothing happens without a file; every run ends with processing off, progress back at 0 and the step cleared, within 30 polls |
| Extraction.SubmitFailureStopsEarly | src/components/DocumentIntelligence.tsx:47-64 | a failed submission or one without an operation location is reported before any poll |
| Extraction.OutcomeOfPolling | src/components/DocumentIntelligence.tsx:70-125 | once submitted, success gives the normalised result, a decisive failure its message, and 30 pending polls the time-out |
| Extraction.ProgressNonDecreasing | src/components/DocumentIntelligence.tsx:35-128 | the progress shown before the reset never goes down, stays between 10 and 100, and reaches 100 exactly when the extraction succeeded |
| JsonPreview.DownloadName | src/components/JSONPreview.tsx:23 | the file name ends in `.json`, and a missing name gives `extracted-data.json` |
| JsonPreview.DownloadNameDropsFirstPdf | src/components/JSONPreview.tsx:23 | the first `.pdf`, wherever it is, is removed and the rest kept; a name that is only `.pdf` gives `extracted-data.json` |
| JsonPreview.DownloadNameWithoutPdf | src/components/JSONPreview.tsx:23 | a name without `.pdf` is kept whole |
| JsonPreview.FormatText | src/components/JSONPreview.tsx:35-38 | a missing or empty text shows the placeholder; a text that fits is shown as it is; a longer one is shown as its first characters and an ellipsis |
| JsonPreview.FormatTextShowsPrefix | src/components/JSONPreview.tsx:35-38 | a text is shown unchanged exactly when it fits or already ends in the ellipsis at the cut; the result never exceeds the limit plus the ellipsis |
| JsonPreview.FormatTextFits | src/components/JSONPreview.tsx:35-38 | formatting a text that fits, twice, gives the text |
| JsonPreview.Bounded | src/components/JSONPreview.tsx:112-121 | at most the limit of items are shown, from the front, and the rest are counted exactly when there are more |
| JsonPreview.BoundedAccountsForAll | src/components/JSONPreview.tsx:112-121 | the items shown and the count of the rest add up to the whole list |
| JsonPreview.PairLine | src/components/JSONPreview.tsx:114-115 | a pair shows its non-empty key and value; a missing or empty key shows "Unknown Key" and a missing or empty value "No value" |
| JsonPreview.PairSection | src/components/JSONPreview.tsx:108-124 | the section is absent exactly without pairs; otherwise it shows the first five, and exactly when there are more it notes how many are left |
| JsonPreview.CellSection | src/components/JSONPreview.tsx:138-155 | a table without cells shows no data; otherwise the first twelve cells (all of them when fewer), "Empty" for a blank one, and exactly when there are more a note of how many are left |
| JsonPreview.CountOf | src/components/JSONPreview.tsx:78-89 | a missing list counts as 0 |
| EnvFile.StripQuotes | test_openai_connection.cjs:13 | at most one character is taken from each end, and what is left is a slice of the value |
| EnvFile.StripQuotesRoundTrip | test_openai_connection.cjs:13 | a value without quotes at its ends loses exactly the quotes put before and after it, each optional |
| EnvFile.StripQuotesOnce | test_openai_connection.cjs:13 | doubled quotes at the ends lose only one each |
| EnvFile.SplitAtFirst | test_openai_connection.cjs:10 | splitting at a separator whose first occurrence follows a text gives that text and the pieces after it |
| EnvFile.ParseLine | test_openai_connection.cjs:10-15 | a line gives an entry exactly when it holds `=` |
| EnvFile.ParseLineAtFirstEquals | test_openai_connection.cjs:10-14 | a line is cut at its first `=`: the key is the trimmed text before it and the value the trimmed rest, later `=` kept, quotes stripped |
| EnvFile.LaterLineWins | test_openai_connection.cjs:9-16 | a line's entry holds when no later line has the same key |
| EnvFile.UnsetKey | test_openai_connection.cjs:9-16 | a key no line has stays unset |
| EnvFile.ReadEnv | test_openai_connection.cjs:9-16 | the map has a key exactly when some line sets it, and holds the value of the last such line |
| EnvFile.RewriteHost | test_openai_connection.cjs:19 | an endpoint not on the Cognitive Services host is left as it is, and the rewritten endpoint is empty exactly when the entry is |
| EnvFile.HostRewritten | test_openai_connection.cjs:19 | the first occurrence of the Cognitive Services host name, wherever it is, is replaced by the OpenAI one and the rest kept |
| EnvFile.ContosoEndpointRewritten | test_openai_connection.cjs:19 | `https://contoso.cognitiveservices.azure.com/` becomes `https://contoso.openai.azure.com/` |
| EnvFile.Connect | test_openai_connection.cjs:19-35 | without an endpoint entry the check fails before anything else; with one, it reports missing configuration exactly when the endpoint is empty or the key is missing or empty; a request is made only with a non-empty key, to the deployments path under the rewritten endpoint |
| EnvFile.ListUrlOfEndpoint | test_openai_connection.cjs:19-35 | an OpenAI endpoint, with or without its trailing slash, lists the deployments under itself |

## Left out

- Storage as JSON: `JSON.parse` and `JSON.stringify` are not modelled. A stored slot is absent, unparseable or a parsed value, and an import receives its text already parsed (`Parsed`: a syntax error with its message, a non-array, or the array's entries). A template is importable when its `id`, `name`, `systemPrompt` and `outputStyle` are non-empty.
- `getStorageInfo` (`src/lib/PromptStorage.ts:203-215`) measures serialised sizes in bytes, which depend on JSON serialisation. It is not modelled.
- The presets' style guides are long natural-language texts. The model keeps the base prompt word for word. Of each style guide, only its heading line is kept. Like the original guide, it holds no placeholder.
- String lengths count characters, not UTF-16 code units. Strings are not normalised and there is no case folding.
- `formatResponse` (`src/components/ChatInterface.tsx:31-48`) applies regular expressions for bold, italics, headers and lists. It is not modelled: regular expressions over HTML are out of scope. `ChatTables` models `formatTables` on the lines it receives.
- `ChatTables.FormatTables` trims the lines before the loop, and the code trims each one inside it; the result is the same.
- In the chat: the welcome message, the wording of the chat system prompt, the request's JSON body, toasts and scrolling are not modelled. The reply is a parameter: a network failure with its message, or a status with its parsed body.
- In the extraction: the one-second wait between polls, toasts and the upload's `FormData` are not modelled. Progress is computed in exact reals, not floating point. The progress values and the steps are kept as two separate traces, without their interleaving. The step labels are constructors, not their texts. File size in megabytes and the date shown are not modelled; `extractedAt` is the parameter `now`.
- In the settings page: dialogs, `confirm()` and the file reader are not modelled. The delete, duplicate, export and import handlers (`src/components/PromptSettings.tsx:147-232`) only call the storage functions modelled in `PromptStorage`, so the model has them there. A number input left empty (`NaN` or missing) is `None`.
- In the preview: rendering, the `Blob` download and the counts' display text are not modelled.
- In the connection check: reading `.env` from disk, console output and the HTTPS request are not modelled. When the endpoint entry is missing, the code throws a `TypeError` (`undefined.replace`); the model gives `NoEndpoint` for that case.
- `update_chat_interface.py` is a one-off editing script for the source, not part of the app, and is not modelled. Nor are the pages and the navigation bar.
- JsString.ReplaceAllPattern: models `$&`, `` $` ``, `$'` and `$$` in a replacement string; every other `$`, such as the numbered groups `$1`, which a pattern without groups does not expand, stays literal.
- ChatTables.FormatLines: the line and table renderers are parameters, so its contract speaks of blocks; `ChatTables.FormatTables` instantiates them with `createTable`.
- PromptSettings.SaveDraft: saves with the corrected temperature, see Findings. The code as written is `PromptSettings.BuildTemplateAsWritten`.
- PromptHook.GenerateSystemPrompt: inserts the values literally. When the file name or text holds `$&`, `` $` ``, `$'` or `$$`, the code as written (`src/lib/PromptTemplates.ts:33-34`) expands it instead, and the contract does not promise that result; it ties the two together only for values without `$`. The same holds for `PromptHook.GeneratePresetPrompt`, which is moreover proved only for a file name and text without `{`: a name such as `{textContent}.pdf` is inserted and then rewritten by the later `textContent` entry, so the result is not the plain interleaving (`PromptTemplates.SubstituteIsSequential` shows the mechanism).
- PromptTemplates.SubstituteAsWritten: matches `{key}` literally. The code builds a regular expression from the key (`src/lib/PromptTemplates.ts:33`), so a key holding a special character (`a.b` also matches `{axb}`, `(` throws) behaves differently, and `Object.entries` puts integer-like keys first. The only caller (`src/lib/usePromptTemplate.ts:20-26`) binds five keys made of letters only (`PromptTemplates.KeysAreLetters`), for which the two agree.
- ChatSend.Summarize: a document without text gets the empty preview, where the code as written (`src/components/ChatInterface.tsx:175`) gives `undefined...`; see Findings. The data the extraction produces always has a text, so for it the two agree (`ChatSend.ExtractedPreviewsAgree`).
- Chat messages carry no ids or timestamps (`ChatSend.Message`): the ids only key the rendered list and the timestamps are only displayed.

A markdown table written with one pipe per row (`A | B`, then `---|---`, then `1 | 2`) stays text, because a row needs at least two pipes (`src/components/ChatInterface.tsx:62`); see `ChatTables.OnePipeLinesStay`.

## Findings

| source | as written | input that shows it | evidently intended | confidence | as-written member | corrected member |
|---|---|---|---|---|---|---|
| src/lib/PromptTemplates.ts:33-34 | each value is inserted with `replace(new RegExp(...), value)`, which expands `$` patterns in the value | a file name `$&` for `{fileName}` leaves `{fileName}` in the prompt | the value inserted literally | medium, not executed | PromptTemplates.SubstituteAsWritten | PromptTemplates.Substitute |
| src/components/ChatInterface.tsx:175 | `text?.substring(0, 3000) + '...' \|\| ''` concatenates before the fallback | a document without text gives the preview `undefined...`; the data the extraction produces always has a text (`src/components/DocumentIntelligence.tsx:118`, handed on at `src/pages/Index.tsx:147` and `src/pages/Index.tsx:193`), so the defect is latent for the callers in this repository | an empty preview | low, not executed | ChatSend.ContentPreviewAsWritten | ChatSend.ContentPreview |
| src/components/PromptSettings.tsx:121 | `temperature \|\| 0.7` treats 0 as missing | a template saved with temperature 0, which the number input's `min="0"` (line 468) allows, gets 0.7; the input itself shows `temperature \|\| 0.7` (line 471), so a typed 0 is displayed as 0.7 too and the intent is less certain | `?? 0.7`, keeping 0 | medium, not executed | PromptSettings.BuildTemplateAsWritten | PromptSettings.BuildTemplate |

For each row, a lemma relates the two halves:
- `PromptTemplates.SubstituteAsWrittenExpandsDollar` exhibits the discrepancy, and `PromptTemplates.SubstituteAsWrittenAgrees` shows the two agree when no value holds `$`.
- `ChatSend.ContentPreviewDiscrepancy` exhibits the discrepancy, and `ChatSend.ExtractedPreviewsAgree` shows that data from the extraction never reaches it.
- `PromptSettings.ZeroTemperatureReplaced` exhibits the discrepancy, and `PromptSettings.TemperaturesAgree` shows that 0 is the only temperature where they differ.

The rest of the model uses the corrected members:
- `PromptHook.GenerateSystemPrompt` uses `PromptTemplates.Substitute`.
- `ChatSend.Summarize` uses `ChatSend.ContentPreview`.
- `PromptSettings.SaveDraft` uses `PromptSettings.BuildTemplate`.

=== FILE: chat_send.dfy ===
/** Sending a chat message (`sendMessage` and `getDetailedErrorMessage` in
    src/components/ChatInterface.tsx): the guard on the input, the
    configuration checks, the chat URL, the content preview sent to the
    model, the classification of failures into user-facing messages, and the
    append-only update of the message history. The request itself is an
    input: what came back from the network is a parameter. */
module ChatSend {
  import opened Wrappers
  import opened JsString
  import Extraction

  // ---------------------------------------------------------------------------
  // Error messages

  // Each message that holds an `f` is written in pieces around it, for the
  // proof that no message mentions `fetch`.
  const BadRequest: string :=
    "Invalid request " + "f" + ("ormat. The message " + "structure may be incorrect.")
  const Unauthorized: string :=
    "Authentication " + "f" + ("ailed. API key may be " + "invalid or expired.")
  const Forbidden: string := "Access " + "f" + "orbidden. Check API permissions."
  const NotFound: string :=
    "Resource not " + "f" + ("ound. Check your deployment " + "name and endpoint URL.")
  const RateLimited: string :=
    ("Rate limit exceeded. " + "Please wait be") + "f" + "ore trying again."
  const ServiceError: string := "Azure OpenAI service error. " + "Please try again later."
  const StatusFailed: string := "API request " + "f" + "ailed with status "
  const NetworkError: string := "Network error. " + "Please check your connection."
  const UnknownError: string := "Unknown error occurred"

  /** The statuses with a message of their own. */
  const KnownStatuses: set<nat> := {400, 401, 403, 404, 429, 500}

  /** The message for an HTTP response that is not ok. */
  function StatusMessage(status: nat): (r: string)
    ensures status == 400 ==> r == BadRequest
    ensures status == 401 ==> r == Unauthorized
    ensures status == 403 ==> r == Forbidden
    ensures status == 404 ==> r == NotFound
    ensures status == 429 ==> r == RateLimited
    ensures status == 500 ==> r == ServiceError
    ensures status !in KnownStatuses ==> r == StatusFailed + NatToString(status)
  {
    if status == 400 then BadRequest
    else if status == 401 then Unauthorized
    else if status == 403 then Forbidden
    else if status == 404 then NotFound
    else if status == 429 then RateLimited
    else if status == 500 then ServiceError
    else StatusFailed + NatToString(status)
  }

  /** `getDetailedErrorMessage(error, response)`, with the error given by its
      message: a response decides by its status; without one, a message
      mentioning `fetch` is a network error, and an empty message is
      unknown. */
  function GetDetailedErrorMessage(message: string, response: Option<nat>): (r: string)
    ensures r != ""
    ensures response.Some? ==> r == StatusMessage(response.value)
    ensures response.None? && Includes(message, "fetch") ==> r == NetworkError
    ensures response.None? && !Includes(message, "fetch") && message != "" ==> r == message
    ensures response.None? && message == "" ==> r == UnknownError
  {
    match response
    case Some(status) => StatusMessageNotEmpty(status); StatusMessage(status)
    case None =>
      if Includes(message, "fetch") then NetworkError
      else if message != "" then message
      else UnknownError
  }

  lemma {:induction false} StatusMessageNotEmpty(status: nat)
    ensures StatusMessage(status) != ""
  {
    if status !in KnownStatuses {
      assert |StatusMessage(status)| >= |StatusFailed|;
    }
  }

  /** `fetch` cannot occur in `a + "f" + b` when neither part holds an `f`
      and `b` does not start with `e`. */
  lemma {:induction false} NoFetchAround(a: string, b: string)
    requires 'f' !in a && 'f' !in b && (|b| == 0 || b[0] != 'e')
    ensures !Includes(a + "f" + b, "fetch")
  {
    var w := "f" + b;
    if |b| == 0 {
      assert a + "f" + b == a + "f";
      NoFetchShort(a);
    } else {
      assert w[1..] == b;
      assert a + "f" + b == a + w;
      NoOccurrenceWithSingleLead(a, w, "fetch");
      IncludesIffOccurs(a + w, "fetch");
    }
  }

  lemma {:induction false} NoFetchShort(a: string)
    requires 'f' !in a
    ensures !Includes(a + "f", "fetch")
  {
    forall i: nat
      ensures !MatchAt(a + "f", "fetch", i)
    {
      if i + 5 <= |a| + 1 {
        assert (a + "f")[i..i + 5][0] == a[i];
      }
    }
    IncludesIffOccurs(a + "f", "fetch");
  }

  lemma {:induction false} NoFetchWithoutF(s: string)
    requires 'f' !in s
    ensures !Includes(s, "fetch")
  {
    NoOccurrenceWithoutLead(s, "fetch");
    IncludesIffOccurs(s, "fetch");
  }

  lemma {:induction false} DigitsHaveNoF(n: nat)
    ensures 'f' !in NatToString(n)
  {
    var s := NatToString(n);
    assert forall k :: 0 <= k < |s| ==> IsDigit(s[k]);
  }

  /** No status message mentions `fetch`. */
  lemma {:induction false} StatusMessageNoFetch(status: nat)
    ensures !Includes(StatusMessage(status), "fetch")
  {
    if status in KnownStatuses {
      KnownStatusNoFetch(status);
    } else {
      var d := NatToString(status);
      DigitsHaveNoF(status);
      assert StatusFailed + d == "API request " + "f" + ("ailed with status " + d);
      NoFetchAround("API request ", "ailed with status " + d);
    }
  }

  lemma {:induction false} KnownStatusNoFetch(status: nat)
    requires status in KnownStatuses
    ensures !Includes(StatusMessage(status), "fetch")
  {
    if status == 400 {
      BadRequestNoFetch();
    } else if status == 401 {
      UnauthorizedNoFetch();
    } else if status == 403 {
      ForbiddenNoFetch();
    } else if status == 404 {
      NotFoundNoFetch();
    } else if status == 429 {
      RateLimitedNoFetch();
    } else {
      assert 'f' !in "Azure OpenAI service error. " && 'f' !in "Please try again later.";
      NoFetchWithoutF(ServiceError);
    }
  }

  lemma {:induction false} BadRequestNoFetch()
    ensures !Includes(BadRequest, "fetch")
  {
    NoFetchAround("Invalid request ", "ormat. The message " + "structure may be incorrect.");
  }

  lemma {:induction false} UnauthorizedNoFetch()
    ensures !Includes(Unauthorized, "fetch")
  {
    NoFetchAround("Authentication ", "ailed. API key may be " + "invalid or expired.");
  }

  lemma {:induction false} ForbiddenNoFetch()
    ensures !Includes(Forbidden, "fetch")
  {
    NoFetchAround("Access ", "orbidden. Check API permissions.");
  }

  lemma {:induction false} NotFoundNoFetch()
    ensures !Includes(NotFound, "fetch")
  {
    NoFetchAround("Resource not ", "ound. Check your deployment " + "name and endpoint URL.");
  }

  lemma {:induction false} RateLimitedNoFetch()
    ensures !Includes(RateLimited, "fetch")
  {
    NoFetchAround("Rate limit exceeded. " + "Please wait be", "ore trying again.");
  }

  /** Classifying a message again changes nothing. The source relies on
      this: the message for a bad status is thrown and classified a second
      time in the `catch`, and reaches the user unchanged. */
  lemma {:induction false} ClassifyTwice(message: string, response: Option<nat>)
    ensures var m := GetDetailedErrorMessage(message, response);
      GetDetailedErrorMessage(m, None) == m
  {
    match response
    case Some(status) =>
      StatusMessageNoFetch(status);
    case None =>
      if Includes(message, "fetch") {
        assert 'f' !in "Network error. " && 'f' !in "Please check your connection.";
        NoFetchWithoutF(NetworkError);
      } else if message == "" {
        assert 'f' !in UnknownError;
        NoFetchWithoutF(UnknownError);
      }
  }

  /** Two statuses without a message of their own are told apart by their
      messages. */
  lemma {:induction false} OtherStatusesDistinct(m: nat, n: nat)
    requires m !in KnownStatuses && n !in KnownStatuses
    requires StatusMessage(m) == StatusMessage(n)
    ensures m == n
  {
    var k := |StatusFailed|;
    assert (StatusFailed + NatToString(m))[k..] == NatToString(m);
    assert (StatusFailed + NatToString(n))[k..] == NatToString(n);
    NatToStringInjective(m, n);
  }

  // ---------------------------------------------------------------------------
  // Configuration and URL

  const MissingLead: string := "Missing VITE_AZURE_OPENAI_"
  const CheckEnvironment: string := ". Please check your " + "environment variables."
  const MissingEndpoint: string := MissingLead + "ENDPOINT" + CheckEnvironment
  const MissingKey: string := MissingLead + "API_KEY" + CheckEnvironment
  const MissingDeployment: string := MissingLead + "DEPLOYMENT_NAME" + CheckEnvironment
  const DefaultDeployment: string := "gpt-4o-mini"
  const ApiVersion: string := "2024-12-01-preview"

  /** The three build-time environment variables; each may be unset. */
  datatype Env = Env(endpoint: Option<string>, apiKey: Option<string>, deployment: Option<string>)

  datatype Config = Config(endpoint: string, apiKey: string, deployment: string)

  /** The configuration `sendMessage` reads, or the message it throws: a
      missing endpoint is reported before a missing key. The deployment
      falls back to `gpt-4o-mini`, so the check for a missing deployment
      never fires. */
  function ReadConfig(env: Env): (r: Result<Config, string>)
    ensures r.Ok? <==> TextOr(env.endpoint, "") != "" && TextOr(env.apiKey, "") != ""
    ensures TextOr(env.endpoint, "") == "" ==> r == Err(MissingEndpoint)
    ensures TextOr(env.endpoint, "") != "" && TextOr(env.apiKey, "") == "" ==> r == Err(MissingKey)
    ensures r.Ok? ==> r.value.endpoint == env.endpoint.value && r.value.apiKey == env.apiKey.value
    ensures r.Ok? ==> r.value.deployment == TextOr(env.deployment, DefaultDeployment) != ""
  {
    var endpoint := TextOr(env.endpoint, "");
    var apiKey := TextOr(env.apiKey, "");
    var deployment := TextOr(env.deployment, DefaultDeployment);
    if endpoint == "" then Err(MissingEndpoint)
    else if apiKey == "" then Err(MissingKey)
    else if deployment == "" then Err(MissingDeployment)
    else Ok(Config(endpoint, apiKey, deployment))
  }

  /** The deployment check is dead code. */
  lemma {:induction false} DeploymentNeverMissing(env: Env)
    ensures ReadConfig(env) != Err(MissingDeployment)
  {
    assert MissingDeployment != MissingEndpoint by {
      assert MissingDeployment[26] != MissingEndpoint[26];
    }
    assert MissingDeployment != MissingKey by {
      assert MissingDeployment[26] != MissingKey[26];
    }
  }

  /** `s.replace(/\/$/, '')`: one trailing `/` removed. */
  function StripTrailingSlash(s: string): (r: string)
    ensures r + (if |s| > 0 && s[|s| - 1] == '/' then "/" else "") == s
  {
    if |s| > 0 && s[|s| - 1] == '/' then s[..|s| - 1] else s
  }

  const DeploymentsPath: string := "/openai/deployments/"
  const CompletionsPath: string := "/chat/completions?api-version="

  /** The chat-completions URL of a configuration. */
  function ChatUrl(c: Config): string {
    StripTrailingSlash(c.endpoint) + DeploymentsPath + c.deployment + CompletionsPath + ApiVersion
  }

  /** An endpoint written with or without its trailing `/` gives the same
      URL. */
  lemma {:induction false} ChatUrlIgnoresTrailingSlash(c: Config)
    requires |c.endpoint| == 0 || c.endpoint[|c.endpoint| - 1] != '/'
    ensures ChatUrl(c.(endpoint := c.endpoint + "/")) == ChatUrl(c)
  {
    var e := c.endpoint + "/";
    assert e[..|e| - 1] == c.endpoint;
  }

  /** Only one `/` is removed: an endpoint ending in `//` keeps one. */
  lemma {:induction false} OneSlashRemoved(s: string)
    ensures StripTrailingSlash(s + "//") == s + "/"
  {
    var t := s + "//";
    assert t[..|t| - 1] == s + "/";
  }

  // ---------------------------------------------------------------------------
  // The document summary sent with a question

  const PreviewLength: nat := 3000
  const Ellipsis: string := "..."

  /** The content preview as written: the text's first 3000 characters and
      `...`. Without text the template literal turns the missing value into
      `undefined`, so the `|| ''` fallback never applies. */
  function ContentPreviewAsWritten(text: Option<string>): (r: string)
    ensures |r| >= |Ellipsis| && r[|r| - |Ellipsis|..] == Ellipsis
    ensures text.None? ==> r == "undefined..."
    ensures text.Some? ==> r[..|r| - |Ellipsis|] == Substring(text.value, 0, PreviewLength)
  {
    var shown := match text
      case Some(t) => Substring(t, 0, PreviewLength)
      case None => "undefined";
    var preview := shown + Ellipsis;
    if preview != "" then preview else ""
  }

  /** The content preview as intended: the first 3000 characters and `...`,
      or nothing without text. */
  function ContentPreview(text: Option<string>): (r: string)
    ensures text.None? ==> r == ""
    ensures text.Some? ==> |r| <= PreviewLength + |Ellipsis| && |r| == Min(|text.value|, PreviewLength) + |Ellipsis|
    ensures text.Some? ==> r == text.value[..Min(|text.value|, PreviewLength)] + Ellipsis
  {
    match text
    case Some(t) => Substring(t, 0, PreviewLength) + Ellipsis
    case None => ""
  }

  function Min(a: nat, b: nat): nat {
    if a <= b then a else b
  }

  /** With text the two agree; without it the code as written sends
      `undefined...` instead of nothing. */
  lemma {:induction false} ContentPreviewDiscrepancy(text: Option<string>)
    ensures text.Some? ==> ContentPreviewAsWritten(text) == ContentPreview(text)
    ensures ContentPreviewAsWritten(None) == "undefined..."
    ensures ContentPreviewAsWritten(None) != ContentPreview(None)
  {
  }

  /** The summary the question is sent with. A missing file name or page
      count is interpolated as `undefined`. */
  datatype DocumentSummary = DocumentSummary(
    fileName: Option<string>, pageCount: Option<nat>, textContent: string,
    tables: nat, keyValuePairs: nat)

  /** The extracted data the chat is given; every part may be missing. */
  datatype Extracted = Extracted(
    fileName: Option<string>, pageCount: Option<nat>, text: Option<string>,
    tables: Option<nat>, keyValuePairs: Option<nat>)

  /** The summary of the extracted data, with the corrected preview: it
      agrees with the code as written whenever there is text. */
  function Summarize(d: Extracted): (r: DocumentSummary)
    ensures r.fileName == d.fileName && r.pageCount == d.pageCount
    ensures r.textContent == ContentPreview(d.text)
    ensures d.text.Some? ==> r.textContent == ContentPreviewAsWritten(d.text)
    ensures r.tables == d.tables.GetOr(0) && r.keyValuePairs == d.keyValuePairs.GetOr(0)
  {
    ContentPreviewDiscrepancy(d.text);
    DocumentSummary(d.fileName, d.pageCount, ContentPreview(d.text), d.tables.GetOr(0), d.keyValuePairs.GetOr(0))
  }

  /** The chat's view of the data the extraction produces
      (`structuredData`, which the page hands to the chat unchanged): every
      part is present. */
  function ExtractedOf(d: Extraction.StructuredData): Extracted {
    Extracted(Some(d.metadata.fileName), Some(d.metadata.pageCount), Some(d.content.text),
              Some(|d.content.tables|), Some(|d.content.keyValuePairs|))
  }

  /** The preview discrepancy is latent: the extraction always supplies a
      text, so for data it produced the two previews agree and the summary
      is what the code as written sends. */
  lemma {:induction false} ExtractedPreviewsAgree(
    file: Extraction.FileInfo, at: string, result: Option<Extraction.AnalyzeResult>)
    ensures var d := ExtractedOf(Extraction.Normalize(file, at, result));
      ContentPreviewAsWritten(d.text) == ContentPreview(d.text)
      && Summarize(d).textContent == ContentPreviewAsWritten(d.text)
      && Summarize(d).tables == |Extraction.Normalize(file, at, result).content.tables|
  {
    var d := ExtractedOf(Extraction.Normalize(file, at, result));
    ContentPreviewDiscrepancy(d.text);
  }

  // ---------------------------------------------------------------------------
  // The message history

  datatype Role = User | Assistant

  /** A chat message; ids and timestamps are not modelled. */
  datatype Message = Message(role: Role, content: string)

  datatype ChatState = ChatState(messages: seq<Message>, input: string, loading: bool, apiError: Option<string>)

  /** The parsed JSON body of a response: its first choice's content, or the
      message of the parse failure. */
  datatype Body = Parsed(content: Option<string>) | Malformed(message: string)

  /** What the request came back with: a rejected `fetch`, or a response. */
  datatype Reply = Unreachable(message: string) | Response(status: nat, body: Body)

  const EmptyReply: string :=
    "I apologize, but I received an " + "empty response. Please try " + "rephrasing your question."
  const ErrorLead: string := "I encountered an error: "
  const ErrorTail: string := ". Please try again or " + "rephrase your question."

  /** `response.ok`. */
  predicate IsOk(status: nat) {
    200 <= status <= 299
  }

  /** The assistant's text, or the message thrown inside the `try`. */
  function Attempt(env: Env, reply: Reply): (r: Result<string, string>)
    ensures ReadConfig(env).Err? ==> r == Err(ReadConfig(env).error)
    ensures ReadConfig(env).Ok? && reply.Unreachable? ==> r == Err(reply.message)
    ensures ReadConfig(env).Ok? && reply.Response? && !IsOk(reply.status) ==> r == Err(StatusMessage(reply.status))
    ensures ReadConfig(env).Ok? && reply.Response? && IsOk(reply.status) && reply.body.Malformed?
      ==> r == Err(reply.body.message)
    ensures ReadConfig(env).Ok? && reply.Response? && IsOk(reply.status) && reply.body.Parsed?
      ==> r == Ok(if reply.body.content.Some? && reply.body.content.value != "" then reply.body.content.value
                  else EmptyReply)
    ensures r.Ok? ==> r.value != ""
  {
    match ReadConfig(env)
    case Err(e) => Err(e)
    case Ok(_) =>
      match reply
      case Unreachable(m) => Err(m)
      case Response(status, body) =>
        if !IsOk(status) then Err(GetDetailedErrorMessage("", Some(status)))
        else match body
          case Malformed(m) => Err(m)
          case Parsed(content) => Ok(TextOr(content, EmptyReply))
  }

  /** The assistant message shown for a failure. */
  function ErrorReply(e: string): string {
    ErrorLead + e + ErrorTail
  }

  /** `sendMessage`: a blank input or a request in flight does nothing;
      otherwise the trimmed question is appended, then exactly one assistant
      message (the reply, the empty-reply text, or the error text), the input
      is cleared, loading ends, and the error banner shows the failure if
      there was one. */
  function SendMessage(st: ChatState, env: Env, reply: Reply): (r: ChatState)
    ensures Trim(st.input) == "" || st.loading ==> r == st
    ensures Trim(st.input) != "" && !st.loading ==>
      && |r.messages| == |st.messages| + 2
      && r.messages[..|st.messages|] == st.messages
      && r.messages[|st.messages|] == Message(User, Trim(st.input))
      && r.messages[|st.messages| + 1].role == Assistant
      && r.input == "" && !r.loading
  {
    var question := Trim(st.input);
    if question == "" || st.loading then st
    else
      var asked := st.messages + [Message(User, question)];
      match Attempt(env, reply)
      case Ok(text) => ChatState(asked + [Message(Assistant, text)], "", false, None)
      case Err(thrown) =>
        var e := GetDetailedErrorMessage(thrown, None);
        ChatState(asked + [Message(Assistant, ErrorReply(e))], "", false, Some(e))
  }

  /** The history only grows: every send keeps the earlier messages as they
      were. */
  lemma {:induction false} SendAppendOnly(st: ChatState, env: Env, reply: Reply)
    ensures var r := SendMessage(st, env, reply);
      |st.messages| <= |r.messages| && r.messages[..|st.messages|] == st.messages
  {
    if Trim(st.input) == "" || st.loading {
      assert st.messages[..|st.messages|] == st.messages;
    }
  }

  /** A send that goes ahead sets the error banner exactly when it failed,
      and then the last message is the banner's text in the error reply. */
  lemma {:induction false} SendReportsFailure(st: ChatState, env: Env, reply: Reply)
    requires Trim(st.input) != "" && !st.loading
    ensures var r := SendMessage(st, env, reply);
      && (r.apiError.Some? <==> Attempt(env, reply).Err?)
      && (r.apiError.Some? ==> r.messages[|r.messages| - 1] == Message(Assistant, ErrorReply(r.apiError.value)))
      && (r.apiError.None? ==> r.messages[|r.messages| - 1] == Message(Assistant, Attempt(env, reply).value))
  {
  }

  /** A bad status reaches the banner as its own message. */
  lemma {:induction false} BadStatusShown(st: ChatState, env: Env, status: nat, body: Body)
    requires Trim(st.input) != "" && !st.loading
    requires ReadConfig(env).Ok? && !IsOk(status)
    ensures SendMessage(st, env, Response(status, body)).apiError == Some(StatusMessage(status))
  {
    ClassifyTwice("", Some(status));
  }

  /** A missing endpoint is reported whatever the network would have
      answered: the configuration is checked before any request. */
  lemma {:induction false} MissingEndpointFirst(st: ChatState, env: Env, reply: Reply)
    requires Trim(st.input) != "" && !st.loading
    requires TextOr(env.endpoint, "") == ""
    ensures SendMessage(st, env, reply).apiError == Some(MissingEndpoint)
  {
    assert 'f' !in MissingLead && 'f' !in "ENDPOINT";
    assert 'f' !in ". Please check your " && 'f' !in "environment variables.";
    NoFetchWithoutF(MissingEndpoint);
  }

  /** A successful response with content shows that content as the
      assistant's message, without an error banner. */
  lemma {:induction false} ReplyShown(st: ChatState, env: Env, status: nat, c: string)
    requires Trim(st.input) != "" && !st.loading
    requires ReadConfig(env).Ok? && IsOk(status) && c != ""
    ensures var r := SendMessage(st, env, Response(status, Parsed(Some(c))));
      && r.messages[|r.messages| - 1] == Message(Assistant, c)
      && r.apiError.None?
  {
  }

  /** A rejected `fetch` whose message mentions `fetch` is shown as a network
      error. */
  lemma {:induction false} FetchFailureShown(st: ChatState, env: Env, message: string)
    requires Trim(st.input) != "" && !st.loading
    requires ReadConfig(env).Ok? && Includes(message, "fetch")
    ensures SendMessage(st, env, Unreachable(message)).apiError == Some(NetworkError)
  {
  }

  /** An empty or missing reply shows the apology instead. */
  lemma {:induction false} EmptyReplyShown(st: ChatState, env: Env, status: nat, content: Option<string>)
    requires Trim(st.input) != "" && !st.loading
    requires ReadConfig(env).Ok? && IsOk(status)
    requires content.None? || content == Some("")
    ensures var r := SendMessage(st, env, Response(status, Parsed(content)));
      r.messages[|r.messages| - 1] == Message(Assistant, EmptyReply) && r.apiError.None?
  {
  }
}

=== FILE: chat_tables.dfy ===
/** The table stage of the assistant-reply formatter (`formatTables` and
    `createTable` in src/components/ChatInterface.tsx): the reply is cut into
    lines, each line is trimmed, every maximal run of lines holding at least two
    `|` becomes one HTML table, other non-blank lines are kept and blank ones
    dropped. */
module ChatTables {
  import opened JsString

  // ---------------------------------------------------------------------------
  // Table rows

  /** The row test: the line contains a `|`, and cutting it at `|` gives
      more than two pieces. */
  predicate IsTableRow(line: string) {
    Includes(line, "|") && |Split(line, '|')| > 2
  }

  lemma {:induction false} CountPositive(s: string, c: char)
    requires Count(s, c) > 0
    ensures exists i :: 0 <= i < |s| && s[i] == c
    decreases |s|
  {
    if s[0] != c {
      CountPositive(s[1..], c);
      var i :| 0 <= i < |s[1..]| && s[1..][i] == c;
      assert s[i + 1] == c;
    }
  }

  /** A line is a table row exactly when it holds two `|` or more; a line
      such as `A | B` is not one. */
  lemma {:induction false} TableRowIffTwoPipes(line: string)
    ensures IsTableRow(line) <==> Count(line, '|') >= 2
  {
    if Count(line, '|') >= 2 {
      CountPositive(line, '|');
      var i :| 0 <= i < |line| && line[i] == '|';
      assert MatchAt(line, "|", i);
      IncludesIffOccurs(line, "|");
    }
  }

  // ---------------------------------------------------------------------------
  // Grouping lines into blocks
  //
  // The grouping is stated for any row test `isRow`; `formatTables` uses
  // `IsTableRow`.

  /** A piece of formatted output: a kept line or a table of rows. */
  datatype Block = Line(text: string) | Table(rows: seq<string>)

  /** The length of the run of rows at the front of `ts`. */
  function RowRun(isRow: string -> bool, ts: seq<string>): (k: nat)
    ensures k <= |ts|
    ensures forall i :: 0 <= i < k ==> isRow(ts[i])
    ensures k < |ts| ==> !isRow(ts[k])
    decreases |ts|
  {
    if |ts| == 0 || !isRow(ts[0]) then 0
    else
      var k := RowRun(isRow, ts[1..]);
      assert forall i :: 1 <= i <= k ==> ts[i] == ts[1..][i - 1];
      1 + k
  }

  /** The reference grouping of trimmed lines: a maximal run of rows is one
      table, any other non-blank line stays as it is, blank lines vanish. */
  function Group(isRow: string -> bool, ts: seq<string>): seq<Block>
    decreases |ts|
  {
    if |ts| == 0 then []
    else if isRow(ts[0]) then
      var k := RowRun(isRow, ts);
      [Table(ts[..k])] + Group(isRow, ts[k..])
    else if ts[0] == "" then Group(isRow, ts[1..])
    else [Line(ts[0])] + Group(isRow, ts[1..])
  }

  /** What is left to emit once `rows` are collected for an open table and
      `ts` are still to be read. */
  function Pending(isRow: string -> bool, rows: seq<string>, ts: seq<string>): seq<Block> {
    if |rows| == 0 then Group(isRow, ts)
    else
      var k := RowRun(isRow, ts);
      [Table(rows + ts[..k])] + Group(isRow, ts[k..])
  }

  /** The table still open, if any. */
  function Close(rows: seq<string>): seq<Block> {
    if |rows| == 0 then [] else [Table(rows)]
  }

  lemma {:induction false} RowRunTail(isRow: string -> bool, ts: seq<string>)
    requires |ts| > 0 && isRow(ts[0])
    ensures RowRun(isRow, ts) == 1 + RowRun(isRow, ts[1..])
    ensures ts[..RowRun(isRow, ts)] == [ts[0]] + ts[1..][..RowRun(isRow, ts[1..])]
    ensures ts[RowRun(isRow, ts)..] == ts[1..][RowRun(isRow, ts[1..])..]
  {
  }

  /** Reading a row extends the open table. */
  lemma {:induction false} PendingRow(isRow: string -> bool, rows: seq<string>, ts: seq<string>)
    requires |ts| > 0 && isRow(ts[0])
    ensures Pending(isRow, rows, ts) == Pending(isRow, rows + [ts[0]], ts[1..])
  {
    RowRunTail(isRow, ts);
    var k := RowRun(isRow, ts[1..]);
    if |rows| == 0 {
      assert rows + [ts[0]] == [ts[0]];
    } else {
      assert rows + ts[..RowRun(isRow, ts)] == (rows + [ts[0]]) + ts[1..][..k];
    }
  }

  /** Reading any other line closes the open table and keeps the line unless
      it is blank. */
  lemma {:induction false} PendingOther(isRow: string -> bool, rows: seq<string>, ts: seq<string>)
    requires |ts| > 0 && !isRow(ts[0])
    ensures Pending(isRow, rows, ts)
      == Close(rows) + (if ts[0] == "" then [] else [Line(ts[0])]) + Group(isRow, ts[1..])
  {
    if |rows| > 0 {
      assert ts[..0] == [] && ts[0..] == ts;
      assert rows + [] == rows;
    }
  }

  lemma {:induction false} PendingEnd(isRow: string -> bool, rows: seq<string>)
    ensures Pending(isRow, rows, []) == Close(rows)
  {
    if |rows| > 0 {
      assert rows + [][..0] == rows;
    }
  }

  // ---------------------------------------------------------------------------
  // Properties of the grouping

  /** The lines a block stands for. */
  function BlockLines(b: Block): seq<string> {
    match b
    case Line(t) => [t]
    case Table(rows) => rows
  }

  function AllLines(bs: seq<Block>): seq<string>
    decreases |bs|
  {
    if |bs| == 0 then [] else BlockLines(bs[0]) + AllLines(bs[1..])
  }

  /** The non-blank lines of `ts`, in order. */
  function NonBlank(ts: seq<string>): (r: seq<string>)
    ensures forall t :: t in r <==> t in ts && t != ""
    decreases |ts|
  {
    if |ts| == 0 then []
    else if ts[0] == "" then NonBlank(ts[1..])
    else [ts[0]] + NonBlank(ts[1..])
  }

  /** A table row is never blank. */
  lemma {:induction false} RowNotBlank(t: string)
    requires IsTableRow(t)
    ensures t != ""
  {
    TableRowIffTwoPipes(t);
  }

  lemma {:induction false} NonBlankAppend(a: seq<string>, b: seq<string>)
    ensures NonBlank(a + b) == NonBlank(a) + NonBlank(b)
    decreases |a|
  {
    if |a| == 0 {
      assert a + b == b;
    } else {
      assert (a + b)[1..] == a[1..] + b;
      NonBlankAppend(a[1..], b);
    }
  }

  lemma {:induction false} NonBlankOfFull(ts: seq<string>)
    requires forall i :: 0 <= i < |ts| ==> ts[i] != ""
    ensures NonBlank(ts) == ts
    decreases |ts|
  {
    if |ts| > 0 {
      NonBlankOfFull(ts[1..]);
      assert [ts[0]] + ts[1..] == ts;
    }
  }

  /** Grouping neither loses, adds nor reorders a non-blank line, when no row
      is blank. */
  lemma {:induction false} GroupKeepsLines(isRow: string -> bool, ts: seq<string>)
    requires forall t :: isRow(t) ==> t != ""
    ensures AllLines(Group(isRow, ts)) == NonBlank(ts)
    decreases |ts|
  {
    if |ts| > 0 {
      if isRow(ts[0]) {
        var k := RowRun(isRow, ts);
        GroupKeepsLines(isRow, ts[k..]);
        NonBlankOfFull(ts[..k]);
        assert ts == ts[..k] + ts[k..];
        NonBlankAppend(ts[..k], ts[k..]);
        assert AllLines([Table(ts[..k])] + Group(isRow, ts[k..])) == ts[..k] + AllLines(Group(isRow, ts[k..]));
      } else {
        GroupKeepsLines(isRow, ts[1..]);
        if ts[0] != "" {
          assert AllLines([Line(ts[0])] + Group(isRow, ts[1..])) == [ts[0]] + AllLines(Group(isRow, ts[1..]));
        }
      }
    }
  }

  /** Every table holds rows only, and every kept line is neither a row nor
      blank. */
  lemma {:induction false} GroupWellFormed(isRow: string -> bool, ts: seq<string>)
    ensures forall b :: b in Group(isRow, ts) && b.Table? ==>
      |b.rows| > 0 && forall i :: 0 <= i < |b.rows| ==> isRow(b.rows[i])
    ensures forall b :: b in Group(isRow, ts) && b.Line? ==> b.text != "" && !isRow(b.text)
    decreases |ts|
  {
    if |ts| > 0 {
      if isRow(ts[0]) {
        GroupWellFormed(isRow, ts[RowRun(isRow, ts)..]);
      } else {
        GroupWellFormed(isRow, ts[1..]);
      }
    }
  }

  /** The number of maximal runs of rows in `ts`, counted as rows not
      preceded by a row (`afterRow` says whether the line before `ts` was
      one). */
  function RunStarts(isRow: string -> bool, ts: seq<string>, afterRow: bool): nat
    decreases |ts|
  {
    if |ts| == 0 then 0
    else (if isRow(ts[0]) && !afterRow then 1 else 0) + RunStarts(isRow, ts[1..], isRow(ts[0]))
  }

  function TableCount(bs: seq<Block>): nat
    decreases |bs|
  {
    if |bs| == 0 then 0 else (if bs[0].Table? then 1 else 0) + TableCount(bs[1..])
  }

  lemma {:induction false} RunStartsInRun(isRow: string -> bool, ts: seq<string>)
    requires |ts| > 0 && isRow(ts[0])
    ensures RunStarts(isRow, ts[1..], true) == RunStarts(isRow, ts[RowRun(isRow, ts)..], false)
    decreases |ts|
  {
    var t := ts[1..];
    RowRunTail(isRow, ts);
    if |t| > 0 && isRow(t[0]) {
      RunStartsInRun(isRow, t);
    }
  }

  /** There is one table for each maximal run of rows. */
  lemma {:induction false} TablesAreRuns(isRow: string -> bool, ts: seq<string>)
    ensures TableCount(Group(isRow, ts)) == RunStarts(isRow, ts, false)
    decreases |ts|
  {
    if |ts| > 0 {
      if isRow(ts[0]) {
        var k := RowRun(isRow, ts);
        TablesAreRuns(isRow, ts[k..]);
        RunStartsInRun(isRow, ts);
        assert ([Table(ts[..k])] + Group(isRow, ts[k..]))[1..] == Group(isRow, ts[k..]);
      } else {
        TablesAreRuns(isRow, ts[1..]);
        if ts[0] != "" {
          assert ([Line(ts[0])] + Group(isRow, ts[1..]))[1..] == Group(isRow, ts[1..]);
        }
      }
    }
  }

  // ---------------------------------------------------------------------------
  // createTable

  const TableOpen: string :=
    "<table class=\"w-full " + "border-collapse border " + "border-gray-300 my-4\">"
  const TableClose: string := "</table>"
  const RowOpen: string := "<tr class=\""
  const TagEnd: string := "\">"
  const RowClose: string := "</tr>"
  const CellClass: string := " class=\"border border-gray-300 " + "px-3 py-2 text-left "
  const HeaderFont: string := "font-bold"

  /** The non-empty strings of `ps`, in order. */
  function NonEmpty(ps: seq<string>): (r: seq<string>)
    ensures forall c :: c in r <==> c in ps && c != ""
    decreases |ps|
  {
    if |ps| == 0 then []
    else if ps[0] == "" then NonEmpty(ps[1..])
    else [ps[0]] + NonEmpty(ps[1..])
  }

  function TrimAll(ps: seq<string>): (r: seq<string>)
    ensures |r| == |ps|
    ensures forall i :: 0 <= i < |ps| ==> r[i] == Trim(ps[i])
    decreases |ps|
  {
    if |ps| == 0 then [] else [Trim(ps[0])] + TrimAll(ps[1..])
  }

  /** The cells of a row: its `|`-separated pieces, trimmed, empty ones
      dropped. Short rows are not padded. */
  function Cells(row: string): (r: seq<string>)
    ensures forall c :: c in r ==> c != "" && !IsSpace(c[0]) && !IsSpace(c[|c| - 1])
  {
    var trimmed := TrimAll(Split(row, '|'));
    assert forall c :: c in trimmed ==> c == [] || (!IsSpace(c[0]) && !IsSpace(c[|c| - 1]));
    NonEmpty(trimmed)
  }

  /** Row 0 is the header. */
  function CellTag(index: nat): string {
    if index == 0 then "th" else "td"
  }

  function RowClass(index: nat): string {
    if index == 0 then "bg-gray-100" else if index % 2 == 0 then "bg-white" else "bg-gray-50"
  }

  function CellHtml(index: nat, cell: string): string {
    var tag := CellTag(index);
    "<" + tag + CellClass + (if index == 0 then HeaderFont else "") + TagEnd + cell + "</" + tag + ">"
  }

  function CellsHtml(index: nat, cells: seq<string>): string
    decreases |cells|
  {
    if |cells| == 0 then "" else CellHtml(index, cells[0]) + CellsHtml(index, cells[1..])
  }

  /** One `<tr>`: the row's own cells and nothing else. */
  function RowHtml(index: nat, row: string): string {
    RowOpen + RowClass(index) + TagEnd + CellsHtml(index, Cells(row)) + RowClose
  }

  /** The rows of `rows` rendered by `render`, numbered from `from`. */
  function Rows(render: (nat, string) -> string, rows: seq<string>, from: nat): string
    decreases |rows|
  {
    if |rows| == 0 then "" else render(from, rows[0]) + Rows(render, rows[1..], from + 1)
  }

  /** `createTable(rows)`. */
  function CreateTable(rows: seq<string>): (r: string)
    ensures |rows| == 0 <==> r == ""
  {
    if |rows| == 0 then "" else TableOpen + Rows(RowHtml, rows, 0) + TableClose
  }

  /** Each row is rendered on its own: the rows are the first `k` rows
      followed by the rest, numbered on. */
  lemma {:induction false} RowsSplit(render: (nat, string) -> string, rows: seq<string>, k: nat, from: nat)
    requires k <= |rows|
    ensures Rows(render, rows, from) == Rows(render, rows[..k], from) + Rows(render, rows[k..], from + k)
    decreases k
  {
    if k == 0 {
      assert rows[..0] == [] && rows[0..] == rows;
    } else {
      RowsSplit(render, rows[1..], k - 1, from + 1);
      assert rows[1..][..k - 1] == rows[..k][1..];
      assert rows[1..][k - 1..] == rows[k..];
    }
  }

  lemma {:induction false} RowsSnoc(render: (nat, string) -> string, rows: seq<string>, row: string)
    ensures Rows(render, rows + [row], 0) == Rows(render, rows, 0) + render(|rows|, row)
  {
    var all := rows + [row];
    RowsSplit(render, all, |rows|, 0);
    assert all[..|rows|] == rows;
    assert all[|rows|..] == [row];
    assert [row][1..] == [];
  }

  lemma {:induction false} RowsHead(render: (nat, string) -> string, rows: seq<string>, from: nat)
    requires |rows| > 0
    ensures Rows(render, rows, from) == render(from, rows[0]) + Rows(render, rows[1..], from + 1)
  {
  }

  /** A cell of row 0 is a bold header cell (`<th ...>...</th>`); a cell of
      any later row is a data cell (`<td ...>...</td>`); either way it holds
      the cell's text unchanged. */
  lemma {:induction false} CellHtmlTagged(index: nat, cell: string)
    ensures var h := CellHtml(index, cell);
      h[..3] == (if index == 0 then "<th" else "<td")
      && h[|h| - 5..] == (if index == 0 then "</th>" else "</td>")
      && (index == 0 ==> Occurs(h, HeaderFont))
      && Occurs(h, cell)
  {
    var tag := CellTag(index);
    var font := if index == 0 then HeaderFont else "";
    var before := "<" + tag + CellClass + font + TagEnd;
    var h := before + cell + ("</" + tag + ">");
    assert CellHtml(index, cell) == h;
    assert h[..3] == "<" + tag by {
      assert |"<" + tag| == 3;
      assert h[..3] == before[..3];
    }
    assert h[|h| - 5..] == "</" + tag + ">";
    assert h[|before|..|before| + |cell|] == cell;
    assert MatchAt(h, cell, |before|);
    if index == 0 {
      var at := 3 + |CellClass|;
      assert h[at..at + |HeaderFont|] == HeaderFont;
      assert MatchAt(h, HeaderFont, at);
    }
  }

  /** Trimming leaves a string without surrounding white space unchanged. */
  lemma {:induction false} TrimKeeps(s: string)
    requires |s| > 0 && !IsSpace(s[0]) && !IsSpace(s[|s| - 1])
    ensures Trim(s) == s
  {
    assert SkipSpaces(s, 0) == 0;
    assert SkipSpacesBack(s, 0, |s|) == |s|;
  }

  lemma {:induction false} NonEmptyOfFull(ps: seq<string>)
    requires forall i :: 0 <= i < |ps| ==> ps[i] != ""
    ensures NonEmpty(ps) == ps
    decreases |ps|
  {
    if |ps| > 0 {
      NonEmptyOfFull(ps[1..]);
      assert [ps[0]] + ps[1..] == ps;
    }
  }

  /** Cells written between `|` come back as the row's cells, whatever their
      number: non-empty, already-trimmed cells without `|` round trip through
      joining with `|` and cutting into cells. */
  lemma {:induction false} CellsOfJoin(cells: seq<string>)
    requires |cells| > 0
    requires forall i :: 0 <= i < |cells| ==> cells[i] != "" && '|' !in cells[i]
    requires forall i :: 0 <= i < |cells| ==> !IsSpace(cells[i][0]) && !IsSpace(cells[i][|cells[i]| - 1])
    ensures Cells(Join(cells, "|")) == cells
  {
    SplitJoin(cells, '|');
    forall i | 0 <= i < |cells| ensures Trim(cells[i]) == cells[i] {
      TrimKeeps(cells[i]);
    }
    assert TrimAll(cells) == cells;
    NonEmptyOfFull(cells);
  }

  lemma {:induction false} CellsHtmlSnoc(index: nat, cells: seq<string>, c: string)
    ensures CellsHtml(index, cells + [c]) == CellsHtml(index, cells) + CellHtml(index, c)
    decreases |cells|
  {
    if |cells| == 0 {
      assert [] + [c] == [c];
      assert [c][1..] == [];
    } else {
      assert (cells + [c])[1..] == cells[1..] + [c];
      CellsHtmlSnoc(index, cells[1..], c);
    }
  }

  // ---------------------------------------------------------------------------
  // formatTables
  //
  // Like the grouping, the loop is stated for any row test and any table
  // renderer; `formatTables` uses `IsTableRow` and `CreateTable`.

  function RenderBlock(table: seq<string> -> string, b: Block): string {
    match b
    case Line(t) => t
    case Table(rows) => table(rows)
  }

  function RenderBlocks(table: seq<string> -> string, bs: seq<Block>): (r: seq<string>)
    ensures |r| == |bs|
    decreases |bs|
  {
    if |bs| == 0 then [] else [RenderBlock(table, bs[0])] + RenderBlocks(table, bs[1..])
  }

  lemma {:induction false} RenderBlocksAppend(table: seq<string> -> string, a: seq<Block>, b: seq<Block>)
    ensures RenderBlocks(table, a + b) == RenderBlocks(table, a) + RenderBlocks(table, b)
    decreases |a|
  {
    if |a| == 0 {
      assert a + b == b;
    } else {
      assert (a + b)[1..] == a[1..] + b;
      RenderBlocksAppend(table, a[1..], b);
    }
  }

  /** The output of the table still open. */
  lemma {:induction false} RenderClose(table: seq<string> -> string, rows: seq<string>)
    ensures RenderBlocks(table, Close(rows)) == if |rows| == 0 then [] else [table(rows)]
  {
  }

  /** The loop of `formatTables` read as a recursion: `rows` is the table
      being collected, `ts` the lines still to read. */
  function Scan(isRow: string -> bool, rows: seq<string>, ts: seq<string>): seq<Block>
    decreases |ts|
  {
    if |ts| == 0 then Close(rows)
    else if isRow(ts[0]) then Scan(isRow, rows + [ts[0]], ts[1..])
    else Close(rows) + (if ts[0] == "" then [] else [Line(ts[0])]) + Scan(isRow, [], ts[1..])
  }

  /** The scan emits the reference grouping: the loop closes each table
      exactly where the maximal run of rows ends. */
  lemma {:induction false} ScanIsPending(isRow: string -> bool, rows: seq<string>, ts: seq<string>)
    ensures Scan(isRow, rows, ts) == Pending(isRow, rows, ts)
    decreases |ts|
  {
    if |ts| == 0 {
      PendingEnd(isRow, rows);
    } else if isRow(ts[0]) {
      ScanIsPending(isRow, rows + [ts[0]], ts[1..]);
      PendingRow(isRow, rows, ts);
    } else {
      ScanIsPending(isRow, [], ts[1..]);
      PendingOther(isRow, rows, ts);
    }
  }

  lemma ScanIsGroup(isRow: string -> bool, ts: seq<string>)
    ensures Scan(isRow, [], ts) == Group(isRow, ts)
  {
    ScanIsPending(isRow, [], ts);
  }

  /** The loop of `formatTables` over the reply's trimmed lines: rows are
      collected while they come; the collected table is emitted at the
      first other line and at the end; other non-blank lines are emitted as
      they are. */
  method FormatLines(isRow: string -> bool, table: seq<string> -> string, ts: seq<string>)
    returns (result: seq<string>)
    ensures result == RenderBlocks(table, Group(isRow, ts))
  {
    var inTable := false;
    var tableRows: seq<string> := [];
    result := [];
    for i := 0 to |ts|
      invariant inTable <==> |tableRows| > 0
      invariant result + RenderBlocks(table, Scan(isRow, tableRows, ts[i..]))
        == RenderBlocks(table, Scan(isRow, [], ts))
    {
      var line := ts[i];
      assert ts[i..][0] == line && ts[i..][1..] == ts[i + 1..];
      if isRow(line) {
        if !inTable {
          inTable := true;
          tableRows := [];
        }
        tableRows := tableRows + [line];
      } else {
        StepOther(table, tableRows, line, Scan(isRow, [], ts[i + 1..]), result);
        if inTable {
          result := result + [table(tableRows)];
          tableRows := [];
          inTable := false;
        }
        if line != "" {
          result := result + [line];
        }
      }
    }
    assert ts[|ts|..] == [];
    RenderClose(table, tableRows);
    if inTable && |tableRows| > 0 {
      result := result + [table(tableRows)];
    }
    ScanIsGroup(isRow, ts);
  }

  /** One step of the loop on a line that is no row: the open table, then
      the line unless it is blank, are emitted. */
  lemma {:induction false} StepOther(table: seq<string> -> string, rows: seq<string>, line: string,
                                     rest: seq<Block>, result: seq<string>)
    ensures result + RenderBlocks(table, Close(rows) + (if line == "" then [] else [Line(line)]) + rest)
      == (result + (if |rows| == 0 then [] else [table(rows)]) + (if line == "" then [] else [line]))
         + RenderBlocks(table, rest)
  {
    var closed := Close(rows);
    var kept: seq<Block> := if line == "" then [] else [Line(line)];
    RenderBlocksAppend(table, closed + kept, rest);
    RenderBlocksAppend(table, closed, kept);
    RenderClose(table, rows);
    assert RenderBlocks(table, kept) == if line == "" then [] else [line];
  }

  /** The trimmed lines of a reply. */
  function ReplyLines(content: string): seq<string> {
    TrimAll(Split(content, '\n'))
  }

  /** `formatTables(content)`: the reply's lines, trimmed, grouped, each
      table rendered by `createTable`, and the pieces joined with newlines.
      Each line is trimmed once before the loop reads it. */
  method FormatTables(content: string) returns (out: string)
    ensures out == Join(RenderBlocks(CreateTable, Group(IsTableRow, ReplyLines(content))), "\n")
  {
    var lines := Split(content, '\n');
    var trimmed := TrimAll(lines);
    var result := FormatLines(IsTableRow, CreateTable, trimmed);
    out := Join(result, "\n");
  }

  /** No table row is blank, so every non-blank line of the reply is kept,
      in order, either as itself or as a row of a table. */
  lemma {:induction false} FormattedKeepsLines(content: string)
    ensures AllLines(Group(IsTableRow, ReplyLines(content))) == NonBlank(ReplyLines(content))
  {
    forall t | IsTableRow(t) ensures t != "" {
      RowNotBlank(t);
    }
    GroupKeepsLines(IsTableRow, ReplyLines(content));
  }

  /** One kept line per string, in order. */
  function LinesOf(ts: seq<string>): (r: seq<Block>)
    ensures |r| == |ts|
    ensures forall i :: 0 <= i < |ts| ==> r[i] == Line(ts[i])
    decreases |ts|
  {
    if |ts| == 0 then [] else [Line(ts[0])] + LinesOf(ts[1..])
  }

  /** Without a row, grouping keeps the non-blank lines as they are. */
  lemma {:induction false} GroupWithoutRows(isRow: string -> bool, ts: seq<string>)
    requires forall i :: 0 <= i < |ts| ==> !isRow(ts[i])
    ensures Group(isRow, ts) == LinesOf(NonBlank(ts))
    decreases |ts|
  {
    if |ts| > 0 {
      GroupWithoutRows(isRow, ts[1..]);
    }
  }

  /** Lines with fewer than two `|` never make a table, so a separator line
      such as `---|---` between one-pipe lines changes nothing: those lines
      come out as they went in. */
  lemma {:induction false} OnePipeLinesStay(ts: seq<string>)
    requires forall i :: 0 <= i < |ts| ==> Count(ts[i], '|') < 2
    ensures Group(IsTableRow, ts) == LinesOf(NonBlank(ts))
  {
    forall i | 0 <= i < |ts| ensures !IsTableRow(ts[i]) {
      TableRowIffTwoPipes(ts[i]);
    }
    GroupWithoutRows(IsTableRow, ts);
  }
}

=== FILE: env_file.dfy ===
/** The connection check's configuration (test_openai_connection.cjs): the
    `.env` file is read line by line into a map of `KEY=VALUE` entries, the
    endpoint's host is rewritten to the OpenAI one and the URL listing the
    deployments is built from it. Reading the file, printing and the request
    itself are not modelled. */
module EnvFile {
  import opened Wrappers
  import opened JsString
  import ChatSend

  // ---------------------------------------------------------------------------
  // Splitting at the first `=`

  /** A character is absent exactly when it is counted zero times. */
  lemma {:induction false} CountZeroIff(s: string, c: char)
    ensures Count(s, c) == 0 <==> c !in s
    decreases |s|
  {
    if s != [] {
      CountZeroIff(s[1..], c);
      assert s == [s[0]] + s[1..];
    }
  }

  /** Splitting at a separator whose first occurrence follows `before` gives
      `before` and then the pieces of what follows. */
  lemma {:induction false} SplitAtFirst(before: string, after: string, c: char)
    requires c !in before
    ensures Split(before + [c] + after, c) == [before] + Split(after, c)
    decreases |before|
  {
    var s := before + [c] + after;
    if before == [] {
      assert s[1..] == after;
    } else {
      assert s[1..] == before[1..] + [c] + after;
      SplitAtFirst(before[1..], after, c);
      assert [before[0]] + before[1..] == before;
    }
  }

  // ---------------------------------------------------------------------------
  // Quotes

  predicate IsQuote(ch: char) {
    ch == '\'' || ch == '"'
  }

  /** `value.replace(/^['"]|['"]$/g, '')`: one quote at the start and one at
      the end are removed, each on its own; a lone quote is removed once. */
  function StripQuotes(v: string): (r: string)
    ensures |v| - 2 <= |r| <= |v|
    ensures var a := if |v| > 0 && IsQuote(v[0]) then 1 else 0;
      a + |r| <= |v| && r == v[a..a + |r|]
  {
    var a := if |v| > 0 && IsQuote(v[0]) then 1 else 0;
    var b := if |v| > a && IsQuote(v[|v| - 1]) then |v| - 1 else |v|;
    v[a..b]
  }

  /** A value loses the quote put before it and the quote put after it, each
      optional and chosen independently, and nothing else, when it neither
      starts nor ends with a quote itself. */
  lemma {:induction false} StripQuotesRoundTrip(w: string, lead: Option<char>, trail: Option<char>)
    requires w != "" ==> !IsQuote(w[0]) && !IsQuote(w[|w| - 1])
    requires lead.Some? ==> IsQuote(lead.value)
    requires trail.Some? ==> IsQuote(trail.value)
    ensures var l := if lead.Some? then [lead.value] else [];
      var t := if trail.Some? then [trail.value] else [];
      StripQuotes(l + w + t) == w
  {
    var l := if lead.Some? then [lead.value] else [];
    var t := if trail.Some? then [trail.value] else [];
    var v := l + w + t;
    assert v[|l|..|l| + |w|] == w;
    if w == "" && lead.Some? && trail.None? {
      assert v == l;
    }
  }

  /** Quotes doubled at either end keep one: only one is taken from each
      end. */
  lemma {:induction false} StripQuotesOnce(w: string, q: char)
    requires IsQuote(q)
    ensures StripQuotes([q, q] + w + [q, q]) == [q] + w + [q]
  {
    var v := [q, q] + w + [q, q];
    assert v[1..|v| - 1] == [q] + w + [q];
  }

  // ---------------------------------------------------------------------------
  // Lines

  /** One line of the file: when it holds `=`, its key is the trimmed text
      before the first `=` and its value the rest, `=` included, trimmed and
      with its quotes stripped; a line without `=` is ignored. */
  function ParseLine(line: string): (r: Option<(string, string)>)
    ensures r.Some? <==> '=' in line
  {
    var parts := Split(line, '=');
    CountZeroIff(line, '=');
    if |parts| >= 2 then Some((Trim(parts[0]), StripQuotes(Trim(Join(parts[1..], "=")))))
    else None
  }

  /** A line is cut at its first `=`, and the value keeps any later `=`. */
  lemma {:induction false} ParseLineAtFirstEquals(before: string, after: string)
    requires '=' !in before
    ensures ParseLine(before + "=" + after) == Some((Trim(before), StripQuotes(Trim(after))))
  {
    SplitAtFirst(before, after, '=');
    JoinSplit(after, '=');
    var parts := Split(before + "=" + after, '=');
    assert parts[0] == before;
    assert parts[1..] == Split(after, '=');
  }

  /** The value stored under `k` by the lines read so far: that of the last
      line with key `k`. */
  function LastEntry(lines: seq<string>, k: string): (r: Option<string>)
    decreases |lines|
  {
    if |lines| == 0 then None
    else
      match ParseLine(lines[|lines| - 1])
      case Some((key, value)) =>
        if key == k then Some(value) else LastEntry(lines[..|lines| - 1], k)
      case None => LastEntry(lines[..|lines| - 1], k)
  }

  /** A line with key `k` that no later line repeats decides the value of
      `k`. */
  lemma {:induction false} LaterLineWins(lines: seq<string>, i: nat, k: string, v: string)
    requires i < |lines| && ParseLine(lines[i]) == Some((k, v))
    requires forall j :: i < j < |lines| ==> ParseLine(lines[j]).None? || ParseLine(lines[j]).value.0 != k
    ensures LastEntry(lines, k) == Some(v)
    decreases |lines|
  {
    var n := |lines| - 1;
    if i < n {
      var init := lines[..n];
      assert forall j :: i < j < |init| ==> init[j] == lines[j];
      LaterLineWins(init, i, k, v);
    }
  }

  /** A key no line has stays unset. */
  lemma {:induction false} UnsetKey(lines: seq<string>, k: string)
    requires forall j :: 0 <= j < |lines| ==> ParseLine(lines[j]).None? || ParseLine(lines[j]).value.0 != k
    ensures LastEntry(lines, k).None?
    decreases |lines|
  {
    if |lines| > 0 {
      var init := lines[..|lines| - 1];
      assert forall j :: 0 <= j < |init| ==> init[j] == lines[j];
      UnsetKey(init, k);
    }
  }

  /** The `forEach` over the lines: every line with `=` stores its value
      under its key, a later line overwriting an earlier one. */
  method ReadEnv(content: string) returns (env: map<string, string>)
    ensures forall k :: k in env <==> LastEntry(Split(content, '\n'), k).Some?
    ensures forall k :: k in env ==> env[k] == LastEntry(Split(content, '\n'), k).value
  {
    var lines := Split(content, '\n');
    env := map[];
    var i := 0;
    while i < |lines|
      invariant 0 <= i <= |lines|
      invariant forall k :: k in env <==> LastEntry(lines[..i], k).Some?
      invariant forall k :: k in env ==> env[k] == LastEntry(lines[..i], k).value
    {
      assert lines[..i + 1][..i] == lines[..i];
      match ParseLine(lines[i]) {
        case Some((key, value)) =>
          env := env[key := value];
        case None =>
      }
      i := i + 1;
    }
    assert lines[..i] == lines;
  }

  // ---------------------------------------------------------------------------
  // The request

  const EndpointKey: string := "VITE_AZURE_OPENAI_ENDPOINT"
  const ApiKeyKey: string := "VITE_AZURE_OPENAI_API_KEY"
  const CognitiveHost: string := "cognitiveservices.azure.com"
  const OpenAiHost: string := "openai.azure.com"
  const ListPath: string := "/openai/deployments?api-version=2023-05-15"

  /** How the check ends before sending: with a `TypeError` when there is no
      endpoint entry at all, with "Missing configuration!" when the endpoint
      or key is empty or the key is missing, or with the request to send. */
  datatype Outcome = NoEndpoint | MissingConfiguration | Request(url: string, apiKey: string)

  /** The endpoint with its first `cognitiveservices.azure.com` made
      `openai.azure.com`. */
  function RewriteHost(endpoint: string): (r: string)
    ensures !Occurs(endpoint, CognitiveHost) ==> r == endpoint
    ensures r == "" <==> endpoint == ""
  {
    ReplaceFirst(endpoint, CognitiveHost, OpenAiHost)
  }

  /** The request the check sends for the entries read. */
  function Connect(env: map<string, string>): (r: Outcome)
    ensures r.NoEndpoint? <==> EndpointKey !in env
    ensures r.MissingConfiguration? <==>
      (EndpointKey in env && (env[EndpointKey] == "" || ApiKeyKey !in env || env[ApiKeyKey] == ""))
    ensures r.Request? ==> ApiKeyKey in env && r.apiKey == env[ApiKeyKey] && r.apiKey != ""
    ensures r.Request? ==> r.url == ChatSend.StripTrailingSlash(RewriteHost(env[EndpointKey])) + ListPath
  {
    if EndpointKey !in env then NoEndpoint
    else
      var endpoint := RewriteHost(env[EndpointKey]);
      if endpoint == "" || ApiKeyKey !in env || env[ApiKeyKey] == "" then MissingConfiguration
      else Request(ChatSend.StripTrailingSlash(endpoint) + ListPath, env[ApiKeyKey])
  }

  /** `s.replace(p, r)` acts at `|a|` when no occurrence of `p` starts
      inside `a`. */
  lemma {:induction false} ReplaceFirstAfter(a: string, p: string, b: string, rep: string)
    requires forall j: nat :: j < |a| ==> !MatchAt(a + p, p, j)
    ensures ReplaceFirst(a + p + b, p, rep) == a + rep + b
  {
    var s := a + p + b;
    assert MatchAt(s, p, |a|) by {
      assert s[|a|..|a| + |p|] == p;
    }
    forall j: nat | j < |a| ensures !MatchAt(s, p, j) {
      if j + |p| <= |s| {
        assert s[j..j + |p|] == (a + p)[j..j + |p|];
        assert !MatchAt(a + p, p, j);
        assert MatchAt(s, p, j) ==> MatchAt(a + p, p, j);
      }
    }
    assert s[..|a|] == a && s[|a| + |p|..] == b;
  }

  /** The host name's last character, `m`, occurs nowhere else in it. */
  lemma HostEndsOnce()
    ensures CognitiveHost[|CognitiveHost| - 1] == 'm'
    ensures forall t :: 0 <= t < |CognitiveHost| - 1 ==> CognitiveHost[t] != 'm'
  {
  }

  /** An endpoint on the Cognitive Services host is moved to the OpenAI
      host, the rest kept: the first occurrence of the host name is
      replaced. */
  lemma {:induction false} HostRewritten(a: string, b: string)
    requires !Occurs(a, CognitiveHost)
    ensures RewriteHost(a + CognitiveHost + b) == a + OpenAiHost + b
  {
    var h := CognitiveHost;
    var w := a + h;
    HostEndsOnce();
    forall j: nat | j < |a| ensures !MatchAt(w, h, j) {
      if j + |h| <= |w| {
        if j + |h| <= |a| {
          assert w[j..j + |h|] == a[j..j + |h|];
          assert !MatchAt(a, h, j);
        } else {
          var k := j + |h| - 1 - |a|;
          assert w[j..j + |h|][|h| - 1] == w[j + |h| - 1] == h[k];
          assert h[k] != h[|h| - 1];
        }
      }
    }
    ReplaceFirstAfter(a, h, b, OpenAiHost);
  }

  /** A typical resource endpoint is moved to the OpenAI host. */
  lemma ContosoEndpointRewritten()
    ensures RewriteHost("https://contoso." + CognitiveHost + "/") == "https://contoso." + OpenAiHost + "/"
  {
    var a := "https://contoso.";
    forall i: nat ensures !MatchAt(a, CognitiveHost, i) {
    }
    HostRewritten(a, "/");
  }

  /** With both entries set, the endpoint on the OpenAI host already and
      written with or without its trailing `/`, the deployments are listed
      under it. */
  lemma {:induction false} ListUrlOfEndpoint(env: map<string, string>, base: string)
    requires EndpointKey in env && ApiKeyKey in env && env[ApiKeyKey] != ""
    requires base != "" && base[|base| - 1] != '/' && !Occurs(base + "/", CognitiveHost)
    requires env[EndpointKey] == base || env[EndpointKey] == base + "/"
    ensures Connect(env) == Request(base + ListPath, env[ApiKeyKey])
  {
    if env[EndpointKey] == base {
      assert !Occurs(base, CognitiveHost) by {
        forall j: nat | MatchAt(base, CognitiveHost, j) ensures false {
          assert (base + "/")[j..j + |CognitiveHost|] == base[j..j + |CognitiveHost|];
          assert MatchAt(base + "/", CognitiveHost, j);
        }
      }
    } else {
      var e := base + "/";
      assert e[..|e| - 1] == base;
    }
  }
}

=== FILE: extraction.dfy ===
/** Document extraction (`extractDataFromPDF` in
    src/components/DocumentIntelligence.tsx): the document is submitted for
    analysis, the returned operation is polled at most 30 times until it
    succeeds or fails, and the analysis result is normalised into the data
    the rest of the application reads. The network is an input: the answer
    to the submission and the answer to each poll are parameters, and the
    one-second waits are not modelled. */
module Extraction {
  import opened Wrappers
  import opened JsString

  // ---------------------------------------------------------------------------
  // What the analysis service answers

  /** A JSON value the application passes on without looking inside. */
  datatype Item = Item(raw: string)

  /** The `analyzeResult` of a finished operation; every part may be
      missing. */
  datatype AnalyzeResult = AnalyzeResult(
    content: Option<string>,
    pages: Option<seq<Item>>,
    tables: Option<seq<Item>>,
    keyValuePairs: Option<seq<Item>>,
    paragraphs: Option<seq<Item>>)

  /** The answer to the submission: a rejected `fetch`, or a response with
      its status and `Operation-Location` header. */
  datatype Submission =
    | Unsent(message: string)
    | Submitted(ok: bool, status: nat, statusText: string, operationLocation: Option<string>)

  /** The answer to one poll: a rejected `fetch`, a response that is not ok,
      a body that is no JSON, or the operation's status and result. */
  datatype Poll =
    | Unreachable(message: string)
    | NotOk(status: nat)
    | Malformed(message: string)
    | Body(state: string, analyzeResult: Option<AnalyzeResult>)

  const MaxAttempts: nat := 30
  const Succeeded: string := "succeeded"
  const FailedStatus: string := "failed"

  const AnalysisFailedLead: string := "Analysis failed: "
  const NoOperationLocation: string := "No operation location " + "returned from analysis"
  const ResultsFailedLead: string := "Failed to get results: "
  const AnalysisFailed: string := "Document analysis failed"
  const TimedOutMessage: string := "Document analysis timed out"

  /** A poll that leaves the operation running. */
  predicate Pending(p: Poll) {
    p.Body? && p.state != Succeeded && p.state != FailedStatus
  }

  /** The message a poll that ends the loop in failure throws. */
  function PollFailure(p: Poll): string
    requires !Pending(p) && !(p.Body? && p.state == Succeeded)
  {
    match p
    case Unreachable(m) => m
    case NotOk(status) => ResultsFailedLead + NatToString(status)
    case Malformed(m) => m
    case Body(_, _) => AnalysisFailed
  }

  // ---------------------------------------------------------------------------
  // The poll loop

  /** How polling ended, with the number of polls made. */
  datatype PollEnd =
    | Done(polls: nat, result: Option<AnalyzeResult>)
    | Failed(polls: nat, message: string)
    | TimedOut(polls: nat)

  /** The `while` loop from attempt `attempts` on: each poll that leaves the
      operation running leads to the next, until the budget is spent. The
      result: polling stops at the first poll that is not pending; if it
      reports success the operation is done, otherwise it failed with that
      poll's message; if every poll up to the budget is pending, the
      operation timed out. */
  function PollFrom(responses: nat -> Poll, attempts: nat): (r: PollEnd)
    requires attempts <= MaxAttempts
    ensures attempts <= r.polls <= MaxAttempts
    ensures forall j :: attempts <= j < r.polls - 1 ==> Pending(responses(j))
    ensures r.TimedOut? <==> forall j :: attempts <= j < MaxAttempts ==> Pending(responses(j))
    ensures r.TimedOut? ==> r.polls == MaxAttempts
    ensures r.Done? ==> r.polls > attempts && responses(r.polls - 1) == Body(Succeeded, r.result)
    ensures r.Failed? ==>
              && r.polls > attempts && !Pending(responses(r.polls - 1))
              && !(responses(r.polls - 1).Body? && responses(r.polls - 1).state == Succeeded)
              && r.message == PollFailure(responses(r.polls - 1))
    decreases MaxAttempts - attempts
  {
    if attempts >= MaxAttempts then TimedOut(attempts)
    else
      var p := responses(attempts);
      match p
      case Unreachable(m) => Failed(attempts + 1, m)
      case NotOk(status) => Failed(attempts + 1, ResultsFailedLead + NatToString(status))
      case Malformed(m) => Failed(attempts + 1, m)
      case Body(state, result) =>
        if state == Succeeded then Done(attempts + 1, result)
        else if state == FailedStatus then Failed(attempts + 1, AnalysisFailed)
        else PollFrom(responses, attempts + 1)
  }

  // ---------------------------------------------------------------------------
  // Progress

  /** The progress shown after poll `k` of 30. */
  function PollProgress(k: nat): real {
    50.0 + (k as real / MaxAttempts as real) * 40.0
  }

  /** Every poll's progress lies above 50 and at most 90, and a later poll
      never shows less. */
  lemma {:induction false} PollProgressBounds(k: nat, l: nat)
    requires 1 <= k <= l <= MaxAttempts
    ensures 50.0 < PollProgress(k) <= PollProgress(l) <= 90.0
  {
  }

  function PollProgresses(lo: nat, hi: nat): (r: seq<real>)
    requires lo <= hi
    ensures |r| == hi - lo
    ensures forall i :: 0 <= i < |r| ==> r[i] == PollProgress(lo + 1 + i)
    decreases hi - lo
  {
    if lo == hi then [] else [PollProgress(lo + 1)] + PollProgresses(lo + 1, hi)
  }

  predicate NonDecreasing(s: seq<real>) {
    forall i, j :: 0 <= i <= j < |s| ==> s[i] <= s[j]
  }

  /** The progress shown up to and including poll `n`: 10 before upload, 30
      before submission, 50 once submitted, then one value per poll. */
  function Reported(n: nat): (r: seq<real>)
    requires n <= MaxAttempts
    ensures |r| == n + 3
  {
    [10.0, 30.0, 50.0] + PollProgresses(0, n)
  }

  /** The progress up to the last poll never goes down and stays between 10
      and 90. */
  lemma {:induction false} ReportedNonDecreasing(n: nat)
    requires n <= MaxAttempts
    ensures NonDecreasing(Reported(n))
    ensures forall i :: 0 <= i < |Reported(n)| ==> 10.0 <= Reported(n)[i] <= 90.0
  {
    var head := Reported(n);
    var polls := PollProgresses(0, n);
    assert forall i :: 3 <= i < |head| ==> head[i] == polls[i - 3];
    forall i | 0 <= i < |polls| ensures 50.0 < polls[i] <= 90.0 {
      PollProgressBounds(i + 1, MaxAttempts);
    }
    forall i, j | 0 <= i <= j < |head| ensures head[i] <= head[j] {
      if 3 <= i {
        PollProgressBounds(i - 2, j - 2);
      }
    }
  }

  /** The step shown to the user. */
  datatype Step =
    | Preparing
    | Uploading
    | ProcessingContent
    | Analyzing(attempt: nat, of: nat)
    | Structuring
    | Complete
    | Cleared

  function AnalyzingSteps(lo: nat, hi: nat): (r: seq<Step>)
    requires lo <= hi
    ensures |r| == hi - lo
    ensures forall i :: 0 <= i < |r| ==> r[i] == Analyzing(lo + 1 + i, MaxAttempts)
    decreases hi - lo
  {
    if lo == hi then [] else [Analyzing(lo + 1, MaxAttempts)] + AnalyzingSteps(lo + 1, hi)
  }

  // ---------------------------------------------------------------------------
  // The normaliser

  datatype FileInfo = FileInfo(name: string, size: nat)

  datatype Metadata = Metadata(fileName: string, fileSize: nat, extractedAt: string, pageCount: nat)

  datatype Content = Content(
    text: string, pages: seq<Item>, tables: seq<Item>, keyValuePairs: seq<Item>, paragraphs: seq<Item>)

  datatype StructuredData = StructuredData(metadata: Metadata, content: Content, rawResponse: Option<AnalyzeResult>)

  function Items(o: Option<seq<Item>>): seq<Item> {
    o.GetOr([])
  }

  /** `structuredData`: missing parts become empty, the page count is the
      number of pages, and the raw result is kept. `extractedAt` is the
      clock reading given. */
  function Normalize(file: FileInfo, extractedAt: string, result: Option<AnalyzeResult>): (r: StructuredData)
    ensures r.metadata.fileName == file.name && r.metadata.fileSize == file.size
    ensures r.metadata.extractedAt == extractedAt
    ensures r.metadata.pageCount == |r.content.pages|
    ensures r.rawResponse == result
    ensures result.None? ==> r.content == Content("", [], [], [], [])
    ensures r.content.text == if result.Some? && result.value.content.Some? then result.value.content.value else ""
    ensures result.Some? && result.value.pages.Some? ==> r.content.pages == result.value.pages.value
    ensures result.None? || result.value.pages.None? ==> r.content.pages == []
    ensures result.Some? && result.value.tables.Some? ==> r.content.tables == result.value.tables.value
    ensures result.None? || result.value.tables.None? ==> r.content.tables == []
    ensures result.Some? && result.value.keyValuePairs.Some? ==> r.content.keyValuePairs == result.value.keyValuePairs.value
    ensures result.None? || result.value.keyValuePairs.None? ==> r.content.keyValuePairs == []
    ensures result.Some? && result.value.paragraphs.Some? ==> r.content.paragraphs == result.value.paragraphs.value
    ensures result.None? || result.value.paragraphs.None? ==> r.content.paragraphs == []
  {
    match result
    case None => StructuredData(Metadata(file.name, file.size, extractedAt, 0), Content("", [], [], [], []), None)
    case Some(a) =>
      var content := Content(TextOr(a.content, ""), Items(a.pages), Items(a.tables), Items(a.keyValuePairs), Items(a.paragraphs));
      StructuredData(Metadata(file.name, file.size, extractedAt, |content.pages|), content, result)
  }

  /** The analysis result that carries exactly the given content. */
  function Filled(c: Content): AnalyzeResult {
    AnalyzeResult(Some(c.text), Some(c.pages), Some(c.tables), Some(c.keyValuePairs), Some(c.paragraphs))
  }

  /** Normalising loses nothing the service sent: a result with every part
      present comes back as that content (so normalising normalised content
      changes nothing), and a missing result reads like a result with every
      part missing. */
  lemma {:induction false} NormalizeKeepsContent(file: FileInfo, at: string, c: Content)
    ensures Normalize(file, at, Some(Filled(c))).content == c
    ensures Normalize(file, at, None).content == Normalize(file, at, Some(AnalyzeResult(None, None, None, None, None))).content
  {
  }

  // ---------------------------------------------------------------------------
  // The whole run

  datatype Outcome = Extracted(data: StructuredData) | Error(message: string)

  /** One run: how it ended, how many polls were made, and the progress values
      and steps shown, in order. The last three entries of each are the
      `finally` block's reset. */
  datatype Run = Run(outcome: Outcome, polls: nat, progress: seq<real>, steps: seq<Step>, processing: bool)

  /** The run after polling has ended. */
  function AfterPolling(file: FileInfo, now: string, end: PollEnd): (r: Run)
    requires end.polls <= MaxAttempts
    ensures !r.processing && r.polls == end.polls
    ensures end.Done? <==> r.outcome.Extracted?
    ensures end.Done? ==> r.outcome.data == Normalize(file, now, end.result)
    ensures end.Failed? ==> r.outcome == Error(end.message)
    ensures end.TimedOut? ==> r.outcome == Error(TimedOutMessage)
    ensures |r.progress| >= 2 && r.progress[|r.progress| - 1] == 0.0
    ensures r.progress[|r.progress| - 2] == 100.0 <==> end.Done?
    ensures |r.steps| >= 1 && r.steps[|r.steps| - 1] == Cleared
  {
    var shown := Reported(end.polls);
    var steps := [Preparing, Uploading, ProcessingContent] + AnalyzingSteps(0, end.polls);
    match end
    case Done(polls, result) =>
      Run(Extracted(Normalize(file, now, result)), polls,
          shown + [90.0, 100.0, 0.0], steps + [Structuring, Complete, Cleared], false)
    case Failed(polls, message) =>
      Run(Error(message), polls, shown + [0.0], steps + [Cleared], false)
    case TimedOut(polls) =>
      Run(Error(TimedOutMessage), polls, shown + [0.0], steps + [Cleared], false)
  }

  /** `extractDataFromPDF`: nothing without a file; otherwise a failed
      submission or a missing operation location ends the run before any
      poll, and else the operation is polled. Every run ends with
      processing off and progress back to 0. */
  function ExtractDataFromPdf(file: Option<FileInfo>, now: string, submit: Submission, responses: nat -> Poll): (r: Option<Run>)
    ensures r.None? <==> file.None?
    ensures r.Some? ==> !r.value.processing && r.value.polls <= MaxAttempts
    ensures r.Some? ==> |r.value.progress| >= 3 && r.value.progress[|r.value.progress| - 1] == 0.0
    ensures r.Some? ==> |r.value.steps| >= 3 && r.value.steps[|r.value.steps| - 1] == Cleared
  {
    match file
    case None => None
    case Some(f) =>
      var early := Run(Error(""), 0, [10.0, 30.0, 0.0], [Preparing, Uploading, Cleared], false);
      match submit
      case Unsent(m) => Some(early.(outcome := Error(m)))
      case Submitted(ok, status, statusText, location) =>
        if !ok then
          Some(early.(outcome := Error(AnalysisFailedLead + NatToString(status) + " " + statusText)))
        else if TextOr(location, "") == "" then
          Some(early.(outcome := Error(NoOperationLocation)))
        else
          Some(AfterPolling(f, now, PollFrom(responses, 0)))
  }

  /** A submission that fails, or comes back without an operation location,
      is reported and no poll is made. */
  lemma {:induction false} SubmitFailureStopsEarly(f: FileInfo, now: string, submit: Submission, responses: nat -> Poll)
    requires submit.Unsent? || !submit.ok || TextOr(submit.operationLocation, "") == ""
    ensures var r := ExtractDataFromPdf(Some(f), now, submit, responses).value;
      && r.polls == 0 && r.outcome.Error?
      && (submit.Submitted? && !submit.ok ==>
            r.outcome.message == AnalysisFailedLead + NatToString(submit.status) + " " + submit.statusText)
      && (submit.Submitted? && submit.ok ==> r.outcome.message == NoOperationLocation)
  {
  }

  /** Once the operation is submitted, the outcome is decided by the first poll
      that is not pending: success gives the normalised result, any other
      gives that poll's failure, and 30 pending polls time out. */
  lemma {:induction false} OutcomeOfPolling(f: FileInfo, now: string, status: nat, text: string,
                                            location: string, responses: nat -> Poll)
    requires location != ""
    ensures var r := ExtractDataFromPdf(Some(f), now, Submitted(true, status, text, Some(location)), responses).value;
      var end := PollFrom(responses, 0);
      && r.polls == end.polls
      && (end.Done? ==> r.outcome == Extracted(Normalize(f, now, end.result)))
      && (end.Failed? ==> r.outcome == Error(PollFailure(responses(end.polls - 1))))
      && (end.TimedOut? ==> r.outcome == Error(TimedOutMessage))
  {
    assert TextOr(Some(location), "") == location;
  }

  /** The progress a run shows before the final reset never goes down, stays
      between 10 and 100, and ends at 100 exactly when the run succeeded. */
  predicate ProgressShown(r: Run)
  {
    && |r.progress| >= 2
    && var shown := r.progress[..|r.progress| - 1];
    && NonDecreasing(shown)
    && (forall i :: 0 <= i < |shown| ==> 10.0 <= shown[i] <= 100.0)
    && (r.outcome.Extracted? <==> shown[|shown| - 1] == 100.0)
  }

  /** Every run shows its progress as `ProgressShown` describes. */
  lemma {:induction false} ProgressNonDecreasing(f: FileInfo, now: string, submit: Submission, responses: nat -> Poll)
    ensures ProgressShown(ExtractDataFromPdf(Some(f), now, submit, responses).value)
  {
    if submit.Submitted? && submit.ok && TextOr(submit.operationLocation, "") != "" {
      assert ExtractDataFromPdf(Some(f), now, submit, responses).value == AfterPolling(f, now, PollFrom(responses, 0));
      AfterPollingProgress(f, now, PollFrom(responses, 0));
    } else {
      EarlyProgress(f, now, submit, responses);
    }
  }

  /** A run that stops before polling shows 10 and 30 and fails. */
  lemma {:induction false} EarlyProgress(f: FileInfo, now: string, submit: Submission, responses: nat -> Poll)
    requires !(submit.Submitted? && submit.ok && TextOr(submit.operationLocation, "") != "")
    ensures ProgressShown(ExtractDataFromPdf(Some(f), now, submit, responses).value)
  {
    var r := ExtractDataFromPdf(Some(f), now, submit, responses).value;
    assert r.outcome.Error? && r.progress == [10.0, 30.0, 0.0];
    assert r.progress[..|r.progress| - 1] == [10.0, 30.0];
  }

  lemma {:induction false} AfterPollingProgress(f: FileInfo, now: string, end: PollEnd)
    requires end.polls <= MaxAttempts
    ensures ProgressShown(AfterPolling(f, now, end))
  {
    var r := AfterPolling(f, now, end);
    var shown := r.progress[..|r.progress| - 1];
    ReportedNonDecreasing(end.polls);
    var head := Reported(end.polls);
    assert head[|head| - 1] <= 90.0;
    if end.Done? {
      assert shown == head + [90.0, 100.0];
    } else {
      assert shown == head;
    }
  }
}

=== FILE: js_string.dfy ===
/** The few JavaScript string operations the application relies on, written out
    with their ECMAScript meaning: `trim`, `split` on one character, `join`,
    `indexOf`/`includes`, `substring` with its clamping, `replace` with a string
    pattern, a global replace with the replacement-pattern expansion that
    `String.prototype.replace` performs, and `String(n)` for a count.

    A `char` here is one Unicode scalar value. For text in the Basic
    Multilingual Plane that is one UTF-16 code unit of the JavaScript string;
    a character outside it is one `char` here but two code units there. */
module JsString {
  import opened Wrappers

  // ---------------------------------------------------------------------------
  // Occurrences

  /** `p` occurs in `s` starting at index `i`. */
  predicate MatchAt(s: string, p: string, i: nat) {
    i + |p| <= |s| && s[i..i + |p|] == p
  }

  ghost predicate Occurs(s: string, p: string) {
    exists i: nat :: MatchAt(s, p, i)
  }

  /** `s.indexOf(p, from)`: the first index at or after `from` where `p` occurs. */
  function IndexOfFrom(s: string, p: string, from: nat): (r: Option<nat>)
    ensures r.Some? ==> from <= r.value && MatchAt(s, p, r.value)
    ensures r.Some? ==> forall j: nat :: from <= j < r.value ==> !MatchAt(s, p, j)
    ensures r.None? ==> forall j: nat :: from <= j ==> !MatchAt(s, p, j)
    decreases |s| - from
  {
    if from + |p| > |s| then None
    else if s[from..from + |p|] == p then Some(from)
    else IndexOfFrom(s, p, from + 1)
  }

  /** `s.indexOf(p)`, with `None` for the source's `-1`. */
  function IndexOf(s: string, p: string): (r: Option<nat>)
    ensures r.Some? ==> MatchAt(s, p, r.value)
    ensures r.Some? ==> forall j: nat :: j < r.value ==> !MatchAt(s, p, j)
    ensures r.None? <==> !Occurs(s, p)
  {
    IndexOfFrom(s, p, 0)
  }

  /** `s.includes(p)`. */
  predicate Includes(s: string, p: string) {
    IndexOf(s, p).Some?
  }

  lemma IncludesIffOccurs(s: string, p: string)
    ensures Includes(s, p) <==> Occurs(s, p)
  {
  }

  /** `p` cannot occur in `s` when its first character does not. */
  lemma NoOccurrenceWithoutLead(s: string, p: string)
    requires |p| > 0 && p[0] !in s
    ensures !Occurs(s, p)
  {
    forall i: nat
      ensures !MatchAt(s, p, i)
    {
      if i + |p| <= |s| {
        assert s[i..i + |p|][0] == s[i];
      }
    }
  }

  /** `p` cannot occur in `a + b` when its first character occurs only once, at
      the start of `b`, followed by a character other than `p`'s second. */
  lemma NoOccurrenceWithSingleLead(a: string, b: string, p: string)
    requires |p| >= 2 && |b| >= 2 && b[0] == p[0] && b[1] != p[1]
    requires p[0] !in a && p[0] !in b[1..]
    ensures !Occurs(a + b, p)
  {
    var s := a + b;
    forall i: nat
      ensures !MatchAt(s, p, i)
    {
      if i + |p| <= |s| {
        var w := s[i..i + |p|];
        if i < |a| {
          assert w[0] == a[i];
        } else if i == |a| {
          assert w[1] == b[1];
        } else {
          assert w[0] == b[1..][i - |a| - 1];
        }
      }
    }
  }

  /** `s || fallback` for an optional string: a missing string and "" are
      both falsy. */
  function TextOr(s: Option<string>, fallback: string): (r: string)
    ensures s.Some? && s.value != "" ==> r == s.value
    ensures !(s.Some? && s.value != "") ==> r == fallback
  {
    match s
    case Some(v) => if v != "" then v else fallback
    case None => fallback
  }

  // ---------------------------------------------------------------------------
  // Whitespace and trim

  /** The characters `String.prototype.trim` removes: ECMAScript WhiteSpace and
      LineTerminator code points. */
  const WhiteSpace: set<char> := {
    '\t', '\n', '\U{000B}', '\U{000C}', '\r', ' ', '\U{00A0}', '\U{1680}',
    '\U{2000}', '\U{2001}', '\U{2002}', '\U{2003}', '\U{2004}', '\U{2005}',
    '\U{2006}', '\U{2007}', '\U{2008}', '\U{2009}', '\U{200A}',
    '\U{2028}', '\U{2029}', '\U{202F}', '\U{205F}', '\U{3000}', '\U{FEFF}'
  }

  predicate IsSpace(c: char) {
    c in WhiteSpace
  }

  predicate AllSpace(s: string) {
    forall k :: 0 <= k < |s| ==> IsSpace(s[k])
  }

  /** The first index at or after `i` that does not hold whitespace, or `|s|`. */
  function SkipSpaces(s: string, i: nat): (j: nat)
    requires i <= |s|
    ensures i <= j <= |s|
    ensures forall k :: i <= k < j ==> IsSpace(s[k])
    ensures j < |s| ==> !IsSpace(s[j])
    decreases |s| - i
  {
    if i < |s| && IsSpace(s[i]) then SkipSpaces(s, i + 1) else i
  }

  /** Going down from `j` to `lo`: one past the last index below `j` that does
      not hold whitespace, or `lo`. */
  function SkipSpacesBack(s: string, lo: nat, j: nat): (i: nat)
    requires lo <= j <= |s|
    ensures lo <= i <= j
    ensures forall k :: i <= k < j ==> IsSpace(s[k])
    ensures i > lo ==> !IsSpace(s[i - 1])
    decreases j
  {
    if j > lo && IsSpace(s[j - 1]) then SkipSpacesBack(s, lo, j - 1) else j
  }

  /** `s.trim()`: leading and trailing whitespace removed. */
  function Trim(s: string): (r: string)
    ensures |r| <= |s|
    ensures r == [] || (!IsSpace(r[0]) && !IsSpace(r[|r| - 1]))
  {
    var a := SkipSpaces(s, 0);
    var b := SkipSpacesBack(s, a, |s|);
    assert a < b ==> s[a..b][0] == s[a] && s[a..b][b - a - 1] == s[b - 1];
    s[a..b]
  }

  /** What `trim` keeps: a contiguous piece of `s` with only whitespace around
      it, neither starting nor ending with whitespace. */
  lemma TrimIsInfix(s: string)
    ensures var r, k := Trim(s), SkipSpaces(s, 0);
      && k + |r| <= |s| && s[k..k + |r|] == r
      && AllSpace(s[..k]) && AllSpace(s[k + |r|..])
      && (r == [] || (!IsSpace(r[0]) && !IsSpace(r[|r| - 1])))
  {
    var a := SkipSpaces(s, 0);
    var b := SkipSpacesBack(s, a, |s|);
    assert forall k :: 0 <= k < |s[..a]| ==> s[..a][k] == s[k];
    assert forall k :: 0 <= k < |s[b..]| ==> s[b..][k] == s[b + k];
    if a < b {
      assert s[a..b][0] == s[a] && s[a..b][b - a - 1] == s[b - 1];
    }
  }

  /** A string trims to nothing exactly when it is all whitespace. */
  lemma TrimEmptyIffAllSpace(s: string)
    ensures Trim(s) == [] <==> AllSpace(s)
  {
    var a := SkipSpaces(s, 0);
    var b := SkipSpacesBack(s, a, |s|);
    if Trim(s) == [] {
      assert b == a;
      forall k | 0 <= k < |s| ensures IsSpace(s[k]) {
      }
    }
    if AllSpace(s) {
      assert a == |s|;
    }
  }

  // ---------------------------------------------------------------------------
  // split and join

  function Count(s: string, c: char): nat
    decreases |s|
  {
    if s == [] then 0 else (if s[0] == c then 1 else 0) + Count(s[1..], c)
  }

  /** `parts.join(sep)`. */
  function Join(parts: seq<string>, sep: string): string
    decreases |parts|
  {
    if |parts| == 0 then []
    else if |parts| == 1 then parts[0]
    else parts[0] + sep + Join(parts[1..], sep)
  }

  /** `s.split(c)` for a one-character separator: always at least one piece,
      no piece holds the separator, and there is one piece more than there are
      separators. */
  function Split(s: string, c: char): (r: seq<string>)
    ensures |r| == Count(s, c) + 1
    ensures forall k :: 0 <= k < |r| ==> c !in r[k]
    decreases |s|
  {
    if s == [] then [[]]
    else
      var rest := Split(s[1..], c);
      if s[0] == c then [[]] + rest
      else [[s[0]] + rest[0]] + rest[1..]
  }

  /** Joining the pieces of a split with the separator gives back the string. */
  lemma {:induction false} JoinSplit(s: string, c: char)
    ensures Join(Split(s, c), [c]) == s
    decreases |s|
  {
    if s != [] {
      var rest := Split(s[1..], c);
      JoinSplit(s[1..], c);
      if s[0] == c {
        assert Split(s, c) == [[]] + rest;
        assert (([[]] + rest)[1..]) == rest;
      } else {
        var r := Split(s, c);
        assert r == [[s[0]] + rest[0]] + rest[1..];
        if |rest| == 1 {
          assert r == [[s[0]] + rest[0]];
        } else {
          assert r[1..] == rest[1..];
          assert Join(rest, [c]) == rest[0] + [c] + Join(rest[1..], [c]);
        }
      }
    }
  }

  /** Splitting a join of separator-free pieces gives back the pieces. */
  lemma {:induction false} SplitJoin(parts: seq<string>, c: char)
    requires |parts| >= 1
    requires forall k :: 0 <= k < |parts| ==> c !in parts[k]
    ensures Split(Join(parts, [c]), c) == parts
    decreases |parts|, |parts[0]|
  {
    var p0 := parts[0];
    if p0 == [] {
      if |parts| > 1 {
        SplitJoin(parts[1..], c);
        var s := Join(parts, [c]);
        assert s == [c] + Join(parts[1..], [c]);
        assert s[1..] == Join(parts[1..], [c]);
        assert parts == [[]] + parts[1..];
      }
    } else {
      var parts' := [p0[1..]] + parts[1..];
      assert forall k :: 0 <= k < |parts'| ==> c !in parts'[k] by {
        forall k | 0 <= k < |parts'| ensures c !in parts'[k] {
          if k == 0 {
            assert forall x :: x in p0[1..] ==> x in p0;
          } else {
            assert parts'[k] == parts[k];
          }
        }
      }
      SplitJoin(parts', c);
      var s := Join(parts, [c]);
      if |parts| == 1 {
        assert s == p0;
        assert s[1..] == Join(parts', [c]);
      } else {
        assert parts'[1..] == parts[1..];
        assert s[1..] == Join(parts', [c]);
      }
      assert s[0] == p0[0] && s[0] != c;
      assert [p0[0]] + p0[1..] == p0;
      assert parts == [p0] + parts'[1..];
    }
  }

  // ---------------------------------------------------------------------------
  // substring and replace

  function Clamp(x: int, len: nat): (r: nat)
    ensures r <= len
  {
    if x < 0 then 0 else if x > len then len else x
  }

  /** `s.substring(start, end)`: both bounds are clamped into `[0, |s|]` and
      swapped when they come in the wrong order. */
  function Substring(s: string, start: int, end: int): (r: string)
    ensures 0 <= start <= end <= |s| ==> r == s[start..end]
    ensures |r| <= |s|
  {
    var a := Clamp(start, |s|);
    var b := Clamp(end, |s|);
    if a <= b then s[a..b] else s[b..a]
  }

  /** `s.replace(p, r)` with a string pattern and a replacement free of `$`
      patterns: only the first occurrence is replaced. */
  function ReplaceFirst(s: string, p: string, r: string): (res: string)
    ensures !Occurs(s, p) ==> res == s
    ensures forall i :: IndexOf(s, p) == Some(i) ==> res == s[..i] + r + s[i + |p|..]
  {
    match IndexOf(s, p)
    case None => s
    case Some(i) => s[..i] + r + s[i + |p|..]
  }

  /** Every non-overlapping occurrence of `p`, leftmost first, replaced by
      `rep` taken literally. */
  function ReplaceAll(s: string, p: string, rep: string): string
    requires |p| > 0
    decreases |s|
  {
    if |s| < |p| then s
    else if s[..|p|] == p then rep + ReplaceAll(s[|p|..], p, rep)
    else [s[0]] + ReplaceAll(s[1..], p, rep)
  }

  /** Dropping `d` characters moves every match `d` places to the left. */
  lemma MatchAtDrop(s: string, p: string, d: nat, i: nat)
    requires d <= |s|
    ensures MatchAt(s[d..], p, i) <==> MatchAt(s, p, i + d)
  {
    if i + d + |p| <= |s| {
      assert s[d..][i..i + |p|] == s[i + d..i + d + |p|];
    }
  }

  /** A prefix of `s` in which no occurrence starts is copied as it is. */
  lemma ReplaceAllNoMatchStep(s: string, p: string, rep: string)
    requires |p| > 0 && |s| > 0 && !MatchAt(s, p, 0)
    ensures ReplaceAll(s, p, rep) == [s[0]] + ReplaceAll(s[1..], p, rep)
  {
  }

  lemma NoMatchBeforeDrop(s: string, p: string, k: nat)
    requires 0 < k <= |s|
    requires forall j: nat :: j < k ==> !MatchAt(s, p, j)
    ensures forall j: nat :: j < k - 1 ==> !MatchAt(s[1..], p, j)
  {
    forall j: nat | j < k - 1
      ensures !MatchAt(s[1..], p, j)
    {
      MatchAtDrop(s, p, 1, j);
    }
  }

  lemma DropHead(s: string, k: nat, u: string)
    requires 0 < k <= |s|
    ensures s[1..][k - 1..] == s[k..]
    ensures [s[0]] + (s[1..][..k - 1] + u) == s[..k] + u
  {
    assert [s[0]] + s[1..][..k - 1] == s[..k];
  }

  lemma {:induction false} ReplaceAllPrefix(s: string, p: string, rep: string, k: nat)
    requires |p| > 0 && k <= |s|
    requires forall j: nat :: j < k ==> !MatchAt(s, p, j)
    ensures ReplaceAll(s, p, rep) == s[..k] + ReplaceAll(s[k..], p, rep)
    decreases k
  {
    if k == 0 {
      assert s[..0] == [] && s[0..] == s;
    } else {
      var t := s[1..];
      ReplaceAllNoMatchStep(s, p, rep);
      NoMatchBeforeDrop(s, p, k);
      ReplaceAllPrefix(t, p, rep, k - 1);
      DropHead(s, k, ReplaceAll(s[k..], p, rep));
    }
  }



  /** The global replace, characterised through `indexOf`: no occurrence leaves
      the string alone; otherwise the text before the first occurrence is kept,
      the occurrence becomes `rep`, and the rest is processed the same way. */
  lemma ReplaceAllByIndexOf(s: string, p: string, rep: string)
    requires |p| > 0
    ensures IndexOf(s, p).None? ==> ReplaceAll(s, p, rep) == s
    ensures IndexOf(s, p).Some? ==> var k := IndexOf(s, p).value;
      ReplaceAll(s, p, rep) == s[..k] + rep + ReplaceAll(s[k + |p|..], p, rep)
  {
    var r := IndexOf(s, p);
    if r.None? {
      ReplaceAllPrefix(s, p, rep, |s|);
      assert s[..|s|] == s;
      assert ReplaceAll(s[|s|..], p, rep) == [];
    } else {
      var k := r.value;
      ReplaceAllPrefix(s, p, rep, k);
      var t := s[k..];
      assert t[..|p|] == p;
      assert t[|p|..] == s[k + |p|..];
    }
  }

  /** A string in which `p` does not occur is left unchanged. */
  lemma ReplaceAllAbsent(s: string, p: string, rep: string)
    requires |p| > 0 && !Occurs(s, p)
    ensures ReplaceAll(s, p, rep) == s
  {
    ReplaceAllPrefix(s, p, rep, |s|);
    assert s[..|s|] == s;
    assert ReplaceAll(s[|s|..], p, rep) == [];
  }

  // ---------------------------------------------------------------------------
  // Pieces of text in which no occurrence of a pattern can start

  /** No occurrence of `p` can start inside `x`, whatever text follows `x`. */
  ghost predicate NoStartIn(x: string, p: string) {
    forall b: string, i: nat :: i < |x| ==> !MatchAt(x + b, p, i)
  }

  lemma NoStartInWithoutLead(x: string, p: string)
    requires |p| > 0 && p[0] !in x
    ensures NoStartIn(x, p)
  {
    forall b: string, i: nat | i < |x|
      ensures !MatchAt(x + b, p, i)
    {
      if i + |p| <= |x + b| {
        assert (x + b)[i..i + |p|][0] == x[i];
      }
    }
  }

  lemma NoStartInConcat(x: string, y: string, p: string)
    requires NoStartIn(x, p) && NoStartIn(y, p)
    ensures NoStartIn(x + y, p)
  {
    forall b: string, i: nat | i < |x + y|
      ensures !MatchAt(x + y + b, p, i)
    {
      if i < |x| {
        assert !MatchAt(x + (y + b), p, i);
        assert x + y + b == x + (y + b);
      } else {
        var j := i - |x|;
        assert !MatchAt(y + b, p, j);
        assert x + y + b == x + (y + b);
        if i + |p| <= |x + y + b| {
          assert (x + y + b)[i..i + |p|] == (y + b)[j..j + |p|];
        }
      }
    }
  }

  /** A string in which no occurrence can start holds no occurrence. */
  lemma NoStartInNoOccurrence(x: string, p: string)
    requires |p| > 0 && NoStartIn(x, p)
    ensures !Occurs(x, p)
  {
    forall i: nat
      ensures !MatchAt(x, p, i)
    {
      assert x + [] == x;
      if i < |x| {
        assert !MatchAt(x + [], p, i);
      }
    }
  }

  /** Text in which no occurrence can start passes through the replace unchanged. */
  lemma ReplaceAllSkip(x: string, b: string, p: string, rep: string)
    requires |p| > 0 && NoStartIn(x, p)
    ensures ReplaceAll(x + b, p, rep) == x + ReplaceAll(b, p, rep)
  {
    var s := x + b;
    ReplaceAllPrefix(s, p, rep, |x|);
    assert s[..|x|] == x && s[|x|..] == b;
  }

  /** An occurrence at the very start is replaced and the scan resumes after it. */
  lemma ReplaceAllHead(p: string, b: string, rep: string)
    requires |p| > 0
    ensures ReplaceAll(p + b, p, rep) == rep + ReplaceAll(b, p, rep)
  {
    var s := p + b;
    assert s[..|p|] == p && s[|p|..] == b;
  }

  // ---------------------------------------------------------------------------
  // Replacement patterns of String.prototype.replace

  /** The text a replacement template stands for at one match (GetSubstitution
      of ECMAScript, for a pattern without capture groups): `$$` is one `$`,
      `$&` the matched text, `` $` `` the text before the match, `$'` the text
      after it; every other `$` is literal. `whole` is the string being
      searched and the match spans `whole[pos..pos + len]`. */
  function Expand(template: string, whole: string, pos: nat, len: nat): string
    requires pos + len <= |whole|
    decreases |template|
  {
    if |template| == 0 then []
    else if template[0] == '$' && |template| >= 2 && template[1] == '$' then
      "$" + Expand(template[2..], whole, pos, len)
    else if template[0] == '$' && |template| >= 2 && template[1] == '&' then
      whole[pos..pos + len] + Expand(template[2..], whole, pos, len)
    else if template[0] == '$' && |template| >= 2 && template[1] == '`' then
      whole[..pos] + Expand(template[2..], whole, pos, len)
    else if template[0] == '$' && |template| >= 2 && template[1] == '\'' then
      whole[pos + len..] + Expand(template[2..], whole, pos, len)
    else [template[0]] + Expand(template[1..], whole, pos, len)
  }

  /** A template without `$` is inserted as it is. */
  lemma {:induction false} ExpandLiteral(template: string, whole: string, pos: nat, len: nat)
    requires pos + len <= |whole| && '$' !in template
    ensures Expand(template, whole, pos, len) == template
    decreases |template|
  {
    if |template| > 0 {
      assert template[0] in template;
      assert forall x :: x in template[1..] ==> x in template;
      ExpandLiteral(template[1..], whole, pos, len);
      assert [template[0]] + template[1..] == template;
    }
  }

  /** `s.replace(/p/g, rep)` on the part `s` of the string that follows the
      already scanned `prefix`: like `ReplaceAll`, but each occurrence is
      replaced by the expansion of `rep` at that match. */
  function ReplaceAllPatternAfter(prefix: string, s: string, p: string, rep: string): string
    requires |p| > 0
    decreases |s|
  {
    if |s| < |p| then s
    else if s[..|p|] == p then
      Expand(rep, prefix + s, |prefix|, |p|) + ReplaceAllPatternAfter(prefix + p, s[|p|..], p, rep)
    else [s[0]] + ReplaceAllPatternAfter(prefix + [s[0]], s[1..], p, rep)
  }

  /** `s.replace(/p/g, rep)` for a pattern `p` without special characters. */
  function ReplaceAllPattern(s: string, p: string, rep: string): (r: string)
    requires |p| > 0
    ensures '$' !in rep ==> r == ReplaceAll(s, p, rep)
  {
    if '$' !in rep then ReplaceAllPatternAfterLiteral([], s, p, rep); ReplaceAllPatternAfter([], s, p, rep)
    else ReplaceAllPatternAfter([], s, p, rep)
  }

  /** Without a `$` in the replacement the pattern expansion changes nothing. */
  lemma {:induction false} ReplaceAllPatternAfterLiteral(prefix: string, s: string, p: string, rep: string)
    requires |p| > 0 && '$' !in rep
    ensures ReplaceAllPatternAfter(prefix, s, p, rep) == ReplaceAll(s, p, rep)
    decreases |s|
  {
    if |s| >= |p| {
      if s[..|p|] == p {
        ExpandLiteral(rep, prefix + s, |prefix|, |p|);
        ReplaceAllPatternAfterLiteral(prefix + p, s[|p|..], p, rep);
      } else {
        ReplaceAllPatternAfterLiteral(prefix + [s[0]], s[1..], p, rep);
      }
    }
  }

  lemma ReplaceAllPatternLiteral(s: string, p: string, rep: string)
    requires |p| > 0 && '$' !in rep
    ensures ReplaceAllPattern(s, p, rep) == ReplaceAll(s, p, rep)
  {
    ReplaceAllPatternAfterLiteral([], s, p, rep);
  }

  // ---------------------------------------------------------------------------
  // Numbers as text

  predicate IsDigit(c: char) {
    '0' <= c <= '9'
  }

  function DigitChar(d: nat): (c: char)
    requires d < 10
    ensures IsDigit(c)
  {
    ['0', '1', '2', '3', '4', '5', '6', '7', '8', '9'][d]
  }

  function DigitValue(c: char): nat
    requires IsDigit(c)
  {
    (c as int - '0' as int) as nat
  }

  /** `String(n)` for a non-negative integer: its decimal digits. */
  function NatToString(n: nat): (r: string)
    ensures |r| >= 1
    ensures forall k :: 0 <= k < |r| ==> IsDigit(r[k])
    ensures |r| > 1 ==> r[0] != '0'
    decreases n
  {
    if n < 10 then [DigitChar(n)] else NatToString(n / 10) + [DigitChar(n % 10)]
  }

  /** The value of a string of decimal digits. */
  function ParseDecimal(s: string): nat
    requires forall k :: 0 <= k < |s| ==> IsDigit(s[k])
    decreases |s|
  {
    if |s| == 0 then 0 else 10 * ParseDecimal(s[..|s| - 1]) + DigitValue(s[|s| - 1])
  }

  /** Reading back the digits of `String(n)` gives `n`. */
  lemma {:induction false} ParseNatToString(n: nat)
    ensures ParseDecimal(NatToString(n)) == n
    decreases n
  {
    var r := NatToString(n);
    if n < 10 {
      assert r[..0] == [];
    } else {
      ParseNatToString(n / 10);
      assert r[..|r| - 1] == NatToString(n / 10);
    }
  }

  /** Different counts print differently. */
  lemma NatToStringInjective(m: nat, n: nat)
    requires NatToString(m) == NatToString(n)
    ensures m == n
  {
    ParseNatToString(m);
    ParseNatToString(n);
  }
}

=== FILE: json_preview.dfy ===
/** The preview of extracted data (src/components/JSONPreview.tsx): the name
    the JSON download is saved under, the shortened text shown, and the
    bounded lists of key-value pairs and table cells with their "and n more"
    notes. Rendering, the download itself and JSON serialisation are not
    modelled. */
module JsonPreview {
  import opened Wrappers
  import opened JsString

  // ---------------------------------------------------------------------------
  // The download's file name

  const PdfSuffix: string := ".pdf"
  const JsonSuffix: string := ".json"
  const FallbackName: string := "extracted-data"

  /** `downloadJSON`'s file name: the first `.pdf` in the file name, wherever
      it is, is removed; an empty or missing result falls back to
      `extracted-data`; `.json` is appended. */
  function DownloadName(fileName: Option<string>): (r: string)
    ensures |r| > |JsonSuffix| && r[|r| - |JsonSuffix|..] == JsonSuffix
    ensures fileName.None? ==> r == FallbackName + JsonSuffix
  {
    var stem := match fileName
      case None => None
      case Some(f) => Some(ReplaceFirst(f, PdfSuffix, ""));
    var name := TextOr(stem, FallbackName) + JsonSuffix;
    assert name[|name| - |JsonSuffix|..] == JsonSuffix;
    name
  }

  /** The first `.pdf` of `a + ".pdf" + b`, when `a` has none, is the one
      after `a`: no occurrence starts earlier, because `.` begins `.pdf` and
      appears nowhere else in it. */
  lemma {:induction false} PdfFoundAfter(a: string, b: string)
    requires !Occurs(a, PdfSuffix)
    ensures IndexOf(a + PdfSuffix + b, PdfSuffix) == Some(|a|)
  {
    var s := a + PdfSuffix + b;
    assert MatchAt(s, PdfSuffix, |a|) by {
      assert s[|a|..|a| + 4] == PdfSuffix;
    }
    forall j: nat | j < |a| ensures !MatchAt(s, PdfSuffix, j) {
      if j + 4 <= |a| {
        assert s[j..j + 4] == a[j..j + 4];
        assert !MatchAt(a, PdfSuffix, j);
      } else if j + 4 <= |s| {
        assert s[j..j + 4][|a| - j] == s[|a|] == '.';
      }
    }
  }

  /** The first `.pdf`, wherever it stands, is what goes: the rest of the name
      is kept, and a name that is nothing but `.pdf` falls back to
      `extracted-data.json`. */
  lemma {:induction false} DownloadNameDropsFirstPdf(a: string, b: string)
    requires !Occurs(a, PdfSuffix)
    ensures a + b != "" ==> DownloadName(Some(a + PdfSuffix + b)) == a + b + JsonSuffix
    ensures a + b == "" ==> DownloadName(Some(a + PdfSuffix + b)) == FallbackName + JsonSuffix
  {
    PdfFoundAfter(a, b);
    var s := a + PdfSuffix + b;
    assert ReplaceFirst(s, PdfSuffix, "") == s[..|a|] + "" + s[|a| + 4..];
    assert s[..|a|] == a && s[|a| + 4..] == b;
  }

  /** A name without `.pdf` keeps all of it. */
  lemma {:induction false} DownloadNameWithoutPdf(name: string)
    requires name != "" && !Occurs(name, PdfSuffix)
    ensures DownloadName(Some(name)) == name + JsonSuffix
  {
  }

  // ---------------------------------------------------------------------------
  // Shortened text

  const NoText: string := "No text available"
  const Ellipsis: string := "..."
  const DefaultLength: nat := 200
  const ContentLength: nat := 1000

  /** `formatText(text, maxLength)`: a placeholder for a missing or empty text,
      the text itself when it fits, else its first `maxLength` characters and
      an ellipsis. */
  function FormatText(text: Option<string>, maxLength: nat): (r: string)
    ensures TextOr(text, "") == "" ==> r == NoText
    ensures TextOr(text, "") != "" && |text.value| <= maxLength ==> r == text.value
    ensures TextOr(text, "") != "" && |text.value| > maxLength ==>
              |r| == maxLength + |Ellipsis| && r[..maxLength] == text.value[..maxLength]
              && r[maxLength..] == Ellipsis
  {
    var t := TextOr(text, "");
    if t == "" then NoText
    else if |t| > maxLength then
      var r := Substring(t, 0, maxLength) + Ellipsis;
      assert r[..maxLength] == t[..maxLength];
      r
    else t
  }

  /** A text is shown unchanged exactly when it fits, or when all it has past
      `maxLength` is an ellipsis already; otherwise its first `maxLength`
      characters are shown, then the ellipsis. */
  lemma {:induction false} FormatTextShowsPrefix(text: string, maxLength: nat)
    requires text != ""
    ensures FormatText(Some(text), maxLength) == text <==> |text| <= maxLength || text[maxLength..] == Ellipsis
    ensures |FormatText(Some(text), maxLength)| <= maxLength + |Ellipsis|
    ensures |text| > maxLength ==>
              FormatText(Some(text), maxLength) == text[..maxLength] + Ellipsis
  {
    var r := FormatText(Some(text), maxLength);
    assert TextOr(Some(text), "") == text;
    if |text| > maxLength {
      assert r == text[..maxLength] + Ellipsis;
      assert text == text[..maxLength] + text[maxLength..];
    }
  }

  /** A text that fits is shown as it is, and showing that again changes
      nothing. */
  lemma {:induction false} FormatTextFits(text: string, maxLength: nat)
    requires text != "" && |text| <= maxLength
    ensures FormatText(Some(FormatText(Some(text), maxLength)), maxLength) == text
  {
    assert TextOr(Some(text), "") == text;
  }

  // ---------------------------------------------------------------------------
  // Bounded lists

  const PairLimit: nat := 5
  const CellLimit: nat := 12

  /** What a bounded list shows: at most `limit` items, from the front, and
      the number left over when there are more. */
  datatype Preview<T> = Preview(shown: seq<T>, more: Option<nat>)

  /** `items.slice(0, limit)` together with the note shown when
      `items.length > limit`. */
  function Bounded<T>(items: seq<T>, limit: nat): (r: Preview<T>)
    ensures |r.shown| <= limit && |r.shown| <= |items|
    ensures r.shown == items[..|r.shown|]
    ensures r.more.Some? <==> |items| > limit
    ensures r.more.Some? ==> r.more.value == |items| - limit
  {
    if |items| > limit then Preview(items[..limit], Some(|items| - limit))
    else Preview(items, None)
  }

  /** Nothing is lost: the items shown and the count left over add up to the
      whole list, and every item is shown when the note is absent. */
  lemma {:induction false} BoundedAccountsForAll<T>(items: seq<T>, limit: nat)
    ensures var p := Bounded(items, limit);
      && |p.shown| + p.more.GetOr(0) == |items|
      && (p.more.None? ==> p.shown == items)
      && (p.more.Some? ==> |p.shown| == limit)
  {
  }

  /** A key-value pair as the preview reads it; either side may be missing. */
  datatype Pair = Pair(key: Option<string>, value: Option<string>)

  const UnknownKey: string := "Unknown Key"
  const NoValue: string := "No value"
  const EmptyCell: string := "Empty"

  /** A pair's line: its key, or `Unknown Key`, and its value, or `No value`. */
  function PairLine(p: Pair): (r: (string, string))
    ensures r.0 != "" && r.1 != ""
    ensures p.key.Some? && p.key.value != "" ==> r.0 == p.key.value
    ensures p.value.Some? && p.value.value != "" ==> r.1 == p.value.value
    ensures p.key.None? || p.key.value == "" ==> r.0 == UnknownKey
    ensures p.value.None? || p.value.value == "" ==> r.1 == NoValue
  {
    (TextOr(p.key, UnknownKey), TextOr(p.value, NoValue))
  }

  function PairLines(ps: seq<Pair>): (r: seq<(string, string)>)
    ensures |r| == |ps|
    ensures forall i :: 0 <= i < |ps| ==> r[i] == PairLine(ps[i])
  {
    if |ps| == 0 then [] else [PairLine(ps[0])] + PairLines(ps[1..])
  }

  /** The key-value section: absent when there are no pairs (missing or
      empty), otherwise the lines of the first five and the count of the
      rest. */
  function PairSection(pairs: Option<seq<Pair>>): (r: Option<Preview<(string, string)>>)
    ensures r.None? <==> pairs.None? || |pairs.value| == 0
    ensures r.Some? ==> |r.value.shown| == if |pairs.value| > PairLimit then PairLimit else |pairs.value|
    ensures r.Some? ==> forall i :: 0 <= i < |r.value.shown| ==> r.value.shown[i] == PairLine(pairs.value[i])
    ensures r.Some? ==> (r.value.more.Some? <==> |pairs.value| > PairLimit)
    ensures r.Some? && r.value.more.Some? ==> r.value.more.value == |pairs.value| - PairLimit
  {
    match pairs
    case None => None
    case Some(ps) =>
      if |ps| == 0 then None
      else
        var p := Bounded(ps, PairLimit);
        Some(Preview(PairLines(p.shown), p.more))
  }

  /** A table as the preview reads it. */
  datatype TableData = TableData(rowCount: Option<nat>, columnCount: Option<nat>, cells: Option<seq<Option<string>>>)

  function CellTexts(cs: seq<Option<string>>): (r: seq<string>)
    ensures |r| == |cs|
    ensures forall i :: 0 <= i < |cs| ==> r[i] == TextOr(cs[i], EmptyCell)
  {
    if |cs| == 0 then [] else [TextOr(cs[0], EmptyCell)] + CellTexts(cs[1..])
  }

  /** A table's cell section: `None` for "No table data available" when it has
      no cells, otherwise the texts of the first twelve cells (`Empty` for a
      cell without text). The note on the rest is shown when there are more
      than twelve. */
  function CellSection(t: TableData): (r: Option<Preview<string>>)
    ensures r.None? <==> t.cells.None? || |t.cells.value| == 0
    ensures r.Some? ==> |r.value.shown| == if |t.cells.value| > CellLimit then CellLimit else |t.cells.value|
    ensures r.Some? ==> forall i :: 0 <= i < |r.value.shown| ==> r.value.shown[i] == TextOr(t.cells.value[i], EmptyCell)
    ensures r.Some? ==> (r.value.more.Some? <==> |t.cells.value| > CellLimit)
    ensures r.Some? && r.value.more.Some? ==> r.value.more.value == |t.cells.value| - CellLimit
  {
    match t.cells
    case None => None
    case Some(cs) =>
      if |cs| == 0 then None
      else
        var p := Bounded(cs, CellLimit);
        Some(Preview(CellTexts(p.shown), p.more))
  }

  /** `length || 0` for an optional list. */
  function CountOf<T>(items: Option<seq<T>>): (r: nat)
    ensures items.Some? ==> r == |items.value|
    ensures items.None? ==> r == 0
  {
    match items
    case None => 0
    case Some(s) => |s|
  }
}

=== FILE: prompt_hook.dfy ===
/** The prompt-template hook (src/lib/usePromptTemplate.ts): which template a
    chat starts with, and how the system prompt is generated from it and the
    document's data. The React state wrapper is not modelled. */
module PromptHook {
  import opened Wrappers
  import opened JsString
  import opened PromptTemplates
  import opened PromptStorage

  /** `getPresetTemplates()[0]`, the fallback template. */
  function FirstPreset(): (r: Template)
    ensures r in Presets && r.id == DefaultTemplateId
  {
    assert Presets[0].id == DefaultTemplateId;
    Presets[0]
  }

  /** The hook's initial template: the first of the presets followed by the
      custom templates whose id is the active id, else the first preset. */
  function InitialTemplate(st: Store): (r: Template)
    ensures r in Presets || r in LoadCustomTemplates(st)
  {
    match Find(Presets + LoadCustomTemplates(st), GetActiveTemplateId(st))
    case Some(t) => t
    case None => FirstPreset()
  }

  /** Presets are searched before custom templates: a preset with the active
      id wins; otherwise the first custom template with it; otherwise the
      first preset. */
  lemma InitialTemplateChoice(st: Store)
    ensures var id, customs := GetActiveTemplateId(st), LoadCustomTemplates(st);
      && (GetTemplateById(id).Some? ==> InitialTemplate(st) == GetTemplateById(id).value)
      && (GetTemplateById(id).None? ==> InitialTemplate(st) == Find(customs, id).GetOr(FirstPreset()))
  {
    var id, customs := GetActiveTemplateId(st), LoadCustomTemplates(st);
    var all := Presets + customs;
    PresetIdsDistinct();
    match GetTemplateById(id)
    case Some(p) =>
      FindFirstPart(Presets, customs, id);
    case None =>
      FindSecondPart(Presets, customs, id);
  }

  /** Searching a concatenation finds a match in the first part first. */
  lemma FindFirstPart(a: seq<Template>, b: seq<Template>, id: string)
    requires Find(a, id).Some?
    ensures Find(a + b, id) == Find(a, id)
  {
    var i := FindIndex(a, id).value;
    assert (a + b)[i] == a[i];
    var k := FindIndex(a + b, id).value;
    assert forall j :: 0 <= j < i ==> (a + b)[j] == a[j];
    assert k == i;
  }

  /** With no match in the first part, the search finds the second part's
      first match. */
  lemma FindSecondPart(a: seq<Template>, b: seq<Template>, id: string)
    requires Find(a, id).None?
    ensures Find(a + b, id) == Find(b, id)
  {
    assert forall j :: 0 <= j < |a| ==> (a + b)[j] == a[j];
    match FindIndex(b, id)
    case Some(i) =>
      assert (a + b)[|a| + i] == b[i];
      var k := FindIndex(a + b, id).value;
      assert forall j :: 0 <= j < i ==> (a + b)[|a| + j] == b[j];
      assert k == |a| + i;
    case None =>
      assert forall j :: 0 <= j < |b| ==> (a + b)[|a| + j] == b[j];
  }

  /** A fresh store starts with the default preset. */
  lemma InitialTemplateOfFreshStore()
    ensures InitialTemplate(EmptyStore) == FirstPreset()
  {
    InitialTemplateChoice(EmptyStore);
    DefaultTemplateExists();
  }

  /** The document data the hook is given; every field may be missing. */
  datatype DocumentData = DocumentData(
    fileName: Option<string>,
    pageCount: Option<nat>,
    textContent: Option<string>,
    tableCount: Option<nat>,
    keyValueCount: Option<nat>)

  /** `n || 0` for an optional count. */
  function CountOr(n: Option<nat>): (r: nat)
    ensures n.Some? ==> r == n.value
    ensures n.None? ==> r == 0
  {
    n.GetOr(0)
  }

  /** The variables `generateSystemPrompt` binds, in the order it lists them. */
  function Bindings(d: DocumentData): (r: seq<(string, VarValue)>)
    ensures |r| == |VariableKeys|
    ensures forall i :: 0 <= i < |r| ==> r[i].0 == VariableKeys[i]
  {
    [("fileName", Text(TextOr(d.fileName, "Unknown"))),
     ("pageCount", Number(CountOr(d.pageCount))),
     ("textContent", Text(TextOr(d.textContent, ""))),
     ("tableCount", Number(CountOr(d.tableCount))),
     ("keyValueCount", Number(CountOr(d.keyValueCount)))]
  }

  /** `generateSystemPrompt`: the template's prompt with the document's data,
      or its defaults, substituted. Values are inserted as they are; when the
      file name and text hold no `$`, this is what the code as written gives. */
  function GenerateSystemPrompt(t: Template, d: DocumentData): (r: string)
    ensures '{' !in t.systemPrompt ==> r == t.systemPrompt
    ensures DollarFreeDocument(d) ==> r == SubstituteAsWritten(t.systemPrompt, Bindings(d))
  {
    SystemPromptFacts(t, d);
    Substitute(t.systemPrompt, Bindings(d))
  }

  /** Neither the file name nor the text holds a `$`. */
  predicate DollarFreeDocument(d: DocumentData) {
    (d.fileName.Some? ==> '$' !in d.fileName.value)
    && (d.textContent.Some? ==> '$' !in d.textContent.value)
  }

  /** No value bound for a `$`-free document holds a `$`: the defaults do
      not, and counts print as digits. */
  lemma BindingsDollarFree(d: DocumentData)
    requires DollarFreeDocument(d)
    ensures DollarFree(Bindings(d))
  {
    var b := Bindings(d);
    assert "Unknown"[0] != '$';
    assert '$' !in "Unknown";
    forall i | 0 <= i < |b|
      ensures '$' !in ValueString(b[i].1)
    {
      if b[i].1.Number? {
        var s := NatToString(b[i].1.n);
        assert forall k :: 0 <= k < |s| ==> IsDigit(s[k]);
      }
    }
  }

  lemma SystemPromptFacts(t: Template, d: DocumentData)
    ensures '{' !in t.systemPrompt ==> Substitute(t.systemPrompt, Bindings(d)) == t.systemPrompt
    ensures DollarFreeDocument(d)
      ==> Substitute(t.systemPrompt, Bindings(d)) == SubstituteAsWritten(t.systemPrompt, Bindings(d))
  {
    if '{' !in t.systemPrompt {
      SubstituteWithoutBraces(t.systemPrompt, Bindings(d));
    }
    if DollarFreeDocument(d) {
      BindingsDollarFree(d);
      SubstituteAsWrittenAgrees(t.systemPrompt, Bindings(d));
    }
  }

  /** The values filled in, as text, in the order of `VariableKeys`. */
  function FilledValues(d: DocumentData): seq<string> {
    [TextOr(d.fileName, "Unknown"), NatToString(CountOr(d.pageCount)), TextOr(d.textContent, ""),
     NatToString(CountOr(d.tableCount)), NatToString(CountOr(d.keyValueCount))]
  }

  /** Each key is bound once, to its default when the field is missing. */
  lemma BindingsLookup(d: DocumentData)
    ensures forall i :: 0 <= i < |VariableKeys| ==>
      Lookup(Bindings(d), VariableKeys[i]).Some?
      && ValueString(Lookup(Bindings(d), VariableKeys[i]).value) == FilledValues(d)[i]
  {
    var b := Bindings(d);
    assert "fileName" != "pageCount" && "fileName" != "textContent";
    assert "fileName" != "tableCount" && "fileName" != "keyValueCount";
    assert "pageCount" != "textContent" && "pageCount" != "tableCount" && "pageCount" != "keyValueCount";
    assert "textContent" != "tableCount" && "textContent" != "keyValueCount";
    assert "tableCount" != "keyValueCount";
    assert b[1..][1..][1..][1..] == [b[4]];
  }

  /** A document with nothing filled in shows "Unknown", zero counts and no
      text. */
  lemma DefaultsOfEmptyDocument()
    ensures FilledValues(DocumentData(None, None, None, None, None)) == ["Unknown", "0", "", "0", "0"]
  {
    NatToStringZero();
  }

  lemma NatToStringZero()
    ensures NatToString(0) == "0"
  {
  }

  /** The values filled into a preset hold no `{`, when the file name and
      text do not. */
  lemma FilledValuesPlain(d: DocumentData)
    requires d.fileName.Some? ==> '{' !in d.fileName.value
    requires d.textContent.Some? ==> '{' !in d.textContent.value
    ensures PlainBindings(Bindings(d))
  {
    var b := Bindings(d);
    KeysBraceFree();
    assert "Unknown"[0] != '{';
    assert '{' !in "Unknown";
    forall i | 0 <= i < |b|
      ensures BraceFree(b[i].0) && '{' !in ValueString(b[i].1)
    {
      if b[i].1.Number? {
        var s := NatToString(b[i].1.n);
        assert forall k :: 0 <= k < |s| ==> IsDigit(s[k]);
      }
    }
  }

  /** For a preset, and a file name and text without `{`, the system prompt is
      the base prompt's fixed text interleaved with the document's values
      (or their defaults), then the preset's style instructions; so is what
      the code as written gives when they also hold no `$`. */
  lemma GeneratePresetPrompt(i: nat, d: DocumentData)
    requires i < |Presets|
    requires d.fileName.Some? ==> '{' !in d.fileName.value
    requires d.textContent.Some? ==> '{' !in d.textContent.value
    ensures GenerateSystemPrompt(Presets[i], d)
      == Interleave(BaseTexts, FilledValues(d)) + StyleGuide(PresetSpecs[i].heading)
    ensures DollarFreeDocument(d) ==>
      (SubstituteAsWritten(Presets[i].systemPrompt, Bindings(d))
       == Interleave(BaseTexts, FilledValues(d)) + StyleGuide(PresetSpecs[i].heading))
  {
    PresetPrompts();
    FilledValuesPlain(d);
    var guide := StyleGuide(PresetSpecs[i].heading);
    FillBasePrompt(guide, Bindings(d));
    BindingsLookup(d);
    FillLayout(BaseTexts, VariableKeys, Bindings(d), FilledValues(d));
  }
}

=== FILE: prompt_settings.dfy ===
/** The template editor's logic (src/components/PromptSettings.tsx): selecting
    a template, starting a new draft, editing an existing one, validating and
    saving a draft, and inserting a `{variable}` placeholder at the cursor.
    Dialogs, toasts and the file download and upload are not modelled; the
    clock reading used for a generated id is a parameter. */
module PromptSettings {
  import opened Wrappers
  import opened JsString
  import opened PromptTemplates
  import opened PromptStorage
  import PromptHook

  // ---------------------------------------------------------------------------
  // Selecting a template

  /** `handleSelectTemplate`: the template's id becomes the stored active id
      and the template is the one shown as selected. */
  function SelectTemplate(st: Store, t: Template): (r: (Store, Template))
    ensures r.1 == t
    ensures r.0.templates == st.templates
    ensures t.id != "" ==> GetActiveTemplateId(r.0) == t.id
  {
    (SetActiveTemplateId(st, t.id), t)
  }

  /** Selecting a preset is remembered: the prompt hook, started afresh on the
      resulting store, begins with that preset. */
  lemma {:induction false} SelectedPresetIsRestored(st: Store, i: nat)
    requires i < |Presets|
    ensures PromptHook.InitialTemplate(SelectTemplate(st, Presets[i]).0) == Presets[i]
  {
    var t := Presets[i];
    var st' := SelectTemplate(st, t).0;
    PresetIdNonEmpty(i);
    PromptHook.InitialTemplateChoice(st');
    assert t in Presets;
    var found := GetTemplateById(t.id);
    assert found.Some?;
  }

  /** The effect on `currentTemplateId`: the first of the presets followed by
      the custom templates with that id becomes the selected one; when none
      has it the selection stays as it was. */
  function SyncSelected(selected: Option<Template>, customs: seq<Template>, currentId: string): (r: Option<Template>)
    ensures Find(Presets + customs, currentId).Some? ==> r == Find(Presets + customs, currentId)
    ensures Find(Presets + customs, currentId).None? ==> r == selected
    ensures r.Some? && r != selected ==> r.value.id == currentId
  {
    match Find(Presets + customs, currentId)
    case Some(t) => Some(t)
    case None => selected
  }

  // ---------------------------------------------------------------------------
  // Drafts

  /** The template being edited: every field may be missing. A number that is
      missing, or that did not parse, is `None`. */
  datatype Draft = Draft(
    id: Option<string>,
    name: Option<string>,
    description: Option<string>,
    systemPrompt: Option<string>,
    outputStyle: Option<string>,
    maxTokens: Option<int>,
    temperature: Option<real>)

  const CustomPrefix: string := "custom_"
  const DefaultStyle: string := "structured"
  const DefaultMaxTokens: int := 1500
  const DefaultTemperature: real := 0.7
  const ValidationError: string := "Please provide a name and system prompt"

  /** The id generated from clock reading `clock` (milliseconds). */
  function GeneratedId(clock: nat): (r: string)
    ensures |r| > |CustomPrefix| && r[..|CustomPrefix|] == CustomPrefix
  {
    var digits := NatToString(clock);
    assert (CustomPrefix + digits)[..|CustomPrefix|] == CustomPrefix;
    CustomPrefix + digits
  }

  /** Different clock readings give different ids. */
  lemma {:induction false} GeneratedIdsDistinct(a: nat, b: nat)
    requires a != b
    ensures GeneratedId(a) != GeneratedId(b)
  {
    var x, y := GeneratedId(a), GeneratedId(b);
    if x == y {
      assert x[|CustomPrefix|..] == NatToString(a);
      assert y[|CustomPrefix|..] == NatToString(b);
      NatToStringInjective(a, b);
    }
  }

  /** `handleCreateNew`: a draft with a generated id, empty texts and the
      default style, token limit and temperature. */
  function NewDraft(clock: nat): (r: Draft)
    ensures r.id == Some(GeneratedId(clock))
    ensures r.name == Some("") && r.description == Some("") && r.systemPrompt == Some("")
    ensures r.outputStyle == Some(DefaultStyle)
    ensures r.maxTokens == Some(DefaultMaxTokens) && r.temperature == Some(DefaultTemperature)
  {
    Draft(Some(GeneratedId(clock)), Some(""), Some(""), Some(""), Some(DefaultStyle),
          Some(DefaultMaxTokens), Some(DefaultTemperature))
  }

  /** `handleEditTemplate`: the template itself becomes the draft. */
  function EditDraft(t: Template): (r: Draft)
    ensures r.id == Some(t.id) && r.name == Some(t.name) && r.systemPrompt == Some(t.systemPrompt)
    ensures r.maxTokens == Some(t.maxTokens) && r.temperature == Some(t.temperature)
    ensures r.description == Some(t.description) && r.outputStyle == Some(t.outputStyle)
  {
    Draft(Some(t.id), Some(t.name), Some(t.description), Some(t.systemPrompt), Some(t.outputStyle),
          Some(t.maxTokens), Some(t.temperature))
  }

  // ---------------------------------------------------------------------------
  // Saving a draft

  /** `n || fallback` for an optional number: missing and 0 are falsy. */
  function IntOr(n: Option<int>, fallback: int): (r: int)
    ensures n.Some? && n.value != 0 ==> r == n.value
    ensures !(n.Some? && n.value != 0) ==> r == fallback
  {
    if n.Some? && n.value != 0 then n.value else fallback
  }

  /** The temperature as saved: `temperature || 0.7`, so 0 is replaced too. */
  function TemperatureAsWritten(t: Option<real>): (r: real)
    ensures t.Some? && t.value != 0.0 ==> r == t.value
    ensures !(t.Some? && t.value != 0.0) ==> r == DefaultTemperature
  {
    if t.Some? && t.value != 0.0 then t.value else DefaultTemperature
  }

  /** The temperature as evidently intended: only a missing one gets the
      default, so a temperature of 0 is kept. The editor's number input has
      minimum 0, so 0 can be typed in, though the input itself shows
      `temperature || 0.7` and so displays 0 as 0.7. */
  function Temperature(t: Option<real>): (r: real)
    ensures t.Some? ==> r == t.value
    ensures t.None? ==> r == DefaultTemperature
  {
    t.GetOr(DefaultTemperature)
  }

  /** Saving as written turns a chosen temperature of 0 into 0.7. */
  lemma ZeroTemperatureReplaced()
    ensures TemperatureAsWritten(Some(0.0)) == 0.7
    ensures Temperature(Some(0.0)) == 0.0
  {
  }

  /** Both readings agree on every temperature but 0. */
  lemma {:induction false} TemperaturesAgree(t: Option<real>)
    ensures TemperatureAsWritten(t) == Temperature(t) <==> !(t == Some(0.0))
  {
  }

  /** A draft passes validation when it has a non-empty name and prompt. */
  predicate Valid(d: Draft) {
    TextOr(d.name, "") != "" && TextOr(d.systemPrompt, "") != ""
  }

  /** The template a valid draft is saved as, given the temperature the save
      settles on. Timestamps are not carried over from the draft, so they are
      empty and the store stamps the template afresh. */
  function Assemble(d: Draft, clock: nat, temperature: real): (r: Template)
    requires Valid(d)
  {
    Template(
      TextOr(d.id, GeneratedId(clock)),
      d.name.value,
      TextOr(d.description, ""),
      true,
      d.systemPrompt.value,
      TextOr(d.outputStyle, DefaultStyle),
      IntOr(d.maxTokens, DefaultMaxTokens),
      temperature,
      "",
      "")
  }

  /** The template `handleSaveCustomTemplate` builds, as written. */
  function BuildTemplateAsWritten(d: Draft, clock: nat): (r: Result<Template, string>)
    ensures r.Ok? <==> Valid(d)
    ensures r.Err? ==> r.error == ValidationError
    ensures r.Ok? ==> r.value.temperature == TemperatureAsWritten(d.temperature)
  {
    if !Valid(d) then Err(ValidationError)
    else Ok(Assemble(d, clock, TemperatureAsWritten(d.temperature)))
  }

  /** The template `handleSaveCustomTemplate` builds, with a temperature of 0
      kept: rejected without a name or prompt, otherwise a custom template
      whose missing or falsy fields take their defaults. */
  function BuildTemplate(d: Draft, clock: nat): (r: Result<Template, string>)
    ensures r.Ok? <==> Valid(d)
    ensures r.Err? ==> r.error == ValidationError
    ensures r.Ok? ==>
              && r.value.isCustom
              && r.value.name == d.name.value && r.value.name != ""
              && r.value.systemPrompt == d.systemPrompt.value && r.value.systemPrompt != ""
              && r.value.id == TextOr(d.id, GeneratedId(clock))
              && r.value.description == TextOr(d.description, "")
              && r.value.outputStyle == TextOr(d.outputStyle, DefaultStyle)
              && r.value.maxTokens == IntOr(d.maxTokens, DefaultMaxTokens)
              && r.value.temperature == Temperature(d.temperature)
              && r.value.createdAt == "" && r.value.updatedAt == ""
  {
    if !Valid(d) then Err(ValidationError)
    else Ok(Assemble(d, clock, Temperature(d.temperature)))
  }

  /** The two builds differ in the temperature alone. */
  lemma {:induction false} BuildsDifferInTemperature(d: Draft, clock: nat)
    ensures BuildTemplateAsWritten(d, clock).Ok? == BuildTemplate(d, clock).Ok?
    ensures BuildTemplate(d, clock).Ok? ==>
      BuildTemplateAsWritten(d, clock).value
        == BuildTemplate(d, clock).value.(temperature := TemperatureAsWritten(d.temperature))
  {
  }

  /** `handleSaveCustomTemplate`: a valid draft is stored as its template at
      time `now`; an invalid one changes nothing and is reported. */
  function SaveDraft(st: Store, d: Draft, clock: nat, now: string): (r: Result<(Store, Template), string>)
    ensures r.Err? <==> !Valid(d)
    ensures r.Err? ==> r.error == ValidationError
    ensures r.Ok? ==> r.value.1 == BuildTemplate(d, clock).value
    ensures r.Ok? ==> r.value.0.prefs == st.prefs
  {
    var t :- BuildTemplate(d, clock);
    Ok((SaveCustomTemplate(st, t, now), t))
  }

  /** A new draft, once given a name and a prompt, is saved under its
      generated id with every other field at its default. */
  lemma {:induction false} SaveNewDraft(clock: nat, later: nat, name: string, prompt: string)
    requires name != "" && prompt != ""
    ensures var d := NewDraft(clock).(name := Some(name), systemPrompt := Some(prompt));
      BuildTemplate(d, later)
        == Ok(Template(GeneratedId(clock), name, "", true, prompt, DefaultStyle, DefaultMaxTokens,
                       DefaultTemperature, "", ""))
  {
    var g := GeneratedId(clock);
    assert g != "";
  }

  /** Editing a template and saving it unchanged gives the template back,
      marked custom and with its timestamps cleared for the store to set,
      provided none of its fields is falsy. */
  lemma {:induction false} EditThenSave(t: Template, clock: nat)
    requires t.id != "" && t.name != "" && t.systemPrompt != "" && t.description != ""
    requires t.outputStyle != "" && t.maxTokens != 0
    ensures BuildTemplate(EditDraft(t), clock) == Ok(t.(isCustom := true, createdAt := "", updatedAt := ""))
  {
  }

  /** Saving an existing custom template again drops its creation time: the
      store stamps it with the time of the save. */
  lemma {:induction false} ResaveRestamps(st: Store, t: Template, clock: nat, now: string)
    requires t.id != "" && t.name != "" && t.systemPrompt != "" && t.description != ""
    requires t.outputStyle != "" && t.maxTokens != 0
    ensures var r := SaveDraft(st, EditDraft(t), clock, now);
      r.Ok? && Stamp(r.value.1, now).createdAt == now
  {
    EditThenSave(t, clock);
  }

  // ---------------------------------------------------------------------------
  // Inserting a variable

  /** `insertVariable`: `{variable}` replaces the selection `[start, end)` of
      the draft's prompt, and the cursor is put after it. */
  function InsertVariable(text: Option<string>, start: nat, end: nat, variable: string): (r: (string, nat))
    ensures r.1 == start + |variable| + 2
  {
    var t := TextOr(text, "");
    (Substring(t, 0, start) + Placeholder(variable) + Substring(t, end, |t|), start + |variable| + 2)
  }

  /** For a selection inside the prompt, the text before the selection is
      kept, the placeholder follows it and ends exactly at the new cursor,
      and the text after the selection follows; taking the placeholder out
      again leaves the prompt with the selection removed. */
  lemma {:induction false} InsertVariablePlacesPlaceholder(text: string, start: nat, end: nat, variable: string)
    requires start <= end <= |text|
    ensures var (s, cursor) := InsertVariable(Some(text), start, end, variable);
      && cursor <= |s|
      && s[..start] == text[..start]
      && s[start..cursor] == Placeholder(variable)
      && s[cursor..] == text[end..]
      && s[..start] + s[cursor..] == text[..start] + text[end..]
      && |s| == |text| - (end - start) + |variable| + 2
  {
    var (s, cursor) := InsertVariable(Some(text), start, end, variable);
    assert TextOr(Some(text), "") == text;
    assert Substring(text, 0, start) == text[..start];
    assert Substring(text, end, |text|) == text[end..];
    var p := Placeholder(variable);
    assert |p| == |variable| + 2;
    assert s == text[..start] + p + text[end..];
  }
}

=== FILE: prompt_storage.dfy ===
/** The browser-side store of custom prompt templates and of the active
    template id (src/lib/PromptStorage.ts). The two storage slots are modelled
    as values: a slot is absent, holds text that does not parse, or holds the
    parsed value. Every operation maps a store to a new store. */
module PromptStorage {
  import opened Wrappers
  import opened JsString
  import opened PromptTemplates

  /** One storage slot: nothing (or empty text), text that does not parse, or
      a parsed value. */
  datatype Slot<T> = Absent | Unparseable | Stored(value: T)

  /** `UserPreferences`. A missing `activeTemplateId` is "". */
  datatype Prefs = Prefs(activeTemplateId: string)

  /** The two storage slots the source uses. */
  datatype Store = Store(templates: Slot<seq<Template>>, prefs: Slot<Prefs>)

  const EmptyStore: Store := Store(Absent, Absent)

  // ---------------------------------------------------------------------------
  // Sequence helpers

  /** The elements of `s` that satisfy `f`, in order. */
  function Filter<T(!new)>(s: seq<T>, f: T -> bool): (r: seq<T>)
    ensures |r| <= |s|
    ensures forall x :: x in r <==> x in s && f(x)
    decreases |s|
  {
    if |s| == 0 then []
    else if f(s[0]) then [s[0]] + Filter(s[1..], f)
    else Filter(s[1..], f)
  }

  /** Filtering distributes over concatenation: together with the one-element
      case this fixes the order of the result. */
  lemma {:induction false} FilterAppend<T(!new)>(a: seq<T>, b: seq<T>, f: T -> bool)
    ensures Filter(a + b, f) == Filter(a, f) + Filter(b, f)
    decreases |a|
  {
    if |a| == 0 {
      assert a + b == b;
    } else {
      assert (a + b)[1..] == a[1..] + b;
      FilterAppend(a[1..], b, f);
    }
  }

  lemma FilterOne<T(!new)>(x: T, f: T -> bool)
    ensures Filter([x], f) == if f(x) then [x] else []
  {
    assert [x][1..] == [];
  }

  /** A filter that keeps everything is the identity. */
  lemma {:induction false} FilterAll<T(!new)>(s: seq<T>, f: T -> bool)
    requires forall i :: 0 <= i < |s| ==> f(s[i])
    ensures Filter(s, f) == s
    decreases |s|
  {
    if |s| > 0 {
      FilterAll(s[1..], f);
      assert [s[0]] + s[1..] == s;
    }
  }

  predicate IsCustom(t: Template) {
    t.isCustom
  }

  /** The templates of `ts` that are marked custom. */
  function Customs(ts: seq<Template>): seq<Template> {
    Filter(ts, IsCustom)
  }

  /** Templates that are all custom are all kept. */
  lemma CustomsAll(ts: seq<Template>)
    requires forall t :: t in ts ==> t.isCustom
    ensures Customs(ts) == ts
  {
    FilterAll(ts, IsCustom);
  }

  /** Filtering keeps ids distinct. */
  lemma {:induction false} FilterDistinct(ts: seq<Template>, f: Template -> bool)
    requires DistinctIds(ts)
    ensures DistinctIds(Filter(ts, f))
    decreases |ts|
  {
    if |ts| > 0 {
      var rest := ts[1..];
      assert DistinctIds(rest) by {
        forall i, j | 0 <= i < j < |rest| ensures rest[i].id != rest[j].id {
          assert rest[i] == ts[i + 1] && rest[j] == ts[j + 1];
        }
      }
      FilterDistinct(rest, f);
      if f(ts[0]) {
        var kept := Filter(rest, f);
        var r := [ts[0]] + kept;
        forall i, j | 0 <= i < j < |r| ensures r[i].id != r[j].id {
          if i == 0 {
            assert r[j] == kept[j - 1] && kept[j - 1] in rest;
            var k :| 0 <= k < |rest| && rest[k] == kept[j - 1];
            assert rest[k] == ts[k + 1];
          } else {
            assert r[i] == kept[i - 1] && r[j] == kept[j - 1];
          }
        }
      }
    }
  }

  /** The templates of `ts` whose id is not `id`. */
  function Without(ts: seq<Template>, id: string): seq<Template> {
    Filter(ts, (t: Template) => t.id != id)
  }

  // ---------------------------------------------------------------------------
  // Upsert by id

  /** `t` marked custom and stamped: `updatedAt` is `now`, and `createdAt`
      keeps the template's own value unless it is empty. */
  function Stamp(t: Template, now: string): (r: Template)
    ensures r.isCustom && r.updatedAt == now
    ensures r.createdAt == if t.createdAt != "" then t.createdAt else now
    ensures r.(isCustom := t.isCustom, createdAt := t.createdAt, updatedAt := t.updatedAt) == t
  {
    t.(isCustom := true, updatedAt := now, createdAt := if t.createdAt != "" then t.createdAt else now)
  }

  /** The first template of `ts` with `u`'s id becomes `u`; with none, `u` is
      appended. */
  function Upsert(ts: seq<Template>, u: Template): (r: seq<Template>)
    ensures (forall j :: 0 <= j < |ts| ==> ts[j].id != u.id) ==> r == ts + [u]
    ensures forall i :: 0 <= i < |ts| && ts[i].id == u.id && (forall j :: 0 <= j < i ==> ts[j].id != u.id)
              ==> r == ts[i := u]
  {
    match FindIndex(ts, u.id)
    case Some(i) => ts[i := u]
    case None => ts + [u]
  }

  lemma UpsertReplaces(ts: seq<Template>, i: nat, u: Template)
    requires i < |ts| && ts[i].id == u.id
    ensures u in ts[i := u]
    ensures forall j :: 0 <= j < |ts| && ts[j].id != u.id ==> ts[i := u][j] == ts[j]
    ensures DistinctIds(ts) ==> DistinctIds(ts[i := u])
    ensures forall t :: t in ts[i := u] ==> t == u || t in ts
  {
    var r := ts[i := u];
    assert r[i] == u;
    assert forall j :: 0 <= j < |ts| ==> r[j].id == ts[j].id;
    forall t | t in r ensures t == u || t in ts {
      var j :| 0 <= j < |r| && r[j] == t;
      if j != i { assert ts[j] == t; }
    }
  }

  lemma UpsertAppends(ts: seq<Template>, u: Template)
    requires forall j :: 0 <= j < |ts| ==> ts[j].id != u.id
    ensures u in ts + [u]
    ensures forall j :: 0 <= j < |ts| ==> (ts + [u])[j] == ts[j]
    ensures DistinctIds(ts) ==> DistinctIds(ts + [u])
    ensures forall t :: t in ts + [u] ==> t == u || t in ts
  {
    assert (ts + [u])[|ts|] == u;
  }

  /** An upsert keeps ids distinct, stores `u`, and keeps every template with
      another id where it was. */
  lemma UpsertKeeps(ts: seq<Template>, u: Template)
    ensures u in Upsert(ts, u)
    ensures forall i :: 0 <= i < |ts| && ts[i].id != u.id ==> i < |Upsert(ts, u)| && Upsert(ts, u)[i] == ts[i]
    ensures DistinctIds(ts) ==> DistinctIds(Upsert(ts, u))
    ensures forall t :: t in Upsert(ts, u) ==> t == u || t in ts
  {
    match FindIndex(ts, u.id)
    case Some(i) =>
      UpsertReplaces(ts, i, u);
    case None =>
      UpsertAppends(ts, u);
  }

  /** Upserts of `us`, one after the other. */
  function UpsertAll(ts: seq<Template>, us: seq<Template>): seq<Template>
    decreases |us|
  {
    if |us| == 0 then ts else UpsertAll(Upsert(ts, us[0]), us[1..])
  }

  /** Upserting one by one keeps ids distinct, stores the last template given
      for each id, and keeps every template whose id is not upserted. */
  lemma {:induction false} UpsertAllKeeps(ts: seq<Template>, us: seq<Template>)
    ensures |ts| <= |UpsertAll(ts, us)| <= |ts| + |us|
    ensures DistinctIds(ts) ==> DistinctIds(UpsertAll(ts, us))
    ensures forall i :: 0 <= i < |ts| && (forall k :: 0 <= k < |us| ==> us[k].id != ts[i].id)
              ==> UpsertAll(ts, us)[i] == ts[i]
    ensures forall k :: 0 <= k < |us| ==> us[k].id in Ids(UpsertAll(ts, us))
    decreases |us|
  {
    if |us| > 0 {
      var u := us[0];
      var next := Upsert(ts, u);
      UpsertKeeps(ts, u);
      UpsertAllKeeps(next, us[1..]);
      var r := UpsertAll(ts, us);
      assert |next| <= |ts| + 1;
      forall i | 0 <= i < |ts| && (forall k :: 0 <= k < |us| ==> us[k].id != ts[i].id)
        ensures r[i] == ts[i]
      {
        assert u.id != ts[i].id;
        assert next[i] == ts[i];
        assert forall k :: 0 <= k < |us[1..]| ==> us[1..][k] == us[k + 1];
      }
      forall k | 0 <= k < |us|
        ensures us[k].id in Ids(r)
      {
        if k == 0 {
          UpsertKeepsId(next, us[1..], u);
        } else {
          assert us[1..][k - 1] == us[k];
        }
      }
    }
  }

  /** An id already present stays present under further upserts. */
  lemma {:induction false} UpsertKeepsId(ts: seq<Template>, us: seq<Template>, t: Template)
    requires t in ts
    ensures t.id in Ids(UpsertAll(ts, us))
    decreases |us|
  {
    if |us| == 0 {
      var i :| 0 <= i < |ts| && ts[i] == t;
      assert Ids(ts)[i] == t.id;
    } else {
      var next := Upsert(ts, us[0]);
      UpsertKeeps(ts, us[0]);
      var i :| 0 <= i < |ts| && ts[i] == t;
      if t.id == us[0].id {
        UpsertKeepsId(next, us[1..], us[0]);
      } else {
        assert next[i] == t;
        UpsertKeepsId(next, us[1..], t);
      }
    }
  }

  lemma DistinctTail(us: seq<Template>)
    requires |us| > 0 && DistinctIds(us)
    ensures DistinctIds(us[1..])
    ensures forall k :: 0 <= k < |us[1..]| ==> us[1..][k].id != us[0].id
  {
    assert forall i :: 0 <= i < |us[1..]| ==> us[1..][i] == us[i + 1];
  }

  lemma AppendHead(ts: seq<Template>, us: seq<Template>)
    requires |us| > 0
    ensures (ts + [us[0]]) + us[1..] == ts + us
  {
    assert [us[0]] + us[1..] == us;
  }

  /** Upserting templates with fresh, distinct ids appends them in order. */
  lemma {:induction false} UpsertAllFresh(ts: seq<Template>, us: seq<Template>)
    requires DistinctIds(us)
    requires forall i, k :: 0 <= i < |ts| && 0 <= k < |us| ==> ts[i].id != us[k].id
    ensures UpsertAll(ts, us) == ts + us
    decreases |us|
  {
    if |us| == 0 {
      assert ts + us == ts;
    } else {
      var next := ts + [us[0]];
      assert Upsert(ts, us[0]) == next;
      var rest := us[1..];
      DistinctTail(us);
      forall i, k | 0 <= i < |next| && 0 <= k < |rest|
        ensures next[i].id != rest[k].id
      {
        if i < |ts| { assert rest[k] == us[k + 1]; }
      }
      UpsertAllFresh(next, rest);
      AppendHead(ts, us);
    }
  }

  // ---------------------------------------------------------------------------
  // The store operations

  /** `loadCustomTemplates`: the stored templates marked custom; nothing when
      the slot is empty or unreadable. */
  function LoadCustomTemplates(st: Store): (r: seq<Template>)
    ensures forall t :: t in r ==> t.isCustom
    ensures st.templates.Stored? ==> forall t :: t in st.templates.value && t.isCustom ==> t in r
    ensures !st.templates.Stored? ==> r == []
  {
    match st.templates
    case Stored(ts) => Customs(ts)
    case _ => []
  }

  /** `saveCustomTemplate(t)` at time `now`: `t`, marked custom and stamped, is
      upserted into the custom templates. */
  function SaveCustomTemplate(st: Store, t: Template, now: string): (r: Store)
    ensures r.prefs == st.prefs
    ensures r.templates.Stored?
    ensures Stamp(t, now) in r.templates.value
    ensures forall x :: x in r.templates.value ==> x == Stamp(t, now) || x in LoadCustomTemplates(st)
  {
    UpsertKeeps(LoadCustomTemplates(st), Stamp(t, now));
    st.(templates := Stored(Upsert(LoadCustomTemplates(st), Stamp(t, now))))
  }

  /** `loadUserPreferences`: the stored preferences, or the default template
      when there are none or they do not parse. */
  function LoadUserPreferences(st: Store): (r: Prefs)
    ensures st.prefs.Stored? ==> r == st.prefs.value
    ensures !st.prefs.Stored? ==> r.activeTemplateId == DefaultTemplateId
  {
    match st.prefs
    case Stored(p) => p
    case _ => Prefs(DefaultTemplateId)
  }

  /** `getActiveTemplateId`: the stored active id, or the default one when
      it is empty or missing. */
  function GetActiveTemplateId(st: Store): (r: string)
    ensures r != ""
    ensures st.prefs.Stored? && st.prefs.value.activeTemplateId != "" ==> r == st.prefs.value.activeTemplateId
    ensures !(st.prefs.Stored? && st.prefs.value.activeTemplateId != "") ==> r == DefaultTemplateId
  {
    var id := LoadUserPreferences(st).activeTemplateId;
    if id != "" then id else DefaultTemplateId
  }

  /** `setActiveTemplateId(id)`. */
  function SetActiveTemplateId(st: Store, id: string): (r: Store)
    ensures r.templates == st.templates
    ensures r.prefs == Stored(Prefs(id))
  {
    st.(prefs := Stored(LoadUserPreferences(st).(activeTemplateId := id)))
  }

  /** `deleteCustomTemplate(id)`: drops every custom template with that id and
      falls back to the default template when the deleted id was active. */
  function DeleteCustomTemplate(st: Store, id: string): (r: Store)
    ensures r.templates.Stored?
    ensures LoadUserPreferences(st).activeTemplateId != id ==> r.prefs == st.prefs
    ensures LoadUserPreferences(st).activeTemplateId == id ==> r.prefs == Stored(Prefs(DefaultTemplateId))
  {
    var kept := st.(templates := Stored(Without(LoadCustomTemplates(st), id)));
    if LoadUserPreferences(st).activeTemplateId == id then SetActiveTemplateId(kept, DefaultTemplateId)
    else kept
  }

  /** `clearAllCustomTemplates`. */
  function ClearAllCustomTemplates(st: Store): (r: Store)
    ensures LoadCustomTemplates(r) == []
    ensures GetActiveTemplateId(r) == DefaultTemplateId
  {
    SetActiveTemplateId(st.(templates := Absent), DefaultTemplateId)
  }

  /** `exportTemplates`, before JSON serialisation: the custom templates. */
  function ExportTemplates(st: Store): (r: seq<Template>)
    ensures r == LoadCustomTemplates(st)
    ensures forall t :: t in r ==> t.isCustom
  {
    LoadCustomTemplates(st)
  }

  /** What `JSON.parse` makes of the import text: a syntax error with its
      message, a value that is not an array, or an array of template-shaped
      objects (absent fields empty). */
  datatype Parsed = SyntaxError(message: string) | NotArray | Items(items: seq<Template>)

  const InvalidFormat: string := "Invalid format: expected an array of templates"
  const NoValidTemplates: string := "No valid templates found in import data"

  /** An imported entry is kept when `id`, `name`, `systemPrompt` and
      `outputStyle` are all truthy. */
  predicate Importable(t: Template) {
    t.id != "" && t.name != "" && t.systemPrompt != "" && t.outputStyle != ""
  }

  /** `importTemplates` at time `now`: the new store and the number of entries
      imported, or the error the source throws. */
  function ImportTemplates(st: Store, input: Parsed, now: string): (r: Result<(Store, nat), string>)
    ensures input.SyntaxError? ==> r == Err(input.message)
    ensures input.NotArray? ==> r == Err(InvalidFormat)
    ensures input.Items? && (forall t :: t in input.items ==> !Importable(t)) ==> r == Err(NoValidTemplates)
    ensures r.Ok? ==> r.value.0.prefs == st.prefs && r.value.0.templates.Stored?
    ensures r.Ok? ==> input.Items? && 0 < r.value.1 <= |input.items|
    ensures input.Items? && (exists t :: t in input.items && Importable(t))
      ==> r.Ok? && r.value.1 == |Filter(input.items, Importable)|
  {
    match input
    case SyntaxError(message) => Err(message)
    case NotArray => Err(InvalidFormat)
    case Items(items) =>
      var valid := Filter(items, Importable);
      if |valid| == 0 then Err(NoValidTemplates)
      else
        assert valid[0] in valid;
        var stamped := StampAll(valid, now);
        Ok((st.(templates := Stored(UpsertAll(LoadCustomTemplates(st), stamped))), |stamped|))
  }

  /** Every template stamped at `now`. */
  function StampAll(ts: seq<Template>, now: string): (r: seq<Template>)
    ensures |r| == |ts|
    ensures forall i :: 0 <= i < |ts| ==> r[i] == Stamp(ts[i], now)
  {
    if |ts| == 0 then [] else [Stamp(ts[0], now)] + StampAll(ts[1..], now)
  }

  /** `duplicateTemplate(t)` with clock reading `clock` (milliseconds) and
      timestamp `now`: a custom copy under a new id is saved and returned. */
  function DuplicateTemplate(st: Store, t: Template, clock: nat, now: string): (r: (Store, Template))
    ensures r.1.id == t.id + "_copy_" + NatToString(clock)
    ensures r.1.name == t.name + " (Copy)"
    ensures r.1.isCustom && r.1.createdAt == now && r.1.updatedAt == now
    ensures r.1 == t.(id := r.1.id, name := r.1.name, isCustom := true, createdAt := now, updatedAt := now)
    ensures r.0 == SaveCustomTemplate(st, r.1, now)
  {
    var copy := t.(id := t.id + "_copy_" + NatToString(clock), name := t.name + " (Copy)",
                   isCustom := true, createdAt := now, updatedAt := now);
    (SaveCustomTemplate(st, copy, now), copy)
  }

  // ---------------------------------------------------------------------------
  // Properties of the store

  /** Loading keeps exactly the custom entries, in stored order. */
  lemma LoadKeepsOrder(a: seq<Template>, b: seq<Template>)
    ensures LoadCustomTemplates(Store(Stored(a + b), Absent))
      == LoadCustomTemplates(Store(Stored(a), Absent)) + LoadCustomTemplates(Store(Stored(b), Absent))
  {
    FilterAppend(a, b, IsCustom);
  }

  /** After a save the saved template is loaded back, stamped; every other
      custom template keeps its place; ids distinct before stay distinct. */
  lemma SaveIsUpsert(st: Store, t: Template, now: string)
    ensures LoadCustomTemplates(SaveCustomTemplate(st, t, now)) == Upsert(LoadCustomTemplates(st), Stamp(t, now))
    ensures Stamp(t, now) in LoadCustomTemplates(SaveCustomTemplate(st, t, now))
    ensures var before, after := LoadCustomTemplates(st), LoadCustomTemplates(SaveCustomTemplate(st, t, now));
      forall i :: 0 <= i < |before| && before[i].id != t.id ==> i < |after| && after[i] == before[i]
    ensures DistinctIds(LoadCustomTemplates(st)) ==> DistinctIds(LoadCustomTemplates(SaveCustomTemplate(st, t, now)))
    ensures GetActiveTemplateId(SaveCustomTemplate(st, t, now)) == GetActiveTemplateId(st)
  {
    var before := LoadCustomTemplates(st);
    var u := Stamp(t, now);
    var ts := Upsert(before, u);
    UpsertKeeps(before, u);
    CustomsAll(ts);
  }

  /** A deletion keeps exactly the custom templates with other ids, in order,
      and resets the active id only when it named the deleted template. */
  lemma DeleteRemovesOnly(st: Store, id: string)
    ensures LoadCustomTemplates(DeleteCustomTemplate(st, id)) == Without(LoadCustomTemplates(st), id)
    ensures forall t :: t in LoadCustomTemplates(DeleteCustomTemplate(st, id))
              <==> t in LoadCustomTemplates(st) && t.id != id
    ensures GetActiveTemplateId(DeleteCustomTemplate(st, id))
      == if GetActiveTemplateId(st) == id then DefaultTemplateId else GetActiveTemplateId(st)
    ensures DistinctIds(LoadCustomTemplates(st)) ==> DistinctIds(LoadCustomTemplates(DeleteCustomTemplate(st, id)))
  {
    var kept := Without(LoadCustomTemplates(st), id);
    CustomsAll(kept);
    if DistinctIds(LoadCustomTemplates(st)) {
      FilterDistinct(LoadCustomTemplates(st), (t: Template) => t.id != id);
    }
  }

  /** What a successful import stores: the importable entries, stamped,
      upserted one by one onto the custom templates already there. */
  function Merge(existing: seq<Template>, items: seq<Template>, now: string): seq<Template> {
    UpsertAll(existing, StampAll(Filter(items, Importable), now))
  }

  /** A successful import stores the merge and reports the number of
      importable entries. */
  lemma ImportStoresMerge(st: Store, items: seq<Template>, now: string)
    requires ImportTemplates(st, Items(items), now).Ok?
    ensures LoadCustomTemplates(ImportTemplates(st, Items(items), now).value.0)
      == Merge(LoadCustomTemplates(st), items, now)
    ensures ImportTemplates(st, Items(items), now).value.1 == |Filter(items, Importable)|
  {
    var merged := Merge(LoadCustomTemplates(st), items, now);
    forall x | x in merged ensures x.isCustom {
      UpsertAllCustom(LoadCustomTemplates(st), StampAll(Filter(items, Importable), now), x);
    }
    CustomsAll(merged);
  }

  /** An imported id is the id of one of the upserted templates. */
  lemma ImportedIds(items: seq<Template>, now: string, id: string)
    requires exists t :: t in items && Importable(t) && t.id == id
    ensures exists k :: 0 <= k < |StampAll(Filter(items, Importable), now)|
                        && StampAll(Filter(items, Importable), now)[k].id == id
  {
    var valid := Filter(items, Importable);
    var t :| t in items && Importable(t) && t.id == id;
    var k :| 0 <= k < |valid| && valid[k] == t;
    assert StampAll(valid, now)[k].id == id;
  }

  /** Every upserted template is an importable entry, stamped. */
  lemma UpsertedAreImported(items: seq<Template>, now: string)
    ensures var valid := Filter(items, Importable);
      forall k :: 0 <= k < |valid| ==>
        valid[k] in items && Importable(valid[k]) && StampAll(valid, now)[k].id == valid[k].id
  {
    var valid := Filter(items, Importable);
    assert forall k :: 0 <= k < |valid| ==> valid[k] in valid;
  }

  /** The merge keeps every template whose id is not imported at its place,
      holds every imported id and keeps ids distinct. */
  lemma MergeKeeps(existing: seq<Template>, items: seq<Template>, now: string)
    ensures var after := Merge(existing, items, now);
      && |existing| <= |after|
      && (forall i :: 0 <= i < |existing| && (forall t :: t in items && Importable(t) ==> t.id != existing[i].id)
                ==> after[i] == existing[i])
      && (forall t :: t in items && Importable(t) ==> t.id in Ids(after))
      && (DistinctIds(existing) ==> DistinctIds(after))
  {
    var stamped := StampAll(Filter(items, Importable), now);
    UpsertAllKeeps(existing, stamped);
    UpsertedAreImported(items, now);
    forall t | t in items && Importable(t)
      ensures t.id in Ids(Merge(existing, items, now))
    {
      ImportedIds(items, now, t.id);
    }
  }

  lemma {:induction false} UpsertAllCustom(ts: seq<Template>, us: seq<Template>, x: Template)
    requires forall t :: t in ts ==> t.isCustom
    requires forall t :: t in us ==> t.isCustom
    requires x in UpsertAll(ts, us)
    ensures x.isCustom
    decreases |us|
  {
    if |us| > 0 {
      UpsertKeeps(ts, us[0]);
      assert forall t :: t in us[1..] ==> t in us;
      UpsertAllCustom(Upsert(ts, us[0]), us[1..], x);
    }
  }

  /** The count returned counts entries, not ids: two importable entries with
      one id give 2 while one template is stored. */
  lemma ImportCountsEntries(t: Template, now: string)
    requires Importable(t)
    ensures ImportTemplates(EmptyStore, Items([t, t]), now).Ok?
    ensures ImportTemplates(EmptyStore, Items([t, t]), now).value.1 == 2
    ensures |LoadCustomTemplates(ImportTemplates(EmptyStore, Items([t, t]), now).value.0)| == 1
  {
    var items := [t, t];
    FilterAll(items, Importable);
    var u := Stamp(t, now);
    assert StampAll(items, now) == [u, u];
    assert Upsert([], u) == [u];
    assert Upsert([u], u) == [u];
    assert [u, u][1..] == [u] && [u][1..] == [];
    assert UpsertAll([u], [u]) == UpsertAll([u], []) == [u];
    assert Merge([], items, now) == UpsertAll([u], [u]);
    ImportStoresMerge(EmptyStore, items, now);
  }

  /** Exporting a store whose custom templates are all importable with
      distinct ids and importing the result into an empty store gives back
      the same templates, in order, up to the stamps. */
  lemma ExportImportRoundTrip(st: Store, now: string)
    requires |ExportTemplates(st)| > 0
    requires forall t :: t in ExportTemplates(st) ==> Importable(t)
    requires DistinctIds(ExportTemplates(st))
    ensures ImportTemplates(EmptyStore, Items(ExportTemplates(st)), now).Ok?
    ensures LoadCustomTemplates(ImportTemplates(EmptyStore, Items(ExportTemplates(st)), now).value.0)
      == StampAll(LoadCustomTemplates(st), now)
    ensures ImportTemplates(EmptyStore, Items(ExportTemplates(st)), now).value.1 == |ExportTemplates(st)|
  {
    var out := ExportTemplates(st);
    FilterAll(out, Importable);
    var stamped := StampAll(out, now);
    assert DistinctIds(stamped);
    UpsertAllFresh([], stamped);
    assert [] + stamped == stamped;
    ImportStoresMerge(EmptyStore, out, now);
  }

  /** A duplicate gets an id longer than, so different from, the original's,
      and is stored. */
  lemma DuplicateIsStored(st: Store, t: Template, clock: nat, now: string)
    ensures var (st', copy) := DuplicateTemplate(st, t, clock, now);
      copy.id != t.id && Stamp(copy, now) in LoadCustomTemplates(st')
  {
    var (st', copy) := DuplicateTemplate(st, t, clock, now);
    assert |copy.id| > |t.id|;
    SaveIsUpsert(st, copy, now);
  }
}

=== FILE: prompt_templates.dfy ===
/** The prompt-template catalogue: the template record, `{key}` placeholder
    substitution, the eight preset templates built on one base prompt, lookup of
    a preset by id, the default template id and the list of variables a prompt
    may mention (src/lib/PromptTemplates.ts). */
module PromptTemplates {
  import opened Wrappers
  import opened JsString

  /** A prompt template. Optional timestamps that are absent are "", which the
      source treats the same way (both are falsy). `outputStyle` is kept as the
      style's name, because imported templates are not checked against the
      style list. */
  datatype Template = Template(
    id: string,
    name: string,
    description: string,
    isCustom: bool,
    systemPrompt: string,
    outputStyle: string,
    maxTokens: int,
    temperature: real,
    createdAt: string,
    updatedAt: string)

  // ---------------------------------------------------------------------------
  // Lookup by id

  function FindIndexFrom(ts: seq<Template>, id: string, from: nat): (r: Option<nat>)
    requires from <= |ts|
    ensures r.Some? ==> from <= r.value < |ts| && ts[r.value].id == id
    ensures r.Some? ==> forall j :: from <= j < r.value ==> ts[j].id != id
    ensures r.None? ==> forall j :: from <= j < |ts| ==> ts[j].id != id
    decreases |ts| - from
  {
    if from == |ts| then None
    else if ts[from].id == id then Some(from)
    else FindIndexFrom(ts, id, from + 1)
  }

  /** `ts.findIndex(t => t.id === id)`, with `None` for the source's `-1`:
      the first position holding that id. */
  function FindIndex(ts: seq<Template>, id: string): (r: Option<nat>)
    ensures r.Some? ==> r.value < |ts| && ts[r.value].id == id
    ensures r.Some? ==> forall j :: 0 <= j < r.value ==> ts[j].id != id
    ensures r.None? <==> forall j :: 0 <= j < |ts| ==> ts[j].id != id
  {
    FindIndexFrom(ts, id, 0)
  }

  /** `ts.find(t => t.id === id)`: the first template with that id. */
  function Find(ts: seq<Template>, id: string): (r: Option<Template>)
    ensures r.Some? ==> r.value in ts && r.value.id == id
    ensures r.Some? ==> exists i :: 0 <= i < |ts| && ts[i] == r.value && forall j :: 0 <= j < i ==> ts[j].id != id
    ensures r.None? <==> forall t :: t in ts ==> t.id != id
  {
    match FindIndex(ts, id)
    case Some(i) => Some(ts[i])
    case None => None
  }

  /** No two templates of `ts` share an id. */
  predicate DistinctIds(ts: seq<Template>) {
    forall i, j :: 0 <= i < j < |ts| ==> ts[i].id != ts[j].id
  }

  function Ids(ts: seq<Template>): (r: seq<string>)
    ensures |r| == |ts|
    ensures forall i :: 0 <= i < |ts| ==> r[i] == ts[i].id
  {
    seq(|ts|, i requires 0 <= i < |ts| => ts[i].id)
  }

  /** Among templates with distinct ids, `find` returns the only one with that id. */
  lemma FindUnique(ts: seq<Template>, id: string, t: Template)
    requires DistinctIds(ts) && t in ts && t.id == id
    ensures Find(ts, id) == Some(t)
  {
    var i :| 0 <= i < |ts| && ts[i] == t;
    var r := FindIndex(ts, id);
    assert r.Some?;
    assert r.value == i;
  }

  // ---------------------------------------------------------------------------
  // Placeholder substitution

  /** The value bound to a variable: a string or a count, as the source's
      `string | number`. */
  datatype VarValue = Text(text: string) | Number(n: nat)

  /** `String(value)`. */
  function ValueString(v: VarValue): string {
    match v
    case Text(s) => s
    case Number(n) => NatToString(n)
  }

  function Placeholder(key: string): string {
    "{" + key + "}"
  }

  predicate BraceFree(s: string) {
    '{' !in s && '}' !in s
  }

  /** No binding's value holds a `$`. */
  predicate DollarFree(vars: seq<(string, VarValue)>) {
    forall i :: 0 <= i < |vars| ==> '$' !in ValueString(vars[i].1)
  }

  /** `substituteVariables` as written: for each entry in order, every `{key}`
      becomes `String(value)` through `String.prototype.replace` with a global
      pattern, which also expands `$`-patterns found in the value. */
  function SubstituteAsWritten(template: string, vars: seq<(string, VarValue)>): string
    decreases |vars|
  {
    if |vars| == 0 then template
    else
      var next := ReplaceAllPattern(template, Placeholder(vars[0].0), ValueString(vars[0].1));
      SubstituteAsWritten(next, vars[1..])
  }

  /** Placeholder substitution with the value inserted as it is: for each entry
      in order, every `{key}` becomes `String(value)`. */
  function Substitute(template: string, vars: seq<(string, VarValue)>): string
    decreases |vars|
  {
    if |vars| == 0 then template
    else
      var next := ReplaceAll(template, Placeholder(vars[0].0), ValueString(vars[0].1));
      Substitute(next, vars[1..])
  }

  /** When no value holds a `$`, the code as written and the literal
      substitution agree. */
  lemma {:induction false} SubstituteAsWrittenAgrees(template: string, vars: seq<(string, VarValue)>)
    requires DollarFree(vars)
    ensures SubstituteAsWritten(template, vars) == Substitute(template, vars)
    decreases |vars|
  {
    if |vars| > 0 {
      ReplaceAllPatternLiteral(template, Placeholder(vars[0].0), ValueString(vars[0].1));
      var next := ReplaceAll(template, Placeholder(vars[0].0), ValueString(vars[0].1));
      assert DollarFree(vars[1..]) by {
        forall i | 0 <= i < |vars[1..]| ensures '$' !in ValueString(vars[1..][i].1) {
          assert vars[1..][i] == vars[i + 1];
        }
      }
      SubstituteAsWrittenAgrees(next, vars[1..]);
    }
  }

  /** A value holding `$&` is not inserted as written: the code as written puts
      the matched placeholder back instead of the value. */
  lemma SubstituteAsWrittenExpandsDollar()
    ensures SubstituteAsWritten("{fileName}", [("fileName", Text("$&"))]) == "{fileName}"
    ensures Substitute("{fileName}", [("fileName", Text("$&"))]) == "$&"
  {
    var s := "{fileName}";
    assert Placeholder("fileName") == s;
    assert s[..|s|] == s && s[|s|..] == [];
    assert [] + s == s;
    assert Expand("$&", s, 0, |s|) == s[0..|s|] + Expand("", s, 0, |s|);
    assert s[0..|s|] == s;
    assert ReplaceAllPatternAfter(s, [], s, "$&") == [];
    ReplaceAllHead(s, [], "$&");
    assert s + [] == s;
    assert ReplaceAll([], s, "$&") == [];
  }

  /** A template that is one placeholder and nothing else becomes the value. */
  lemma PlaceholderAlone(key: string, value: string)
    ensures ReplaceAll(Placeholder(key), Placeholder(key), value) == value
  {
    var p := Placeholder(key);
    ReplaceAllHead(p, [], value);
    assert p + [] == p;
    assert value + [] == value;
  }

  /** Entries are applied in order, so text inserted by an earlier entry is
      rewritten by a later one, and reversing the entries changes the result:
      for different brace-free keys, a value holding the second key's
      placeholder is filled in turn when its entry comes first, and left as
      a placeholder when it comes last. */
  lemma SubstituteIsSequential(k1: string, k2: string, w: string)
    requires BraceFree(k1) && BraceFree(k2) && k1 != k2
    ensures Substitute(Placeholder(k1), [(k1, Text(Placeholder(k2))), (k2, Text(w))]) == w
    ensures Substitute(Placeholder(k1), [(k2, Text(w)), (k1, Text(Placeholder(k2)))]) == Placeholder(k2)
  {
    var p1, p2 := Placeholder(k1), Placeholder(k2);
    PlaceholderAlone(k1, p2);
    PlaceholderAlone(k2, w);
    var forward := [(k1, Text(p2)), (k2, Text(w))];
    assert forward[1..] == [(k2, Text(w))] && forward[1..][1..] == [];
    assert Substitute(p1, forward) == Substitute(p2, [(k2, Text(w))]);
    assert Substitute(p2, [(k2, Text(w))]) == Substitute(w, []);
    ForeignPlaceholderNoStart(k1, k2);
    NoStartInNoOccurrence(p1, p2);
    ReplaceAllAbsent(p1, p2, w);
    var backward := [(k2, Text(w)), (k1, Text(p2))];
    assert backward[1..] == [(k1, Text(p2))] && backward[1..][1..] == [];
    assert Substitute(p1, backward) == Substitute(p1, [(k1, Text(p2))]);
    assert Substitute(p1, [(k1, Text(p2))]) == Substitute(p2, []);
  }

  /** A template with no `{` at all comes back unchanged. */
  lemma {:induction false} SubstituteWithoutBraces(template: string, vars: seq<(string, VarValue)>)
    requires '{' !in template
    ensures Substitute(template, vars) == template
    decreases |vars|
  {
    if |vars| > 0 {
      var p := Placeholder(vars[0].0);
      NoOccurrenceWithoutLead(template, p);
      ReplaceAllAbsent(template, p, ValueString(vars[0].1));
      SubstituteWithoutBraces(template, vars[1..]);
    }
  }

  /** A single differing character rules out a match. */
  lemma MismatchAt(s: string, p: string, i: nat, t: nat)
    requires t < |p| && (i + |p| <= |s| ==> s[i + t] != p[t])
    ensures !MatchAt(s, p, i)
  {
    if i + |p| <= |s| {
      assert s[i..i + |p|][t] == s[i + t];
    }
  }

  lemma PlaceholderShape(key: string)
    ensures var p := Placeholder(key);
      && |p| == |key| + 2 && p[0] == '{' && p[|p| - 1] == '}'
      && forall t :: 0 <= t < |key| ==> p[t + 1] == key[t]
  {
  }

  /** No occurrence of `{k}` starts at index `i` of `{j}`, whatever follows. */
  lemma ForeignPlaceholderNoMatch(j: string, k: string, b: string, i: nat)
    requires BraceFree(j) && BraceFree(k) && j != k && i < |j| + 2
    ensures !MatchAt(Placeholder(j) + b, Placeholder(k), i)
  {
    var pj, pk := Placeholder(j), Placeholder(k);
    var s := pj + b;
    PlaceholderShape(j);
    PlaceholderShape(k);
    if i > 0 {
      if i < |pj| - 1 {
        assert s[i] == j[i - 1];
        assert j[i - 1] in j;
      } else {
        assert s[i] == '}';
      }
      MismatchAt(s, pk, i, 0);
    } else if |j| < |k| {
      assert s[|j| + 1] == '}';
      assert k[|j|] in k;
      MismatchAt(s, pk, 0, |j| + 1);
    } else if |j| > |k| {
      assert s[|k| + 1] == j[|k|];
      assert j[|k|] in j;
      MismatchAt(s, pk, 0, |k| + 1);
    } else {
      assert !(forall t :: 0 <= t < |j| ==> j[t] == k[t]);
      var t :| 0 <= t < |j| && j[t] != k[t];
      assert s[t + 1] == j[t];
      MismatchAt(s, pk, 0, t + 1);
    }
  }

  /** No occurrence of `{k}` can start inside `{j}` for different brace-free keys. */
  lemma ForeignPlaceholderNoStart(j: string, k: string)
    requires BraceFree(j) && BraceFree(k) && j != k
    ensures NoStartIn(Placeholder(j), Placeholder(k))
  {
    forall b: string, i: nat | i < |Placeholder(j)|
      ensures !MatchAt(Placeholder(j) + b, Placeholder(k), i)
    {
      ForeignPlaceholderNoMatch(j, k, b, i);
    }
  }

  /** No occurrence of `p` in `x + z` starts in `x` and ends in `z`. */
  predicate NoStraddle(x: string, z: string, p: string) {
    forall n: nat :: n < |x| < n + |p| ==> !MatchAt(x + z, p, n)
  }

  lemma NoStraddleDrop(x: string, z: string, p: string, d: nat)
    requires NoStraddle(x, z, p) && d <= |x|
    ensures NoStraddle(x[d..], z, p)
  {
    var s := x + z;
    assert s[d..] == x[d..] + z;
    forall n: nat | n < |x[d..]| < n + |p|
      ensures !MatchAt(x[d..] + z, p, n)
    {
      MatchAtDrop(s, p, d, n);
    }
  }

  /** One step of the scan, taken on `x` alone and on `x + z`. */
  lemma ReplaceAllStep(x: string, z: string, p: string, rep: string)
    requires |p| > 0 && |x| >= |p|
    ensures x[..|p|] == p ==>
      ReplaceAll(x + z, p, rep) == rep + ReplaceAll(x[|p|..] + z, p, rep)
      && ReplaceAll(x, p, rep) == rep + ReplaceAll(x[|p|..], p, rep)
    ensures x[..|p|] != p ==>
      ReplaceAll(x + z, p, rep) == [x[0]] + ReplaceAll(x[1..] + z, p, rep)
      && ReplaceAll(x, p, rep) == [x[0]] + ReplaceAll(x[1..], p, rep)
  {
    var s := x + z;
    assert s[..|p|] == x[..|p|] && s[0] == x[0];
    assert s[|p|..] == x[|p|..] + z && s[1..] == x[1..] + z;
  }

  /** Replacing in `x + z` is replacing in `x` and in `z` when no occurrence
      straddles the boundary. */
  lemma {:induction false} ReplaceAllSplit(x: string, z: string, p: string, rep: string)
    requires |p| > 0 && NoStraddle(x, z, p)
    ensures ReplaceAll(x + z, p, rep) == ReplaceAll(x, p, rep) + ReplaceAll(z, p, rep)
    decreases |x|
  {
    var s := x + z;
    if |x| == 0 {
      assert s == z;
      assert ReplaceAll(x, p, rep) == [];
    } else if |x| < |p| {
      ReplaceAllPrefix(s, p, rep, |x|);
      assert s[..|x|] == x && s[|x|..] == z;
      assert ReplaceAll(x, p, rep) == x;
    } else {
      var d := if x[..|p|] == p then |p| else 1;
      NoStraddleDrop(x, z, p, d);
      ReplaceAllSplit(x[d..], z, p, rep);
      ReplaceAllStep(x, z, p, rep);
    }
  }

  /** An occurrence of `{j}` cannot straddle the start of a `{k}`. */
  lemma NoStraddleBeforePlaceholder(x: string, z: string, j: string)
    requires BraceFree(j) && |z| > 0 && z[0] == '{'
    ensures NoStraddle(x, z, Placeholder(j))
  {
    var pj := Placeholder(j);
    var s := x + z;
    forall n: nat | n < |x| < n + |pj|
      ensures !MatchAt(s, pj, n)
    {
      if n + |pj| <= |s| {
        var w := s[n..n + |pj|];
        var t := |x| - n;
        assert w[t] == s[|x|] == '{';
        if t < |pj| - 1 {
          assert pj[t] == j[t - 1];
          assert j[t - 1] in j;
        }
        assert w[t] != pj[t];
      }
    }
  }

  /** Replacing `{j}` keeps every occurrence of a different placeholder `{k}`. */
  lemma ReplaceAllKeepsForeign(s: string, j: string, k: string, rep: string)
    requires BraceFree(j) && BraceFree(k) && j != k
    requires Occurs(s, Placeholder(k))
    ensures Occurs(ReplaceAll(s, Placeholder(j), rep), Placeholder(k))
  {
    var pj, pk := Placeholder(j), Placeholder(k);
    var m: nat :| MatchAt(s, pk, m);
    var x, y := s[..m], s[m + |pk|..];
    assert s == x + (pk + y);
    NoStraddleBeforePlaceholder(x, pk + y, j);
    ReplaceAllSplit(x, pk + y, pj, rep);
    ForeignPlaceholderNoStart(k, j);
    ReplaceAllSkip(pk, y, pj, rep);
    var before := ReplaceAll(x, pj, rep);
    var out := ReplaceAll(s, pj, rep);
    assert out == before + pk + ReplaceAll(y, pj, rep);
    assert out[|before|..|before| + |pk|] == pk;
    assert MatchAt(out, pk, |before|);
  }

  /** A placeholder whose key has no entry survives substitution. */
  lemma {:induction false} SubstituteKeepsUnboundPlaceholder(template: string, vars: seq<(string, VarValue)>, k: string)
    requires BraceFree(k) && Occurs(template, Placeholder(k))
    requires forall i :: 0 <= i < |vars| ==> BraceFree(vars[i].0) && vars[i].0 != k
    ensures Occurs(Substitute(template, vars), Placeholder(k))
    decreases |vars|
  {
    if |vars| > 0 {
      var next := ReplaceAll(template, Placeholder(vars[0].0), ValueString(vars[0].1));
      ReplaceAllKeepsForeign(template, vars[0].0, k, ValueString(vars[0].1));
      assert forall i :: 0 <= i < |vars[1..]| ==> vars[1..][i] == vars[i + 1];
      SubstituteKeepsUnboundPlaceholder(next, vars[1..], k);
    }
  }

  // ---------------------------------------------------------------------------
  // Templates as fixed text with holes

  /** A piece of a template: fixed text, or a `{key}` hole. */
  datatype Segment = Lit(text: string) | Hole(key: string)

  function Show(g: Segment): string {
    match g
    case Lit(t) => t
    case Hole(k) => Placeholder(k)
  }

  /** The template text a segment list stands for. */
  function Render(segs: seq<Segment>): string
    decreases |segs|
  {
    if |segs| == 0 then [] else Show(segs[0]) + Render(segs[1..])
  }

  /** Fixed text without `{`, holes with brace-free keys. */
  predicate SegmentOk(g: Segment) {
    match g
    case Lit(t) => '{' !in t
    case Hole(k) => BraceFree(k)
  }

  predicate WellFormed(segs: seq<Segment>) {
    forall i :: 0 <= i < |segs| ==> SegmentOk(segs[i])
  }

  /** Every `key` hole of `segs` filled with `value`. */
  function Bind(segs: seq<Segment>, key: string, value: string): seq<Segment> {
    seq(|segs|, i requires 0 <= i < |segs| => if segs[i] == Hole(key) then Lit(value) else segs[i])
  }

  /** The holes filled entry by entry. */
  function BindAll(segs: seq<Segment>, vars: seq<(string, VarValue)>): seq<Segment>
    decreases |vars|
  {
    if |vars| == 0 then segs
    else BindAll(Bind(segs, vars[0].0, ValueString(vars[0].1)), vars[1..])
  }

  /** Every key is brace-free and no value holds a `{`. */
  predicate PlainBindings(vars: seq<(string, VarValue)>) {
    forall i :: 0 <= i < |vars| ==> BraceFree(vars[i].0) && '{' !in ValueString(vars[i].1)
  }

  lemma {:induction false} RenderAppend(x: seq<Segment>, y: seq<Segment>)
    ensures Render(x + y) == Render(x) + Render(y)
    decreases |x|
  {
    if |x| > 0 {
      assert (x + y)[1..] == x[1..] + y;
      RenderAppend(x[1..], y);
    } else {
      assert x + y == y;
    }
  }

  lemma BindWellFormed(segs: seq<Segment>, key: string, value: string)
    requires WellFormed(segs) && '{' !in value
    ensures WellFormed(Bind(segs, key, value))
  {
  }

  /** Replacing `{key}` in a well-formed template fills exactly the `key`
      holes and leaves the rest of the text as it was. */
  lemma {:induction false} ReplaceRender(segs: seq<Segment>, key: string, value: string)
    requires WellFormed(segs) && BraceFree(key) && '{' !in value
    ensures ReplaceAll(Render(segs), Placeholder(key), value) == Render(Bind(segs, key, value))
    decreases |segs|
  {
    var p := Placeholder(key);
    var out := Bind(segs, key, value);
    if |segs| == 0 {
      assert ReplaceAll([], p, value) == [];
    } else {
      var g, rest := segs[0], segs[1..];
      var tail := Render(rest);
      assert WellFormed(rest) by {
        forall i | 0 <= i < |rest| ensures SegmentOk(rest[i]) {
          assert rest[i] == segs[i + 1];
        }
      }
      ReplaceRender(rest, key, value);
      assert out[1..] == Bind(rest, key, value);
      assert Render(out) == Show(out[0]) + Render(Bind(rest, key, value));
      assert SegmentOk(segs[0]);
      match g
      case Lit(t) =>
        NoStartInWithoutLead(t, p);
        ReplaceAllSkip(t, tail, p, value);
      case Hole(k) =>
        if k == key {
          ReplaceAllHead(p, tail, value);
        } else {
          ForeignPlaceholderNoStart(k, key);
          ReplaceAllSkip(Placeholder(k), tail, p, value);
        }
    }
  }

  /** Substitution into a well-formed template with plain bindings fills the
      holes, entry by entry. */
  lemma {:induction false} SubstituteRender(segs: seq<Segment>, vars: seq<(string, VarValue)>)
    requires WellFormed(segs) && PlainBindings(vars)
    ensures Substitute(Render(segs), vars) == Render(BindAll(segs, vars))
    decreases |vars|
  {
    if |vars| > 0 {
      var key, value := vars[0].0, ValueString(vars[0].1);
      ReplaceRender(segs, key, value);
      BindWellFormed(segs, key, value);
      assert PlainBindings(vars[1..]) by {
        forall i | 0 <= i < |vars[1..]|
          ensures BraceFree(vars[1..][i].0) && '{' !in ValueString(vars[1..][i].1)
        {
          assert vars[1..][i] == vars[i + 1];
        }
      }
      SubstituteRender(Bind(segs, key, value), vars[1..]);
    }
  }

  /** A hole of the template shows up as its placeholder in the text. */
  lemma {:induction false} HoleOccurs(segs: seq<Segment>, k: string)
    requires Hole(k) in segs
    ensures Occurs(Render(segs), Placeholder(k))
    decreases |segs|
  {
    var p := Placeholder(k);
    var head := Show(segs[0]);
    var tail := Render(segs[1..]);
    if segs[0] == Hole(k) {
      assert (head + tail)[0..|p|] == p;
      assert MatchAt(Render(segs), p, 0);
    } else {
      assert Hole(k) in segs[1..];
      HoleOccurs(segs[1..], k);
      var m: nat :| MatchAt(tail, p, m);
      assert (head + tail)[|head| + m..|head| + m + |p|] == tail[m..m + |p|];
      assert MatchAt(Render(segs), p, |head| + m);
    }
  }

  /** The value bound by the first entry for `key`, if any. */
  function Lookup(vars: seq<(string, VarValue)>, key: string): (r: Option<VarValue>)
    ensures r.None? <==> forall i :: 0 <= i < |vars| ==> vars[i].0 != key
    ensures r.Some? ==> exists i :: 0 <= i < |vars| && vars[i] == (key, r.value)
    decreases |vars|
  {
    if |vars| == 0 then None
    else if vars[0].0 == key then Some(vars[0].1)
    else
      assert forall i :: 0 <= i < |vars[1..]| ==> vars[1..][i] == vars[i + 1];
      Lookup(vars[1..], key)
  }

  /** What a segment becomes once every entry has been bound: a hole takes the
      value of the first entry for its key, or stays a hole when there is none. */
  function Filled(g: Segment, vars: seq<(string, VarValue)>): Segment {
    match g
    case Lit(_) => g
    case Hole(k) =>
      match Lookup(vars, k)
      case None => g
      case Some(v) => Lit(ValueString(v))
  }

  /** Binding entry by entry fills each hole from the first entry for its key
      and leaves fixed text alone. */
  lemma {:induction false} BindAllAt(segs: seq<Segment>, vars: seq<(string, VarValue)>)
    ensures |BindAll(segs, vars)| == |segs|
    ensures forall i :: 0 <= i < |segs| ==> BindAll(segs, vars)[i] == Filled(segs[i], vars)
    decreases |vars|
  {
    if |vars| > 0 {
      var key, value := vars[0].0, ValueString(vars[0].1);
      var once := Bind(segs, key, value);
      BindAllAt(once, vars[1..]);
      forall i | 0 <= i < |segs|
        ensures BindAll(segs, vars)[i] == Filled(segs[i], vars)
      {
        if segs[i] != Hole(key) {
          assert once[i] == segs[i];
          if segs[i].Hole? {
            assert Lookup(vars, segs[i].key) == Lookup(vars[1..], segs[i].key);
          }
        }
      }
    }
  }

  lemma RenderOne(g: Segment)
    ensures Render([g]) == Show(g)
  {
    assert [g][1..] == [];
  }

  /** Binding never touches fixed text added at the end. */
  lemma {:induction false} BindAllThenLit(segs: seq<Segment>, tail: string, vars: seq<(string, VarValue)>)
    ensures BindAll(segs + [Lit(tail)], vars) == BindAll(segs, vars) + [Lit(tail)]
    decreases |vars|
  {
    if |vars| > 0 {
      var key, value := vars[0].0, ValueString(vars[0].1);
      assert Bind(segs + [Lit(tail)], key, value) == Bind(segs, key, value) + [Lit(tail)];
      BindAllThenLit(Bind(segs, key, value), tail, vars[1..]);
    }
  }

  /** Substitution into a well-formed template followed by placeholder-free
      text fills the template's holes and keeps the text. */
  lemma SubstituteThenText(segs: seq<Segment>, tail: string, vars: seq<(string, VarValue)>)
    requires WellFormed(segs) && '{' !in tail && PlainBindings(vars)
    ensures Substitute(Render(segs) + tail, vars) == Render(BindAll(segs, vars)) + tail
  {
    var all := segs + [Lit(tail)];
    assert WellFormed(all) by {
      forall i | 0 <= i < |all| ensures SegmentOk(all[i]) {
        if i < |segs| { assert all[i] == segs[i]; }
      }
    }
    RenderOne(Lit(tail));
    RenderAppend(segs, [Lit(tail)]);
    SubstituteRender(all, vars);
    BindAllThenLit(segs, tail, vars);
    RenderAppend(BindAll(segs, vars), [Lit(tail)]);
  }

  /** Fixed texts with a hole for each of `keys` between them, in order. */
  function Layout(texts: seq<string>, keys: seq<string>): (r: seq<Segment>)
    requires |texts| == |keys| + 1
    ensures |r| == 2 * |keys| + 1
    ensures forall j :: 0 <= j < |r| ==> r[j] == if j % 2 == 0 then Lit(texts[j / 2]) else Hole(keys[j / 2])
    decreases |keys|
  {
    if |keys| == 0 then [Lit(texts[0])]
    else
      var rest := Layout(texts[1..], keys[1..]);
      assert forall j :: 2 <= j < 2 + |rest| ==> (j - 2) / 2 == j / 2 - 1 && (j - 2) % 2 == j % 2;
      [Lit(texts[0]), Hole(keys[0])] + rest
  }

  /** A layout of text without `{` around brace-free keys is well formed. */
  lemma LayoutWellFormed(texts: seq<string>, keys: seq<string>)
    requires |texts| == |keys| + 1
    requires forall i :: 0 <= i < |texts| ==> '{' !in texts[i]
    requires forall i :: 0 <= i < |keys| ==> BraceFree(keys[i])
    ensures WellFormed(Layout(texts, keys))
  {
    var r := Layout(texts, keys);
    forall j | 0 <= j < |r| ensures SegmentOk(r[j]) {
      assert 0 <= j / 2 < |texts|;
    }
  }

  /** The text of a layout holds the placeholder of every one of its keys. */
  lemma LayoutMentions(texts: seq<string>, keys: seq<string>, i: nat)
    requires |texts| == |keys| + 1 && i < |keys|
    ensures Occurs(Render(Layout(texts, keys)), Placeholder(keys[i]))
  {
    var r := Layout(texts, keys);
    assert (2 * i + 1) / 2 == i && (2 * i + 1) % 2 == 1;
    assert r[2 * i + 1] == Hole(keys[i]);
    HoleOccurs(r, keys[i]);
  }

  /** Fixed texts with the given values between them. */
  function Interleave(texts: seq<string>, values: seq<string>): string
    requires |texts| == |values| + 1
    decreases |values|
  {
    if |values| == 0 then texts[0] else texts[0] + values[0] + Interleave(texts[1..], values[1..])
  }

  /** Text segments alternating between `texts` and `values` render as the
      interleaving of the two. */
  lemma {:induction false} RenderAlternating(segs: seq<Segment>, texts: seq<string>, values: seq<string>)
    requires |texts| == |values| + 1 && |segs| == 2 * |values| + 1
    requires forall j :: 0 <= j < |segs| ==> segs[j] == if j % 2 == 0 then Lit(texts[j / 2]) else Lit(values[j / 2])
    ensures Render(segs) == Interleave(texts, values)
    decreases |values|
  {
    if |values| == 0 {
      RenderOne(segs[0]);
      assert segs == [segs[0]];
    } else {
      var rest := segs[2..];
      forall j | 0 <= j < |rest|
        ensures rest[j] == if j % 2 == 0 then Lit(texts[1..][j / 2]) else Lit(values[1..][j / 2])
      {
        assert rest[j] == segs[j + 2];
        assert (j + 2) / 2 == j / 2 + 1 && (j + 2) % 2 == j % 2;
      }
      RenderAlternating(rest, texts[1..], values[1..]);
      assert segs[1..][1..] == rest;
      assert Render(segs) == texts[0] + (values[0] + Render(rest));
    }
  }

  /** Binding a value to every key of a layout turns its text into the fixed
      texts interleaved with those values. */
  lemma FillLayout(texts: seq<string>, keys: seq<string>, vars: seq<(string, VarValue)>, values: seq<string>)
    requires |texts| == |keys| + 1 && |values| == |keys|
    requires forall i :: 0 <= i < |keys| ==>
      Lookup(vars, keys[i]).Some? && ValueString(Lookup(vars, keys[i]).value) == values[i]
    ensures Render(BindAll(Layout(texts, keys), vars)) == Interleave(texts, values)
  {
    var segs := Layout(texts, keys);
    var filled := BindAll(segs, vars);
    BindAllAt(segs, vars);
    forall j | 0 <= j < |filled|
      ensures filled[j] == if j % 2 == 0 then Lit(texts[j / 2]) else Lit(values[j / 2])
    {
      assert filled[j] == Filled(segs[j], vars);
    }
    RenderAlternating(filled, texts, values);
  }

  // ---------------------------------------------------------------------------
  // The base prompt and the presets

  const BaseLead: string :=
    "You are an AI assistant " + "analyzing a document. " + "Here is the extracted "
    + "data from the document:" + "\n\nDocument: "
  const PagesLabel: string := "\nPages: "
  const PreviewLabel: string := "\nContent Preview: "
  const TablesLabel: string := "\nTables Found: "
  const PairsLabel: string := "\nKey-Value Pairs: "
  const BaseClosing: string :=
    "\n\nPlease answer the user's " + "question based on this " + "document data."

  /** The fixed text of the base prompt, around its holes. */
  const BaseTexts: seq<string> := [BaseLead, PagesLabel, PreviewLabel, TablesLabel, PairsLabel, BaseClosing]

  /** The base prompt: its fixed text with a hole for each available variable,
      in the order they are listed. */
  const BaseSegments: seq<Segment> := Layout(BaseTexts, VariableKeys)

  /** The prompt every preset starts with. */
  const BasePrompt: string := Render(BaseSegments)

  /** The opening of a style's instructions: its heading line between blank
      lines. The instructions that follow the heading are not modelled. */
  function StyleGuide(heading: string): string {
    "\n\n" + heading + "\n\n"
  }

  /** The settings that tell one preset from another. */
  datatype PresetSpec = PresetSpec(
    id: string,
    name: string,
    description: string,
    style: string,
    maxTokens: int,
    temperature: real,
    heading: string)

  /** The heading line of each style's instructions. */
  const StructuredHeading: string := "\U{1F4DA} STRUCTURED RESPONSE FORMAT:"
  const DetailedHeading: string := "\U{1F4D6} DETAILED ANALYSIS FORMAT:"
  const ConciseHeading: string := "\U{1F3AF} CONCISE RESPONSE FORMAT:"
  const ShortHeading: string := "\U{26A1} SHORT RESPONSE FORMAT:"
  const LongHeading: string := "\U{1F4DA} EXTENSIVE RESPONSE FORMAT:"
  const TechnicalHeading: string := "\U{1F527} TECHNICAL RESPONSE FORMAT:"
  const SummaryHeading: string := "\U{1F4CA} EXECUTIVE SUMMARY FORMAT:"
  const QaHeading: string := "\U{2753} QUESTION-ANSWER FORMAT:"

  const PresetSpecs: seq<PresetSpec> := [
    PresetSpec("structured", "Structured", "Organized sections with tables, lists, and clear headings",
      "structured", 1500, 0.7, StructuredHeading),
    PresetSpec("detailed", "Detailed", "Comprehensive analysis with deep insights and thorough explanations",
      "detailed", 2000, 0.8, DetailedHeading),
    PresetSpec("concise", "Concise", "Brief, to-the-point responses focused on key information",
      "concise", 800, 0.6, ConciseHeading),
    PresetSpec("short", "Short", "Minimal, quick answers with essential facts only",
      "short", 500, 0.5, ShortHeading),
    PresetSpec("long", "Long", "Extensive, thorough explanations with maximum detail",
      "long", 3000, 0.8, LongHeading),
    PresetSpec("technical", "Technical", "Technical language with specifications and precise terminology",
      "technical", 1500, 0.6, TechnicalHeading),
    PresetSpec("summary", "Executive Summary", "High-level overview in executive summary style",
      "summary", 1000, 0.7, SummaryHeading),
    PresetSpec("qa", "Q&A Format", "Question-answer format with clear, direct responses",
      "qa", 1200, 0.7, QaHeading)
    ]

  /** A preset: built in, with the base prompt followed by the style's
      instructions. */
  function Preset(spec: PresetSpec): Template {
    Template(spec.id, spec.name, spec.description, false, BasePrompt + StyleGuide(spec.heading),
             spec.style, spec.maxTokens, spec.temperature, "", "")
  }

  /** One preset per entry of `specs`, in order. */
  function PresetsOf(specs: seq<PresetSpec>): (r: seq<Template>)
    ensures |r| == |specs|
    ensures forall i :: 0 <= i < |specs| ==> r[i] == Preset(specs[i])
  {
    if |specs| == 0 then [] else [Preset(specs[0])] + PresetsOf(specs[1..])
  }

  /** `PRESET_TEMPLATES`, in the source's order. */
  const Presets: seq<Template> := PresetsOf(PresetSpecs)

  /** The presets have pairwise distinct ids. */
  lemma PresetIdsDistinct()
    ensures DistinctIds(Presets)
  {
    assert forall i, j :: 0 <= i < j < |PresetSpecs| ==> PresetSpecs[i].id != PresetSpecs[j].id;
  }

  /** No preset has an empty id. */
  lemma PresetIdNonEmpty(i: nat)
    requires i < |Presets|
    ensures Presets[i].id != ""
  {
    assert Presets[i].id == PresetSpecs[i].id;
  }

  /** `getTemplateById`: the preset with that id, if any. */
  function GetTemplateById(id: string): (r: Option<Template>)
    ensures r.Some? ==> r.value in Presets && r.value.id == id
    ensures r.Some? ==> forall t :: t in Presets && t.id == id ==> t == r.value
    ensures r.None? <==> forall t :: t in Presets ==> t.id != id
  {
    PresetIdsDistinct();
    var r := Find(Presets, id);
    if r.Some? then FindUnique(Presets, id, r.value); r else r
  }

  /** `DEFAULT_TEMPLATE_ID`. */
  const DefaultTemplateId: string := "structured"

  /** An entry of `AVAILABLE_VARIABLES`. */
  datatype Variable = Variable(key: string, description: string)

  /** The keys of the available variables, in order. */
  const VariableKeys: seq<string> := ["fileName", "pageCount", "textContent", "tableCount", "keyValueCount"]

  function Keys(vs: seq<Variable>): (r: seq<string>)
    ensures |r| == |vs|
    ensures forall i :: 0 <= i < |vs| ==> r[i] == vs[i].key
  {
    if |vs| == 0 then [] else [vs[0].key] + Keys(vs[1..])
  }

  const AvailableVariables: seq<Variable> := [
    Variable("fileName", "Name of the uploaded document"),
    Variable("pageCount", "Number of pages in the document"),
    Variable("textContent", "Preview of document text content"),
    Variable("tableCount", "Number of tables found"),
    Variable("keyValueCount", "Number of key-value pairs extracted")
    ]

  lemma StructuredDetailedBraceFree()
    ensures '{' !in StructuredHeading && '{' !in DetailedHeading
  {
  }

  lemma ConciseShortBraceFree()
    ensures '{' !in ConciseHeading && '{' !in ShortHeading
  {
  }

  lemma LongTechnicalBraceFree()
    ensures '{' !in LongHeading && '{' !in TechnicalHeading
  {
  }

  lemma SummaryQaBraceFree()
    ensures '{' !in SummaryHeading && '{' !in QaHeading
  {
  }

  /** No heading opens a placeholder. */
  lemma HeadingsBraceFree()
    ensures forall i :: 0 <= i < |PresetSpecs| ==> '{' !in PresetSpecs[i].heading
  {
    StructuredDetailedBraceFree();
    ConciseShortBraceFree();
    LongTechnicalBraceFree();
    SummaryQaBraceFree();
  }

  /** There are eight presets, none custom, each styled after its own id. */
  lemma PresetsBuiltIn()
    ensures |Presets| == 8
    ensures forall i :: 0 <= i < |Presets| ==> !Presets[i].isCustom
    ensures forall i :: 0 <= i < |Presets| ==> Presets[i].outputStyle == Presets[i].id
  {
  }

  /** The instructions a preset appends to the base prompt open no
      placeholder. */
  lemma StyleGuideBraceFree(heading: string)
    requires '{' !in heading
    ensures '{' !in StyleGuide(heading)
  {
    assert StyleGuide(heading) == "\n\n" + (heading + "\n\n");
  }

  /** Every preset's prompt is the base prompt followed by text with no `{`
      in it. */
  lemma PresetPrompts()
    ensures forall i :: 0 <= i < |Presets| ==>
      Presets[i].systemPrompt == BasePrompt + StyleGuide(PresetSpecs[i].heading)
      && '{' !in StyleGuide(PresetSpecs[i].heading)
  {
    HeadingsBraceFree();
    forall i | 0 <= i < |Presets|
      ensures '{' !in StyleGuide(PresetSpecs[i].heading)
    {
      StyleGuideBraceFree(PresetSpecs[i].heading);
    }
  }

  /** The default id names a preset: the first one. */
  lemma DefaultTemplateExists()
    ensures GetTemplateById(DefaultTemplateId) == Some(Presets[0])
  {
    assert Presets[0].id == DefaultTemplateId;
    PresetIdsDistinct();
    FindUnique(Presets, DefaultTemplateId, Presets[0]);
  }

  lemma LeadStartBraceFree()
    ensures '{' !in "You are an AI assistant " + "analyzing a document. "
  {
    assert '{' !in "You are an AI assistant ";
    assert '{' !in "analyzing a document. ";
  }

  lemma LeadBraceFree()
    ensures '{' !in BaseLead
  {
    LeadStartBraceFree();
    assert '{' !in "Here is the extracted ";
    assert '{' !in "data from the document:";
    assert '{' !in "\n\nDocument: ";
  }

  lemma ClosingBraceFree()
    ensures '{' !in BaseClosing
  {
    assert '{' !in "\n\nPlease answer the user's ";
    assert '{' !in "question based on this ";
    assert '{' !in "document data.";
  }

  lemma LabelsBraceFree()
    ensures '{' !in PagesLabel && '{' !in PreviewLabel && '{' !in TablesLabel && '{' !in PairsLabel
  {
  }

  /** The variables are listed with the keys of `VariableKeys`. */
  lemma AvailableKeys()
    ensures Keys(AvailableVariables) == VariableKeys
  {
    var ks := Keys(AvailableVariables);
    assert ks[0] == "fileName" && ks[1] == "pageCount" && ks[2] == "textContent";
    assert ks[3] == "tableCount" && ks[4] == "keyValueCount";
  }

  /** A non-empty run of ASCII letters: a key with no character that a
      regular expression treats specially. */
  predicate LettersOnly(k: string) {
    |k| > 0 && forall t :: 0 <= t < |k| ==> ('a' <= k[t] <= 'z' || 'A' <= k[t] <= 'Z')
  }

  /** Every key offered, and so every key the prompt generator binds, is made
      of letters only: the pattern built from it has no special character,
      and no key looks like an array index. */
  lemma KeysAreLetters()
    ensures forall i :: 0 <= i < |VariableKeys| ==> LettersOnly(VariableKeys[i])
  {
    assert LettersOnly("fileName") && LettersOnly("pageCount") && LettersOnly("textContent");
    assert LettersOnly("tableCount") && LettersOnly("keyValueCount");
  }

  lemma KeysBraceFree()
    ensures forall i :: 0 <= i < |VariableKeys| ==> BraceFree(VariableKeys[i])
  {
    assert BraceFree("fileName") && BraceFree("pageCount") && BraceFree("textContent");
    assert BraceFree("tableCount") && BraceFree("keyValueCount");
  }

  lemma BaseSegmentsWellFormed()
    ensures WellFormed(BaseSegments)
  {
    LeadBraceFree();
    ClosingBraceFree();
    LabelsBraceFree();
    KeysBraceFree();
    LayoutWellFormed(BaseTexts, VariableKeys);
  }

  /** The base prompt holds a `{key}` placeholder for each available variable. */
  lemma BasePromptMentionsEveryVariable()
    ensures forall v :: v in AvailableVariables ==> Occurs(BasePrompt, Placeholder(v.key))
  {
    var keys := Keys(AvailableVariables);
    AvailableKeys();
    forall v | v in AvailableVariables
      ensures Occurs(BasePrompt, Placeholder(v.key))
    {
      var i :| 0 <= i < |AvailableVariables| && AvailableVariables[i] == v;
      LayoutMentions(BaseTexts, keys, i);
    }
  }

  /** Substituting into the base prompt followed by placeholder-free text
      fills the base prompt's holes and keeps the text after it. */
  lemma FillBasePrompt(tail: string, vars: seq<(string, VarValue)>)
    requires '{' !in tail && PlainBindings(vars)
    ensures Substitute(BasePrompt + tail, vars) == Render(BindAll(BaseSegments, vars)) + tail
  {
    BaseSegmentsWellFormed();
    SubstituteThenText(BaseSegments, tail, vars);
  }
}

=== FILE: wrappers.dfy ===
/** Option and Result values used for the source's `undefined`, thrown errors and
    fallible reads of browser storage. */
module Wrappers {

  datatype Option<+T> = None | Some(value: T) {

    /** The value, or `default` when there is none (the source's `x ?? default`). */
    function GetOr(default: T): T {
      match this
      case Some(v) => v
      case None => default
    }
  }

  /** The outcome of an operation that either returns a value or throws an
      error carrying a message. */
  datatype Result<+R, +E> = Ok(value: R) | Err(error: E) {

    predicate IsFailure() {
      Err?
    }

    function PropagateFailure<U>(): Result<U, E>
      requires Err?
    {
      Err(error)
    }

    function Extract(): R
      requires Ok?
    {
      value
    }
  }
}
